=== FILE: README.md ===
# TAF repository store, commit bookkeeping and lifecycle dispatcher in Dafny

This project models three parts of TAF, the framework that keeps a tree of git
repositories authenticated by signed metadata:

- **The commit-indexed repository store** (`taf/repositoriesdb.py`). Two process-wide
  maps, `auth repo path -> commit -> (repository path -> handle)`, hold the target
  repositories and the included authentication repositories ("dependencies"). The
  loaders fill these maps one commit at a time and memoize each commit. Around them
  sit the URL resolver (explicit URLs or `{org_name}`/`{repo_name}` mirror templates),
  the custom-data merge, class selection, host assignment, the accessors (one commit,
  a deduplicated overlay of several commits, custom-data filters) and
  `repositories_loaded`.
- **Commit and branch bookkeeping** (`taf/auth_repo.py`). This covers the
  configuration directory, `is_commit_authenticated`, `target_commits_at_revisions`
  and `sorted_commits_and_branches_per_repositories`.
- **The lifecycle-event dispatcher** (`taf/updater/lifecycle_handlers.py`). It covers
  the stage and event name maps, the script directory of a (stage, event) pair, the
  order of the event buckets, `prepare_data_repo`, and the `execute_scripts` loop. That
  loop shallow-merges each script's `transient` and `persistent` output into the
  shared context and saves the persistent map.

Git, the signed-metadata layer and the script runner are parameters: datatypes of
functions (`MetadataSource`, `AuthSource`, `ScriptSource`). A metadata read yields
`NotAvailable`, `InvalidJson` or `Parsed(doc)`. Repository classes and factories are
functions that return a handle or the message of the exception they raised.

Modules, one file each:

- `Wrappers`: `Option` and `Result`.
- `JsonValues`: JSON values and the read outcome.
- `Paths`: POSIX pure paths as pathlib reads and prints them (components, anchor,
  `parent`, `name`, `/`, `suffix`), `os.path.normpath` and `os.path.basename`.
- `Sorting`: `sorted` on strings.
- `RepoHelpers`: the pure helpers of the store.
- `RepositoriesSpec`: the loaders and accessors as functions, with their lemmas.
- `RepositoriesDb`: the class `RepositoryStore`. Its methods update the two maps, and
  they are proved against `RepositoriesSpec`.
- `AuthRepo`: the bookkeeping functions, methods and lemmas.
- `LifecycleHandlers`: the dispatcher. The class `ScriptData` is the `data` dict whose
  maps the scripts update, and the class `Effects` records script invocations and saves.

Where the written description of the system and its code differ, the model follows
the code:

- **URLs are resolved before the targets filter.** A path that `only_load_targets`
  would skip still has its URLs resolved, so a bad path raises
  (`taf/repositoriesdb.py:226-229`).
- **The org/repo split.** A mirror URL needs a path that `split("/")` cuts into exactly
  two parts. The path is not cut at its last separator, so `a/b/c` is rejected
  (`taf/repositoriesdb.py:326-331`).
- **Invalid repositories.json raises.** An invalid repositories.json raises
  `InvalidOrMissingMetadataError`. Only a missing one is skipped
  (`taf/repositoriesdb.py:550-558`).
- **A failed load keeps its partial map.** A commit's map is registered in the store
  before it is filled. When a repository fails, the map keeps the handles stored before
  the failure (`taf/repositoriesdb.py:214, 226-256`).
- **Every non-empty output is saved.** The persistent map is saved after every script
  with non-empty output, even when that output has no `persistent` entry
  (`taf/updater/lifecycle_handlers.py:151-159`).

Two quirks of the dispatcher are kept as written:

- `_handle_event` passes the persistent map where `prepare_data_repo` expects the
  transient one, and the reverse.
- The context's `changed` entry is always false.

## Model

| member | source | states |
|---|---|---|
| RepoHelpers.RenderLiteral | taf/repositoriesdb.py:333 | text without braces is copied unchanged by `mirror.format` |
| RepoHelpers.RenderOrgPlaceholder | taf/repositoriesdb.py:333 | `{org_name}` is replaced by the organisation |
| RepoHelpers.RenderRepoPlaceholder | taf/repositoriesdb.py:333 | `{repo_name}` is replaced by the repository name |
| RepoHelpers.RenderEscapedBraces | taf/repositoriesdb.py:333 | `{{` renders as `{` and `}}` as `}` |
| RepoHelpers.RenderRejectsLoneClosingBrace | taf/repositoriesdb.py:333 | a `}` that is not doubled makes `mirror.format` raise |
| RepoHelpers.RenderRejectsOtherField | taf/repositoriesdb.py:333 | a plain field other than `{org_name}`/`{repo_name}` (no conversion, format spec, attribute or index) makes `mirror.format` raise |
| RepoHelpers.RenderRejectsUnclosedField | taf/repositoriesdb.py:333 | a `{` that is never closed makes `mirror.format` raise, whatever follows it |
| RepoHelpers.RenderMirror | taf/repositoriesdb.py:333 | a brace-free template `a{org_name}b{repo_name}c` renders to `a org b repo c` |
| RepoHelpers.RenderAll | taf/repositoriesdb.py:333 | every mirror renders, one URL per mirror in order, or the first mirror that does not format is the error |
| RepoHelpers.SplitOrgRepoSpec | taf/repositoriesdb.py:326-331 | the path unpacks into (org, repo) exactly when it is `org/repo` with no other `/` |
| RepoHelpers.GetUrls | taf/repositoriesdb.py:317-333 | explicit URLs are returned verbatim; with no mirrors, or a path not of the org/repo form, it fails with RepositoryInstantiationError naming the path; otherwise it returns one rendered URL per mirror, in mirror order, or fails with a format error (not a RepositoryInstantiationError) naming the first mirror that does not format |
| RepoHelpers.GetUrlsFromMirror | taf/repositoriesdb.py:317-333 | the worked example: a brace-free `.../{org_name}/{repo_name}.git` mirror resolves `org/name` to `.../org/name.git` |
| RepoHelpers.GetUrlsEscapedBraces | taf/repositoriesdb.py:317-333 | a mirror such as `{{org_name}}/{repo_name}` resolves `org/name` to `{org_name}/name` |
| RepoHelpers.GetUrlsUnknownField | taf/repositoriesdb.py:317-333 | a mirror `{org}/x` makes the lookup fail with the format error |
| RepoHelpers.GetCustomData | taf/repositoriesdb.py:284-289 | without target custom data the repository's own custom data is kept; otherwise the keys are the union, target values win, and repository-only keys survive |
| RepoHelpers.CustomDataExample | taf/repositoriesdb.py:284-289 | a target `type` overrides the repository's `type`, and `owner` survives |
| RepoHelpers.DetermineRepoClass | taf/repositoriesdb.py:265-281 | no policy gives NamedGitRepository; a single class is used for every path; a map gives the path's class, else its "default", else NamedGitRepository |
| RepoHelpers.GetJsonFile | taf/repositoriesdb.py:304-314 | success exactly when the file parsed; a git failure maps to "not available at revision", a JSON failure to "not a valid json" |
| RepoHelpers.LoadSkippableJson | taf/repositoriesdb.py:533-558 | a missing repositories.json/dependencies.json gives None; an invalid one raises; a parsed one is returned |
| RepoHelpers.LoadMirrorsJson | taf/repositoriesdb.py:561-571 | the mirrors list when mirrors.json parsed and has "mirrors"; None on any failure |
| RepoHelpers.ClaimedIn | taf/repositoriesdb.py:592-598 | the hosts of one declaration that list the repository, each stored without its `auth_repos` entry |
| RepoHelpers.HostsOfFails | taf/repositoriesdb.py:594 | host assignment fails exactly when some host lacks `auth_repos` or its value does not support `in` |
| RepoHelpers.HostsOfMembers | taf/repositoriesdb.py:590-601 | a host is assigned exactly when some declaration lists the repository under it |
| RepoHelpers.HostsOfLastWins | taf/repositoriesdb.py:592-598 | an assigned host's data comes from the last declaration that lists the repository, without `auth_repos` |
| RepoHelpers.SetHostsOfRepo | taf/repositoriesdb.py:590-601 | the repository's hosts become exactly the assignment, `{}` when nothing matches; a malformed declaration raises |
| RepositoriesSpec.EffectiveOnlyTargets | taf/repositoriesdb.py:205-206 | non-empty roles force `only_load_targets`; otherwise the argument is kept |
| RepositoriesSpec.TargetsLoadOf | taf/repositoriesdb.py:202-206 | a factory takes precedence over repository classes; the root directory defaults to `Path(auth_repo.path).parent.parent`; roles force `only_load_targets` |
| RepositoriesSpec.DefaultRootDirParts | taf/repositoriesdb.py:203 | the default root directory is the auth repo path without its last two pathlib components, with the same anchor |
| RepositoriesSpec.DefaultRootDirTrailingSeparator | taf/repositoriesdb.py:203 | a trailing `/` on the auth repo path does not change the default root directory |
| RepositoriesSpec.TargetEntryStep | taf/repositoriesdb.py:226-256 | a URL failure raises even for a path the targets filter skips; a non-target is skipped; a stored handle is the one the factory or class built from the resolved URLs and merged custom data; a constructor exception becomes RepositoryInstantiationError at root/path |
| RepositoriesSpec.LoadTargetsCommit | taf/repositoriesdb.py:216-224 | a missing repositories.json leaves the commit's map empty without error; an invalid one leaves it empty and raises |
| RepositoriesSpec.FillTargetsStored | taf/repositoriesdb.py:226-256 | every stored path is declared in repositories.json with a storing step, and is a signed target when `only_load_targets` holds |
| RepositoriesSpec.FillTargetsComplete | taf/repositoriesdb.py:226-256 | after a pass without error, every storing entry is in the map with its handle and no skipped path is |
| RepositoriesSpec.FillTargetsUntouched | taf/repositoriesdb.py:226-256 | a path not declared in the file is left as it was |
| RepositoriesSpec.FillTargetsError | taf/repositoriesdb.py:226-247 | an error comes from the first raising entry, and only the entries before it were stored |
| RepositoriesSpec.LoadTargetCommitsKeeps | taf/repositoriesdb.py:208-214 | commits already in the store keep their maps, and only the requested commits are added |
| RepositoriesSpec.LoadTargetCommitsRegisters | taf/repositoriesdb.py:208-218 | a newly registered commit holds what that commit's load produced |
| RepositoriesSpec.LoadTargetCommitsComplete | taf/repositoriesdb.py:208-214 | after a load without error, every requested commit is registered |
| RepositoriesSpec.LoadTargetCommitsNoop | taf/repositoriesdb.py:210-212 | loading commits that are all present changes nothing and raises nothing |
| RepositoriesSpec.LoadTargetCommitsIdempotent | taf/repositoriesdb.py:208-212 | a second load of the same commits is a no-op, even with other classes, roles or root directory |
| RepositoriesSpec.LoadedRepositoriesAreTargets | taf/repositoriesdb.py:224-229 | with `only_load_targets`, every repository loaded at a commit is a signed target at that commit |
| RepositoriesSpec.DependencyEntryStep | taf/repositoriesdb.py:105-135 | a RepositoryInstantiationError from the URL lookup is reported as such, any other URL failure raises; a stored dependency is the built handle with the hosts that the inherited declarations plus its own hosts.json give it (line 134 as corrected, see "## Findings") |
| RepositoriesSpec.DependencyEntryErrors | taf/repositoriesdb.py:121-134 | once the URLs resolve: a constructor failure raises RepositoryInstantiationError at `root_dir/path`, and a failing hosts.json read or host assignment raises its own error (line 134 as corrected, see "## Findings") |
| RepositoriesSpec.FillDependenciesError | taf/repositoriesdb.py:105-135 | an error that ends a commit's fill is the error of the first entry that raises, and every earlier entry was stored |
| RepositoriesSpec.DependencyRaiseEndsCommit | taf/repositoriesdb.py:105-135 | an entry that raises after stored entries ends the commit with exactly its error, and the map keeps what it held |
| RepositoriesSpec.LoadDependenciesCommit | taf/repositoriesdb.py:96-100 | a missing dependencies.json leaves the commit's map empty without error; one that is not valid JSON leaves it empty and raises InvalidOrMissingMetadataError for that file and commit |
| RepositoriesSpec.DependencyUrlFailureEmpties | taf/repositoriesdb.py:105-110 | a RepositoryInstantiationError from the URL lookup empties the commit's dependency map and stops that commit without raising |
| RepositoriesSpec.DependenciesLoadOf | taf/repositoriesdb.py:82-83 | the class defaults to NamedAuthenticationRepo and the root directory to `Path(auth_repo.path).parent.parent` |
| RepositoriesSpec.SeedHosts | taf/repositoriesdb.py:87-89 | a commit with inherited declarations keeps them; otherwise a successful read registers the commit; no commit is dropped (the seed of lines 85-86 as corrected, see "## Findings") |
| RepositoriesSpec.HostsArgument | taf/repositoriesdb.py:134 | the declarations passed on are a list concatenation that Python accepts |
| RepositoriesSpec.LoadDependencyCommitsKeeps | taf/repositoriesdb.py:87-96 | commits already in the store keep their maps, and only the requested commits are added |
| RepositoriesSpec.LoadDependencyReloadReadsHosts | taf/repositoriesdb.py:87-94 | hosts.json is read before the memo check, so re-loading a stored commit can still raise |
| RepositoriesSpec.LoadDependencyCommitsNoop | taf/repositoriesdb.py:87-94 | loading stored commits whose hosts are known changes nothing |
| RepositoriesSpec.SeedHostsAsWrittenFails | taf/repositoriesdb.py:85-89 | as written, without ancestor hosts the first commit raises TypeError |
| RepositoriesSpec.SeedHostsCorrected | taf/repositoriesdb.py:85-89 | with an empty map as the seed, the first commit registers its own hosts.json |
| RepositoriesSpec.HostsArgumentAsWrittenFails | taf/repositoriesdb.py:134 | as written, a list plus a dict always raises TypeError |
| RepositoriesSpec.HostsFromAncestorAndOwn | taf/repositoriesdb.py:134 | corrected, a dependency gets hosts from both its ancestor's declaration and its own |
| RepositoriesSpec.GetCommitMap | taf/repositoriesdb.py:462-494 | an auth repo never loaded, or a commit not loaded, raises RepositoriesNotFoundError; otherwise it returns that commit's map |
| RepositoriesSpec.LoadedCommitIsFound | taf/repositoriesdb.py:208-214 | after a load without error, every requested commit can be looked up |
| RepositoriesSpec.OverlayPrefixFails | taf/repositoriesdb.py:406-418 | the first commit that is not loaded decides the error |
| RepositoriesSpec.OverlayFails | taf/repositoriesdb.py:406-418 | deduplication fails exactly when some commit is not loaded, naming the first one |
| RepositoriesSpec.OverlayLatestWins | taf/repositoriesdb.py:404-429 | the keys are the union over the commits, and each path holds the handle of the last commit that has it |
| RepositoriesSpec.FilterByCustomData | taf/repositoriesdb.py:505-530 | exactly the repositories whose custom data contains the query are kept unchanged; no match raises RepositoriesNotFoundError |
| RepositoriesSpec.MatchingPaths | taf/repositoriesdb.py:348-358 | the paths whose merged custom data contains the query, no more paths than entries |
| RepositoriesSpec.AllPaths | taf/repositoriesdb.py:358 | the declared paths in file order |
| RepositoriesSpec.PathsByCustomData | taf/repositoriesdb.py:336-371 | a missing or invalid repositories.json raises; an empty query gives every path; a query gives exactly the matching paths; no path raises |
| RepositoriesSpec.AnyRepositoriesLoadedIff | taf/repositoriesdb.py:580-587 | repositories count as loaded exactly when some commit's lookup returns a non-empty map |
| RepositoriesSpec.LoadKeepsRepositoriesLoaded | taf/repositoriesdb.py:580-587 | once repositories are loaded, a further load keeps them loaded |
| RepositoriesDb.RepositoryStore.constructor | taf/repositoriesdb.py:28-29 | both maps start empty |
| RepositoriesDb.RepositoryStore.ClearRepositories | taf/repositoriesdb.py:37-39 | the target map is emptied and the dependency map kept |
| RepositoriesDb.RepositoryStore.ClearDependencies | taf/repositoriesdb.py:42-44 | the dependency map is emptied and the target map kept |
| RepositoriesDb.RepositoryStore.LoadRepositories | taf/repositoriesdb.py:144-262 | the auth repo's entry exists afterwards; with no commits and no HEAD nothing else changes; otherwise the entry and the raised error are those of the memoizing commit loop; no other auth repo's entry and not the dependency map change |
| RepositoriesDb.RepositoryStore.LoadDependencies | taf/repositoriesdb.py:47-141 | the same for dependencies, seeded with the ancestor hosts (lines 85 and 134 as corrected, see "## Findings") |
| RepositoriesDb.RepositoryStore.GetRepositories | taf/repositoriesdb.py:448-494 | success exactly when the auth repo and the revision (HEAD by default) are loaded, returning that commit's map |
| RepositoriesDb.RepositoryStore.GetRepository | taf/repositoriesdb.py:432-437 | fails when the lookup fails; None exactly when the path is absent, otherwise its handle |
| RepositoriesDb.RepositoryStore.GetRepositoriesByCustomData | taf/repositoriesdb.py:497-530 | a non-empty result of repositories loaded at the revision whose custom data contains the query |
| RepositoriesDb.RepositoryStore.GetDeduplicated | taf/repositoriesdb.py:382-429 | the loop returns the left-to-right overlay of the commits' maps, or the first missing commit's error |
| RepositoriesDb.RepositoryStore.RepositoriesLoaded | taf/repositoriesdb.py:580-587 | true exactly when some loaded commit of the auth repo holds a repository |
| RepositoriesDb.LoadTargetsAt | taf/repositoriesdb.py:216-224 | one commit's reads and fill, as the specification function |
| RepositoriesDb.FillTargetsLoop | taf/repositoriesdb.py:226-256 | the entry loop equals the fill function |
| RepositoriesDb.LoadDependenciesAt | taf/repositoriesdb.py:96-103 | one commit's dependency reads and fill, as the specification function |
| RepositoriesDb.FillDependenciesLoop | taf/repositoriesdb.py:105-135 | the dependency entry loop equals its fill function (line 134 as corrected, see "## Findings") |
| RepositoriesDb.LoadTargetCommitsLoop | taf/repositoriesdb.py:208-262 | the commit loop, which registers each new commit's map before filling it, equals the memoizing commit function |
| RepositoriesDb.LoadDependencyCommitsLoop | taf/repositoriesdb.py:87-141 | the dependency commit loop equals its memoizing commit function (lines 85 and 134 as corrected, see "## Findings") |
| AuthRepo.ConfDirIsSibling | taf/auth_repo.py:34-37 | for every path, the configuration directory has the repository's pathlib parent, is named `_` plus the `basename` of the normalized path (the repository's own name unless it ends in `..`), and differs from the repository |
| AuthRepo.ConfDirTrailingSeparator | taf/auth_repo.py:34-37 | `a/b/` has its configuration directory where `a/b` has it, in `a/_b` |
| AuthRepo.SafeTarget | taf/auth_repo.py:186-202 | a target file that is missing or not valid JSON reads as None |
| AuthRepo.IsCommitAuthenticated | taf/auth_repo.py:64-74 | true exactly when some branch commit's target has that "commit" and no earlier target object lacks the key; false when none matches; a target object without "commit" met before any match raises, naming its commit |
| AuthRepo.InfoOf | taf/auth_repo.py:173-174 | the branch defaults to "master" and the commit to null |
| AuthRepo.Record | taf/auth_repo.py:175 | the path's entry under the commit is set, and nothing else changes |
| AuthRepo.RecordTargetsSound | taf/auth_repo.py:165-183 | every recorded entry is justified by repositories.json, a role that lists it and its target object; nothing recorded is lost; every listed repository with a target object is recorded |
| AuthRepo.RecordRolesSound | taf/auth_repo.py:158-183 | the same over all roles of a commit |
| AuthRepo.TargetCommitsFromSound | taf/auth_repo.py:144-184 | the same over all commits; commits are only added |
| AuthRepo.TargetCommitsAtRevisionsSpec | taf/auth_repo.py:141-184 | only requested commits appear; every entry holds its target file's branch and commit; an entry is present exactly when a role of the commit lists it, repositories.json declares it and its target file is an object |
| AuthRepo.TargetCommitsAtRevisions | taf/auth_repo.py:141-184 | the commit loop equals its specification function |
| AuthRepo.RecordRolesLoop | taf/auth_repo.py:158-183 | the role loop equals its specification function |
| AuthRepo.RecordTargetsLoop | taf/auth_repo.py:165-183 | the target loop equals its specification function |
| AuthRepo.AppendCommit | taf/auth_repo.py:130-132 | the commit is appended to its branch's list, created when absent; other branches are unchanged |
| AuthRepo.GroupByBranchFilters | taf/auth_repo.py:130-132 | a branch's list is the subsequence of appended commits on that branch, in order |
| AuthRepo.AppendedNoRepeats | taf/auth_repo.py:128-133 | within a path, consecutive appended commits differ unless the earlier one is null, and the last visit is kept |
| AuthRepo.AppendedFromVisits | taf/auth_repo.py:128-133 | appended commits are visits of the path, never more than the visits |
| AuthRepo.VisitCommitAt | taf/auth_repo.py:126-133 | visiting a commit updates the previous commit of each of its paths and appends exactly when the commit changed |
| AuthRepo.GroupPerPath | taf/auth_repo.py:125-133 | a path's result is its appended visits grouped by branch, and its previous commit is its last visit's |
| AuthRepo.GroupCommits | taf/auth_repo.py:122-139 | the commit loop equals the grouping function |
| AuthRepo.VisitCommitLoop | taf/auth_repo.py:126-133 | the per-commit path loop equals visiting the commit |
| AuthRepo.VisitPathsStep | taf/auth_repo.py:126-133 | one more path visited updates that path alone |
| AuthRepo.VisitedPreviousStep | taf/auth_repo.py:133 | one more path visited sets that path's previous commit and leaves the others |
| AuthRepo.VisitedResultStep | taf/auth_repo.py:129-132 | one more path visited appends for that path exactly when its commit changed |
| AuthRepo.SortedCommitsAndBranchesPerRepositories | taf/auth_repo.py:106-139 | a failure of the target reads propagates; otherwise the result is the grouping of the recorded targets |
| AuthRepo.SortedCommitsPerPath | taf/auth_repo.py:106-139 | per path, the result is its commits, without repeats, grouped by branch in commit order |
| LifecycleHandlers.StageFromName | taf/updater/lifecycle_handlers.py:16-21 | a parsed stage has that name; an unknown name raises ValueError |
| LifecycleHandlers.StageNameRoundTrip | taf/updater/lifecycle_handlers.py:16-31 | every stage's name parses back to it, and exactly stage names parse |
| LifecycleHandlers.EventFromName | taf/updater/lifecycle_handlers.py:41-46 | a parsed event has that name; an unknown name raises ValueError |
| LifecycleHandlers.EventNameRoundTrip | taf/updater/lifecycle_handlers.py:41-58 | every event's name parses back to it, and exactly event names parse |
| LifecycleHandlers.NamesHaveNoSeparator | taf/updater/lifecycle_handlers.py:27-58 | stage and event names are single path components |
| LifecycleHandlers.ScriptDirComponents | taf/updater/lifecycle_handlers.py:67-70 | the script directory is `targets/scripts/<stage>/<event>` |
| LifecycleHandlers.ScriptDirInjective | taf/updater/lifecycle_handlers.py:67-70 | distinct (stage, event) pairs have distinct script directories |
| LifecycleHandlers.PyScripts | taf/updater/lifecycle_handlers.py:139 | exactly the listed names whose suffix is ".py" |
| Paths.PySuffix | taf/updater/lifecycle_handlers.py:139 | a ".py" suffix is a final pathlib component ending in ".py", with a non-empty stem |
| Paths.ParentOfJoin | taf/auth_repo.py:35 | `(Path(d) / name)` for one component has `name` as its name and the normalized `d` as its parent |
| Paths.ParentParts | taf/repositoriesdb.py:203 | `Path(p).parent` keeps the anchor and drops the last component |
| Paths.TrailingSeparatorParts | taf/auth_repo.py:35 | a trailing `/` adds no component and keeps the anchor |
| Paths.NormPathKeepsLast | taf/auth_repo.py:34 | `basename(normpath(p))` is the last component when it is not `..` |
| Paths.JoinNameIsJoinPath | taf/updater/lifecycle_handlers.py:123 | joining a single file name, as for the persistent file, is the general pathlib join |
| Sorting.SortSpec | taf/updater/lifecycle_handlers.py:144 | `sorted` returns a sorted permutation of its input |
| LifecycleHandlers.ScriptPathsSpec | taf/updater/lifecycle_handlers.py:138-144 | the scripts run are sorted and are exactly the ".py" files of the listing joined under the repository path |
| LifecycleHandlers.Buckets | taf/updater/lifecycle_handlers.py:108-119 | "completed" runs last and only last; the event's own bucket runs first; "failed" runs only for FAILED, and "succeeded" only for success events |
| LifecycleHandlers.NormalizedEvent | taf/updater/lifecycle_handlers.py:180-183 | success events become "event/succeeded", the others "event/failed" |
| LifecycleHandlers.PrepareDataRepo | taf/updater/lifecycle_handlers.py:163-196 | `changed` is always false; the normalized event; None maps become `{}`; no error gives "" and an error its message; the repository name, the auth repo's JSON, commits and targets data are passed through |
| LifecycleHandlers.Merge | taf/updater/lifecycle_handlers.py:153-158 | succeeds exactly for a value `dict.update` accepts: absent or null (the update is skipped), an object, the empty string, or a list of string-keyed pairs; then the map is updated as `dict.update` does (union of keys, new values win, other keys kept); any other value raises, naming script and key |
| LifecycleHandlers.PairsToMapKeys | taf/updater/lifecycle_handlers.py:156-158 | after `dict.update` with a list of pairs, a key is present exactly when some pair has it |
| LifecycleHandlers.PairsToMapLastWins | taf/updater/lifecycle_handlers.py:156-158 | a key holds the value of its last pair: a pair that no later pair overrides sets its key to its value |
| LifecycleHandlers.MergeEmptyString | taf/updater/lifecycle_handlers.py:156 | `update("")` leaves the map unchanged and raises nothing |
| LifecycleHandlers.MergeNonEmptyStringFails | taf/updater/lifecycle_handlers.py:156 | a non-empty string raises, since its one-character elements are not pairs |
| LifecycleHandlers.MergeOnePair | taf/updater/lifecycle_handlers.py:156 | `update([[k, v]])` sets `k` to `v` and keeps every other key |
| LifecycleHandlers.ApplyOutput | taf/updater/lifecycle_handlers.py:149-159 | empty output changes nothing; a failed process, non-JSON output and a non-object output each raise their error with the context unchanged; the transient map is updated first (as `dict.update` reads objects, `""` and string-keyed pairs) and a bad persistent value raises with that update kept; a save happens exactly for a non-empty output that merges; only the two maps change, and only gain keys |
| LifecycleHandlers.RunScriptsSpec | taf/updater/lifecycle_handlers.py:144-160 | scripts are invoked in order up to the failing one; each save goes to the persistent file; the last save holds the final persistent map; only the two maps change, and only gain keys |
| LifecycleHandlers.EmptyOutputChangesNothing | taf/updater/lifecycle_handlers.py:151 | a script with empty output is recorded and nothing else changes |
| LifecycleHandlers.OutputWithoutPersistentStillSaves | taf/updater/lifecycle_handlers.py:151-159 | non-empty output without a `persistent` entry still saves the persistent map |
| LifecycleHandlers.RunBucketsInvokes | taf/updater/lifecycle_handlers.py:102-119 | every script invoked comes from the directory of a bucket that was run |
| LifecycleHandlers.HandleEventDispatch | taf/updater/lifecycle_handlers.py:94-119 | for the repo stage, every script run belongs to a bucket of the event; the first script sees the caller's persistent map as transient and the transient as persistent |
| LifecycleHandlers.HandleEventRaisesEarly | taf/updater/lifecycle_handlers.py:97-103 | the host stage raises TypeError, the update stage KeyError, and a missing "after_pull" KeyError, before any script runs |
| LifecycleHandlers.FirstInvocationSeesStart | taf/updater/lifecycle_handlers.py:98-111 | the first script of the first non-empty bucket receives the prepared context |
| LifecycleHandlers.FirstScriptSeesStart | taf/updater/lifecycle_handlers.py:144-150 | the first script of a run receives the context as it stood before the run |
| LifecycleHandlers.ScriptData.constructor | taf/updater/lifecycle_handlers.py:98-100 | the shared context starts as the prepared data |
| LifecycleHandlers.ExecuteScripts | taf/updater/lifecycle_handlers.py:122-160 | the loop leaves the context, invocations and saves as the script-run function says, and returns the final transient and persistent maps or the error |
| LifecycleHandlers.RunScript | taf/updater/lifecycle_handlers.py:149-159 | one pass of the loop: the script is invoked with the current context and recorded, its output is merged into `data` and the persistent map saved exactly as one step of the script-run function says, and the error it stops on is returned |
| LifecycleHandlers.ExecuteBucket | taf/updater/lifecycle_handlers.py:102-105 | one bucket's run, then the remaining buckets from the new state |
| LifecycleHandlers.ExecuteEventBuckets | taf/updater/lifecycle_handlers.py:108-119 | the fixed call sequence equals running the event's buckets in order over the shared context |
| LifecycleHandlers.HandleEvent | taf/updater/lifecycle_handlers.py:73-119 | the invocations, saves and raised error are those of the event specification, swapped maps included |

## Left out

- Git, the signed-metadata layer and the script runner are parameters of the model:
  `head_commit_sha`, `get_json`, `list_files_at_revision`, `all_commits_on_branch`,
  `get_all_targets_roles` and `repository_at_revision`. `_targets_of_roles`
  (`taf/repositoriesdb.py:574-577`) is the `signedTargets` parameter.
- `get_target_path` is not part of this model. The script directory assumes that it
  prefixes the targets directory and a `/`.
- `checkout_paths` changes the working tree and is not modelled. Neither is the
  development-mode `glob` over the working tree.
- `_safely_save_to_disk` is recorded as a save of (file, map) in `Effects.saves`. The
  file itself is not written.
- Logging is not modelled. Neither are `certs_dir`, `last_validated_commit`,
  `set_last_validated_commit`, or the `mkdir` of `conf_dir`: they are file I/O without
  logic.
- The `issubclass`/`isinstance` checks on classes and handles
  (`taf/repositoriesdb.py:117-120, 251-254`) are runtime type tests. A constructed
  handle is taken to conform.
- `get_hosts_of_repo` (`taf/repositoriesdb.py:292-301`) is unreachable dead code.
- Metadata files are typed when they are read. A repositories.json without a
  `repositories` key, or with a wrongly shaped entry, would raise a KeyError or
  AttributeError in Python; the model does not produce these errors.
- RepoHelpers.GetCustomData: returns the merge as a new map. In Python the repository's
  own `custom` dict is updated in place, and other references to it see the change;
  that aliasing is not modelled.
- LifecycleHandlers.PrepareDataRepo: the caller's transient and persistent dicts become
  the context's maps by reference. Scripts therefore also change the caller's dicts;
  that aliasing is not modelled.
- RepositoriesDb.RepositoryStore.GetRepositoriesByCustomData: returns a map keyed by
  path instead of Python's list in dict order, and states the success direction only.
  The full if-and-only-if is stated by `RepositoriesSpec.FilterByCustomData`.
- The stage prepare functions of the host and update stages are not modelled as data
  builders. They appear only as the errors they raise.
- Paths follow POSIX pure paths: repeated separators and `.` components collapse,
  and `..` is kept except under `os.path.normpath`. A leading `//`, which both pathlib
  and `normpath` keep as a distinct anchor, is read as `/`.
- The script directory (`_get_script_path`) is built by concatenation with `/`,
  because `get_target_path` is not part of this model.
- RepoHelpers.Render: a field on `org_name` or `repo_name` with a conversion, a format
  spec, an attribute or an index (`{org_name!r}`, `{repo_name:>8}`, `{org_name[0]}`)
  is treated as a format error. Python formats those.
- LifecycleHandlers.Merge: a pair whose key is a number, boolean or null, and a two-key object used as a pair, are accepted by `dict.update` but are errors here. The context's maps have string keys only, and object key order is not modelled.
- LifecycleHandlers.Merge: when the merge fails part-way through a list, Python has already applied the earlier pairs, but the model leaves the map unchanged. The error ends the event, so this shows only through a caller that aliases the maps.
- LifecycleHandlers.ApplyOutput: inherits the two `Merge` gaps above, for the `transient` and `persistent` values of an output.
- JSON numbers are integers (`JNum(n: int)`); floats are not modelled.
- JSON values are compared structurally. Python's `True == 1 == 1.0` equality is not
  modelled. It matters in the custom-data filters
  (`taf/repositoriesdb.py:351-353, 508`) and in the grouping by branch
  (`taf/auth_repo.py:131`).
- AuthRepo.AppendCommit: a branch value that is a list or an object makes
  `setdefault` raise TypeError (`taf/auth_repo.py:131-133`). The model groups it
  like any other branch.

## Findings

| source | as written | input that shows it | evidently intended | confidence | as-written member | corrected member |
|---|---|---|---|---|---|---|
| taf/repositoriesdb.py:85-89 | `hosts` starts as the list `[]` when no ancestor hosts are given, and is then indexed by a commit string | `load_dependencies(auth_repo)` with `ancestor_hosts=None` and any commit: `hosts[commit] = ...` raises TypeError | start from an empty dict keyed by commit | high, not executed | RepositoriesSpec.SeedHostsAsWrittenFails | RepositoriesSpec.SeedHostsCorrected |
| taf/repositoriesdb.py:134 | `hosts[commit] + _load_hosts_json(...)` adds a list and a dict | any dependency whose URLs resolve and whose class constructs: the addition raises TypeError, so no dependency is ever stored | append the dependency's own hosts.json as one more declaration, `hosts[commit] + [...]` | high, not executed | RepositoriesSpec.HostsArgumentAsWrittenFails | RepositoriesSpec.HostsFromAncestorAndOwn |

=== FILE: auth_repo.dfy ===
/** The commit bookkeeping of taf/auth_repo.py: the configuration directory beside an
    authentication repository, the per-commit target commits recorded in its signed
    metadata, their grouping into per-repository, per-branch commit lists, and the
    search for a commit that was ever authenticated. */
module AuthRepo {
  import opened Wrappers
  import opened JsonValues
  import Paths

  // ---------------------------------------------------------------------------
  // conf_dir

  /** `conf_dir`: `_<name>` next to the repository directory, where `<name>` is the
      base name of the normalized path and the directory is pathlib's parent. */
  function ConfDir(repoPath: string): string {
    Paths.JoinPath(Paths.Parent(repoPath), "_" + Paths.BaseName(Paths.NormPath(repoPath)))
  }

  /** The configuration directory is a sibling of the repository: same parent, its
      name is the repository's name with a leading underscore, and it is never the
      repository itself. */
  lemma ConfDirIsSibling(repoPath: string)
    ensures Paths.Parent(ConfDir(repoPath)) == Paths.Parent(repoPath)
    ensures Paths.Name(ConfDir(repoPath)) == "_" + Paths.BaseName(Paths.NormPath(repoPath))
    ensures var parts := Paths.Parts(repoPath);
      |parts| > 0 && parts[|parts| - 1] != ".." ==> Paths.Name(ConfDir(repoPath)) == "_" + Paths.Name(repoPath)
    ensures ConfDir(repoPath) != repoPath
  {
    var b := Paths.BaseName(Paths.NormPath(repoPath));
    var name := "_" + b;
    assert '/' !in name by {
      forall k | 0 <= k < |name| ensures name[k] != '/' {
        if k > 0 { assert name[k] == b[k - 1]; }
      }
    }
    assert name[0] == '_';
    assert Paths.IsPart(name);
    var parent := Paths.Parent(repoPath);
    Paths.ParentOfJoin(parent, name);
    Paths.ParentParts(repoPath);
    Paths.ParentParts(parent);
    var parts := Paths.Parts(repoPath);
    if |parts| > 0 && parts[|parts| - 1] != ".." {
      Paths.NormPathKeepsLast(repoPath);
    }
    // the two names differ: a last component equal to the new name is not ".." and so
    // survives normalization, which would make the name longer than itself
    if |parts| > 0 && parts[|parts| - 1] != ".." {
      assert |Paths.Name(ConfDir(repoPath))| == |Paths.Name(repoPath)| + 1;
    } else if |parts| > 0 {
      assert name[0] != parts[|parts| - 1][0];
    }
    assert Paths.Name(ConfDir(repoPath)) != Paths.Name(repoPath);
  }

  /** A trailing separator does not change the directory: `a/b/` keeps its
      configuration where `a/b` does, in `a/_b`. */
  lemma ConfDirTrailingSeparator(repoPath: string)
    requires |repoPath| > 0
    ensures ConfDir(repoPath + "/") == ConfDir(repoPath)
  {
    Paths.TrailingSeparatorParts(repoPath);
  }

  // ---------------------------------------------------------------------------
  // What git reports about the authentication repository

  datatype AuthError =
    | RoleMetadataUnavailable(commit: Commit, role: string)
    | RoleMetadataInvalid(commit: Commit, role: string)
    | TargetFileUnavailable(commit: Commit, target: string)
    | TargetNotAnObject(commit: Commit, target: string)
    | CommitKeyMissing(commit: Commit, target: string)

  datatype AuthSource = AuthSource(
    /** The `repositories` object of targets/repositories.json at a commit. */
    repositoriesJson: Commit -> Read<JsonObject>,
    /** The targets roles defined at a commit, in order. */
    targetsRoles: Commit -> seq<string>,
    /** The names under `signed.targets` of a role's metadata file at a commit. */
    roleTargets: (Commit, string) -> Read<seq<string>>,
    /** A target file at a commit. */
    targetFile: (Commit, string) -> Read<Json>,
    /** `all_commits_on_branch(reverse=False)`. */
    branchCommits: seq<Commit>)

  /** `get_target(name, commit)` with `safely=True`: a missing or invalid file is None. */
  function SafeTarget(src: AuthSource, commit: Commit, targetName: string): (t: Option<Json>)
    ensures t.Some? <==> src.targetFile(commit, targetName).Parsed?
    ensures t.Some? ==> t.value == src.targetFile(commit, targetName).doc
  {
    match src.targetFile(commit, targetName)
    case Parsed(j) => Some(j)
    case _ => None
  }

  // ---------------------------------------------------------------------------
  // is_commit_authenticated

  /** `target["commit"] == commit` holds. */
  predicate Authenticates(target: Option<Json>, commit: Commit) {
    target.Some? && target.value.JObj? && "commit" in target.value.fields
    && target.value.fields["commit"] == JStr(commit)
  }

  /** `target["commit"]` raises KeyError: an object without that key. Every other
      non-object (None, a list, a string, ...) raises TypeError, which is skipped. */
  predicate LacksCommitKey(target: Option<Json>) {
    target.Some? && target.value.JObj? && "commit" !in target.value.fields
  }

  /** `is_commit_authenticated`: whether some commit of the branch has a target file
      whose "commit" is the given commit; a target object without "commit" met first
      raises. */
  method IsCommitAuthenticated(src: AuthSource, targetName: string, commit: Commit) returns (r: Result<bool, AuthError>)
    ensures r == Success(true) <==>
      exists i :: 0 <= i < |src.branchCommits| && Authenticates(SafeTarget(src, src.branchCommits[i], targetName), commit)
        && forall j :: 0 <= j < i ==> !LacksCommitKey(SafeTarget(src, src.branchCommits[j], targetName))
    ensures r == Success(false) <==>
      forall i :: 0 <= i < |src.branchCommits| ==>
        && !Authenticates(SafeTarget(src, src.branchCommits[i], targetName), commit)
        && !LacksCommitKey(SafeTarget(src, src.branchCommits[i], targetName))
    ensures r.Failure? ==>
      exists i :: 0 <= i < |src.branchCommits| && LacksCommitKey(SafeTarget(src, src.branchCommits[i], targetName))
        && r.error == CommitKeyMissing(src.branchCommits[i], targetName)
        && (forall j :: 0 <= j < i ==> !Authenticates(SafeTarget(src, src.branchCommits[j], targetName), commit))
        && (forall j :: 0 <= j < i ==> !LacksCommitKey(SafeTarget(src, src.branchCommits[j], targetName)))
  {
    var commits := src.branchCommits;
    var i := 0;
    while i < |commits|
      invariant 0 <= i <= |commits|
      invariant forall j :: 0 <= j < i ==>
        && !Authenticates(SafeTarget(src, commits[j], targetName), commit)
        && !LacksCommitKey(SafeTarget(src, commits[j], targetName))
    {
      var target := SafeTarget(src, commits[i], targetName);
      if target.Some? && target.value.JObj? {
        if "commit" !in target.value.fields {
          return Failure(CommitKeyMissing(commits[i], targetName));
        }
        if target.value.fields["commit"] == JStr(commit) {
          return Success(true);
        }
      }
      i := i + 1;
    }
    return Success(false);
  }

  // ---------------------------------------------------------------------------
  // target_commits_at_revisions

  /** The branch and commit a target file records; a missing branch is "master" and a
      missing commit is None (JSON null). */
  datatype TargetInfo = TargetInfo(branch: Json, commit: Json)

  function InfoOf(content: JsonObject): (info: TargetInfo)
    ensures "branch" !in content ==> info.branch == JStr("master")
    ensures "branch" in content ==> info.branch == content["branch"]
    ensures "commit" !in content ==> info.commit == JNull
    ensures "commit" in content ==> info.commit == content["commit"]
  {
    TargetInfo(if "branch" in content then content["branch"] else JStr("master"),
               if "commit" in content then content["commit"] else JNull)
  }

  /** commit -> target path -> what its target file records. A commit gets an entry
      only when a first target is recorded for it. */
  type TargetsByCommit = map<Commit, map<string, TargetInfo>>

  function Record(acc: TargetsByCommit, commit: Commit, path: string, info: TargetInfo): (r: TargetsByCommit)
    ensures r.Keys == acc.Keys + {commit}
    ensures path in r[commit] && r[commit][path] == info
    ensures forall p :: p in r[commit] && p != path ==> commit in acc && p in acc[commit] && r[commit][p] == acc[commit][p]
    ensures forall c :: c in acc && c != commit ==> r[c] == acc[c]
    ensures commit in acc ==> acc[commit].Keys <= r[commit].Keys
  {
    acc[commit := (if commit in acc then acc[commit] else map[])[path := info]]
  }

  /** The signed targets of one role at one commit, restricted to repositories. */
  function RecordTargets(src: AuthSource, commit: Commit, repos: JsonObject, paths: seq<string>, acc: TargetsByCommit)
    : Result<TargetsByCommit, AuthError>
    decreases |paths|
  {
    if |paths| == 0 then Success(acc)
    else
      var p := paths[0];
      if p !in repos then RecordTargets(src, commit, repos, paths[1..], acc)
      else
        match src.targetFile(commit, p)
        case NotAvailable => Failure(TargetFileUnavailable(commit, p))
        case InvalidJson => RecordTargets(src, commit, repos, paths[1..], acc)
        case Parsed(JObj(content)) => RecordTargets(src, commit, repos, paths[1..], Record(acc, commit, p, InfoOf(content)))
        case Parsed(_) => Failure(TargetNotAnObject(commit, p))
  }

  /** All roles at one commit; a role's metadata file must exist and be valid. */
  function RecordRoles(src: AuthSource, commit: Commit, repos: JsonObject, roles: seq<string>, acc: TargetsByCommit)
    : Result<TargetsByCommit, AuthError>
    decreases |roles|
  {
    if |roles| == 0 then Success(acc)
    else
      match src.roleTargets(commit, roles[0])
      case NotAvailable => Failure(RoleMetadataUnavailable(commit, roles[0]))
      case InvalidJson => Failure(RoleMetadataInvalid(commit, roles[0]))
      case Parsed(paths) =>
        var acc' :- RecordTargets(src, commit, repos, paths, acc);
        RecordRoles(src, commit, repos, roles[1..], acc')
  }

  /** All commits; one without a readable repositories.json is skipped. */
  function TargetCommitsFrom(src: AuthSource, commits: seq<Commit>, acc: TargetsByCommit): Result<TargetsByCommit, AuthError>
    decreases |commits|
  {
    if |commits| == 0 then Success(acc)
    else
      var c := commits[0];
      match src.repositoriesJson(c)
      case Parsed(repos) =>
        var acc' :- RecordRoles(src, c, repos, src.targetsRoles(c), acc);
        TargetCommitsFrom(src, commits[1..], acc')
      case _ => TargetCommitsFrom(src, commits[1..], acc)
  }

  /** A recorded target is a repository of repositories.json at that commit that one
      of the commit's roles lists, and its recorded branch and commit are those of its
      target file. */
  predicate Justified(src: AuthSource, commit: Commit, path: string, info: TargetInfo) {
    && src.repositoriesJson(commit).Parsed? && path in src.repositoriesJson(commit).doc
    && src.targetFile(commit, path).Parsed? && src.targetFile(commit, path).doc.JObj?
    && info == InfoOf(src.targetFile(commit, path).doc.fields)
    && ListedByRole(src, commit, path)
  }

  /** Some role of the commit has metadata that lists the path. */
  predicate ListedByRole(src: AuthSource, commit: Commit, path: string) {
    exists role :: role in src.targetsRoles(commit) && src.roleTargets(commit, role).Parsed?
      && path in src.roleTargets(commit, role).doc
  }

  predicate AllJustified(src: AuthSource, m: TargetsByCommit) {
    forall c, p :: c in m && p in m[c] ==> Justified(src, c, p, m[c][p])
  }

  /** The signed targets a role lists at a commit and that count: repositories of
      repositories.json whose target file is a JSON object. */
  predicate Listed(src: AuthSource, commit: Commit, path: string) {
    && src.repositoriesJson(commit).Parsed? && path in src.repositoriesJson(commit).doc
    && src.targetFile(commit, path).Parsed? && src.targetFile(commit, path).doc.JObj?
    && ListedByRole(src, commit, path)
  }

  /** Recording targets keeps everything justified and never drops an entry. */
  lemma {:induction false} RecordTargetsSound(src: AuthSource, commit: Commit, repos: JsonObject, role: string,
                                              paths: seq<string>, acc: TargetsByCommit)
    requires src.repositoriesJson(commit) == Parsed(repos)
    requires role in src.targetsRoles(commit) && src.roleTargets(commit, role).Parsed?
    requires forall p :: p in paths ==> p in src.roleTargets(commit, role).doc
    requires AllJustified(src, acc)
    requires RecordTargets(src, commit, repos, paths, acc).Success?
    ensures var r := RecordTargets(src, commit, repos, paths, acc).value;
      && AllJustified(src, r)
      && r.Keys <= acc.Keys + {commit}
      && (forall c, p :: c in acc && p in acc[c] ==> c in r && p in r[c])
      && (forall p :: p in paths && p in repos && src.targetFile(commit, p).Parsed? && src.targetFile(commit, p).doc.JObj?
            ==> commit in r && p in r[commit])
    decreases |paths|
  {
    if |paths| > 0 {
      var p := paths[0];
      var acc' := acc;
      if p in repos && src.targetFile(commit, p).Parsed? && src.targetFile(commit, p).doc.JObj? {
        assert ListedByRole(src, commit, p) by { assert p in src.roleTargets(commit, role).doc; }
        acc' := Record(acc, commit, p, InfoOf(src.targetFile(commit, p).doc.fields));
      }
      assert RecordTargets(src, commit, repos, paths, acc) == RecordTargets(src, commit, repos, paths[1..], acc');
      RecordTargetsSound(src, commit, repos, role, paths[1..], acc');
      assert forall q :: q in paths ==> q == p || q in paths[1..];
    }
  }

  lemma {:induction false} RecordRolesSound(src: AuthSource, commit: Commit, repos: JsonObject, roles: seq<string>, acc: TargetsByCommit)
    requires src.repositoriesJson(commit) == Parsed(repos)
    requires forall role :: role in roles ==> role in src.targetsRoles(commit)
    requires AllJustified(src, acc)
    requires RecordRoles(src, commit, repos, roles, acc).Success?
    ensures var r := RecordRoles(src, commit, repos, roles, acc).value;
      && AllJustified(src, r)
      && r.Keys <= acc.Keys + {commit}
      && (forall c, p :: c in acc && p in acc[c] ==> c in r && p in r[c])
      && (forall role, p :: role in roles && src.roleTargets(commit, role).Parsed? && p in src.roleTargets(commit, role).doc
            && p in repos && src.targetFile(commit, p).Parsed? && src.targetFile(commit, p).doc.JObj?
            ==> commit in r && p in r[commit])
    decreases |roles|
  {
    if |roles| > 0 {
      var paths := src.roleTargets(commit, roles[0]).doc;
      RecordTargetsSound(src, commit, repos, roles[0], paths, acc);
      var acc' := RecordTargets(src, commit, repos, paths, acc).value;
      RecordRolesSound(src, commit, repos, roles[1..], acc');
      assert forall role :: role in roles ==> role == roles[0] || role in roles[1..];
    }
  }

  lemma {:induction false} TargetCommitsFromSound(src: AuthSource, commits: seq<Commit>, acc: TargetsByCommit)
    requires AllJustified(src, acc)
    requires TargetCommitsFrom(src, commits, acc).Success?
    ensures var r := TargetCommitsFrom(src, commits, acc).value;
      && AllJustified(src, r)
      && (forall c :: c in r ==> c in acc || c in commits)
      && (forall c, p :: c in acc && p in acc[c] ==> c in r && p in r[c])
      && (forall c, p :: c in commits && Listed(src, c, p) ==> c in r && p in r[c])
    decreases |commits|
  {
    if |commits| > 0 {
      var c := commits[0];
      var acc' := acc;
      if src.repositoriesJson(c).Parsed? {
        RecordRolesSound(src, c, src.repositoriesJson(c).doc, src.targetsRoles(c), acc);
        acc' := RecordRoles(src, c, src.repositoriesJson(c).doc, src.targetsRoles(c), acc).value;
      }
      TargetCommitsFromSound(src, commits[1..], acc');
      assert forall d :: d in commits ==> d == c || d in commits[1..];
    }
  }

  /** What `target_commits_at_revisions` returns: exactly the listed targets of the
      given commits, each with the branch and commit of its target file. */
  lemma TargetCommitsAtRevisionsSpec(src: AuthSource, commits: seq<Commit>)
    requires TargetCommitsFrom(src, commits, map[]).Success?
    ensures var m := TargetCommitsFrom(src, commits, map[]).value;
      && (forall c :: c in m ==> c in commits)
      && (forall c, p :: c in m && p in m[c] ==> Justified(src, c, p, m[c][p]))
      && (forall c, p :: c in commits ==> (c in m && p in m[c] <==> Listed(src, c, p)))
  {
    TargetCommitsFromSound(src, commits, map[]);
  }

  /** `target_commits_at_revisions`. */
  method TargetCommitsAtRevisions(src: AuthSource, commits: seq<Commit>) returns (r: Result<TargetsByCommit, AuthError>)
    ensures r == TargetCommitsFrom(src, commits, map[])
  {
    var targets: TargetsByCommit := map[];
    var i := 0;
    while i < |commits|
      invariant 0 <= i <= |commits|
      invariant TargetCommitsFrom(src, commits[i..], targets) == TargetCommitsFrom(src, commits, map[])
      decreases |commits| - i
    {
      var c := commits[i];
      assert commits[i..][0] == c && commits[i..][1..] == commits[i + 1..];
      var repos := src.repositoriesJson(c);
      if repos.Parsed? {
        var recorded := RecordRolesLoop(src, c, repos.doc, src.targetsRoles(c), targets);
        if recorded.Failure? {
          return Failure(recorded.error);
        }
        targets := recorded.value;
      }
      i := i + 1;
    }
    assert commits[|commits|..] == [];
    return Success(targets);
  }

  method RecordRolesLoop(src: AuthSource, commit: Commit, repos: JsonObject, roles: seq<string>, start: TargetsByCommit)
    returns (r: Result<TargetsByCommit, AuthError>)
    ensures r == RecordRoles(src, commit, repos, roles, start)
  {
    var targets := start;
    var i := 0;
    while i < |roles|
      invariant 0 <= i <= |roles|
      invariant RecordRoles(src, commit, repos, roles[i..], targets) == RecordRoles(src, commit, repos, roles, start)
      decreases |roles| - i
    {
      assert roles[i..][0] == roles[i] && roles[i..][1..] == roles[i + 1..];
      match src.roleTargets(commit, roles[i]) {
        case NotAvailable => return Failure(RoleMetadataUnavailable(commit, roles[i]));
        case InvalidJson => return Failure(RoleMetadataInvalid(commit, roles[i]));
        case Parsed(paths) =>
          var recorded := RecordTargetsLoop(src, commit, repos, paths, targets);
          if recorded.Failure? {
            return Failure(recorded.error);
          }
          targets := recorded.value;
      }
      i := i + 1;
    }
    assert roles[|roles|..] == [];
    return Success(targets);
  }

  method RecordTargetsLoop(src: AuthSource, commit: Commit, repos: JsonObject, paths: seq<string>, start: TargetsByCommit)
    returns (r: Result<TargetsByCommit, AuthError>)
    ensures r == RecordTargets(src, commit, repos, paths, start)
  {
    var targets := start;
    var i := 0;
    while i < |paths|
      invariant 0 <= i <= |paths|
      invariant RecordTargets(src, commit, repos, paths[i..], targets) == RecordTargets(src, commit, repos, paths, start)
      decreases |paths| - i
    {
      var p := paths[i];
      assert paths[i..][0] == p && paths[i..][1..] == paths[i + 1..];
      if p in repos {
        match src.targetFile(commit, p) {
          case NotAvailable => return Failure(TargetFileUnavailable(commit, p));
          case InvalidJson =>
          case Parsed(content) =>
            if !content.JObj? {
              return Failure(TargetNotAnObject(commit, p));
            }
            var old_ := if commit in targets then targets[commit] else map[];
            targets := targets[commit := old_[p := InfoOf(content.fields)]];
        }
      }
      i := i + 1;
    }
    assert paths[|paths|..] == [];
    return Success(targets);
  }

  // ---------------------------------------------------------------------------
  // sorted_commits_and_branches_per_repositories

  type BranchCommits = map<Json, seq<Json>>
  type CommitsPerRepository = map<string, BranchCommits>
  /** `previous_commits`: the last target commit seen per path (null counts as none). */
  type Previous = map<string, Json>

  /** `previous_commit is None or target_commit != previous_commit`. */
  predicate Appends(previous: Previous, path: string, info: TargetInfo) {
    path !in previous || previous[path] == JNull || info.commit != previous[path]
  }

  /** `lists.setdefault(branch, []).append(commit)`. */
  function AppendCommit(lists: BranchCommits, info: TargetInfo): (r: BranchCommits)
    ensures r.Keys == lists.Keys + {info.branch}
    ensures r[info.branch] == (if info.branch in lists then lists[info.branch] else []) + [info.commit]
    ensures forall b :: b in lists && b != info.branch ==> r[b] == lists[b]
  {
    lists[info.branch := (if info.branch in lists then lists[info.branch] else []) + [info.commit]]
  }

  /** `previous_commits` after visiting `paths` of one commit's entries. */
  function VisitedPrevious(previous: Previous, entries: map<string, TargetInfo>, paths: set<string>): Previous
    requires paths <= entries.Keys
  {
    map p | p in previous.Keys + paths :: if p in paths then entries[p].commit else previous[p]
  }

  /** The lists of one path after its visit, when it appends. */
  function ListsAfter(result: CommitsPerRepository, path: string, info: TargetInfo): BranchCommits {
    AppendCommit(if path in result then result[path] else map[], info)
  }

  /** The result after visiting `paths` of one commit's entries, from the state before
      the commit: a visited path that appends gets its commit added to its branch list. */
  function VisitedResult(result: CommitsPerRepository, previous: Previous, entries: map<string, TargetInfo>, paths: set<string>)
    : CommitsPerRepository
    requires paths <= entries.Keys
  {
    map p | p in result.Keys + paths && (p in result || Appends(previous, p, entries[p])) ::
      if p in paths && Appends(previous, p, entries[p]) then ListsAfter(result, p, entries[p]) else result[p]
  }

  function VisitPaths(result: CommitsPerRepository, previous: Previous, entries: map<string, TargetInfo>, paths: set<string>)
    : (CommitsPerRepository, Previous)
    requires paths <= entries.Keys
  {
    (VisitedResult(result, previous, entries, paths), VisitedPrevious(previous, entries, paths))
  }

  /** One commit of the loop: every path of its entries visited once. */
  function VisitCommit(state: (CommitsPerRepository, Previous), entries: map<string, TargetInfo>): (CommitsPerRepository, Previous) {
    VisitPaths(state.0, state.1, entries, entries.Keys)
  }

  /** `targets[commit]` of a defaultdict. */
  function EntriesAt(targets: TargetsByCommit, commit: Commit): map<string, TargetInfo> {
    if commit in targets then targets[commit] else map[]
  }

  /** The grouping loop over `commits`, in order. */
  function Group(targets: TargetsByCommit, commits: seq<Commit>): (CommitsPerRepository, Previous)
    decreases |commits|
  {
    if |commits| == 0 then (map[], map[])
    else VisitCommit(Group(targets, commits[..|commits| - 1]), EntriesAt(targets, commits[|commits| - 1]))
  }

  // --- the same result, path by path

  /** The target infos of one path over the commits, in commit order. */
  function Visits(targets: TargetsByCommit, commits: seq<Commit>, path: string): seq<TargetInfo>
    decreases |commits|
  {
    if |commits| == 0 then []
    else
      var c := commits[|commits| - 1];
      Visits(targets, commits[..|commits| - 1], path) + (if path in EntriesAt(targets, c) then [EntriesAt(targets, c)[path]] else [])
  }

  /** Whether visit k appends: the first visit, one after a null commit, or one whose
      commit differs from the previous visit's. */
  predicate Kept(vs: seq<TargetInfo>, k: nat)
    requires k < |vs|
  {
    k == 0 || vs[k - 1].commit == JNull || vs[k].commit != vs[k - 1].commit
  }

  /** The appended visits, in order. */
  function Appended(vs: seq<TargetInfo>): seq<TargetInfo>
    decreases |vs|
  {
    if |vs| == 0 then []
    else Appended(vs[..|vs| - 1]) + (if Kept(vs, |vs| - 1) then [vs[|vs| - 1]] else [])
  }

  /** Appended visits sorted into per-branch lists, keeping their order. */
  function GroupByBranch(xs: seq<TargetInfo>): BranchCommits
    decreases |xs|
  {
    if |xs| == 0 then map[]
    else AppendCommit(GroupByBranch(xs[..|xs| - 1]), xs[|xs| - 1])
  }

  /** The commits of one branch among the appended visits, in order. */
  function CommitsOfBranch(xs: seq<TargetInfo>, branch: Json): seq<Json>
    decreases |xs|
  {
    if |xs| == 0 then []
    else CommitsOfBranch(xs[..|xs| - 1], branch) + (if xs[|xs| - 1].branch == branch then [xs[|xs| - 1].commit] else [])
  }

  /** Each branch list holds exactly that branch's appended commits, in commit order. */
  lemma {:induction false} GroupByBranchFilters(xs: seq<TargetInfo>, branch: Json)
    ensures branch in GroupByBranch(xs) <==> exists k :: 0 <= k < |xs| && xs[k].branch == branch
    ensures branch in GroupByBranch(xs) ==> GroupByBranch(xs)[branch] == CommitsOfBranch(xs, branch)
    ensures branch !in GroupByBranch(xs) ==> CommitsOfBranch(xs, branch) == []
    decreases |xs|
  {
    if |xs| > 0 {
      var init := xs[..|xs| - 1];
      GroupByBranchFilters(init, branch);
      assert forall k :: 0 <= k < |init| ==> init[k] == xs[k];
      if exists k :: 0 <= k < |xs| && xs[k].branch == branch {
        var k :| 0 <= k < |xs| && xs[k].branch == branch;
        if k < |init| { assert init[k].branch == branch; }
      }
    }
  }

  /** Within a path, consecutive appended commits differ unless the earlier one is
      null; the last appended commit is the last one seen. */
  lemma {:induction false} AppendedNoRepeats(vs: seq<TargetInfo>)
    ensures var a := Appended(vs);
      && (|vs| > 0 ==> |a| > 0 && a[|a| - 1].commit == vs[|vs| - 1].commit)
      && forall k :: 0 < k < |a| ==> a[k - 1].commit == JNull || a[k].commit != a[k - 1].commit
    decreases |vs|
  {
    if |vs| > 0 {
      var init := vs[..|vs| - 1];
      AppendedNoRepeats(init);
      var a0 := Appended(init);
      var a := Appended(vs);
      if Kept(vs, |vs| - 1) {
        assert a == a0 + [vs[|vs| - 1]];
        forall k | 0 < k < |a| ensures a[k - 1].commit == JNull || a[k].commit != a[k - 1].commit {
          if k < |a0| {
            assert a[k] == a0[k] && a[k - 1] == a0[k - 1];
          } else {
            assert init[|init| - 1] == vs[|vs| - 2];
          }
        }
      } else {
        assert a == a0;
        assert init[|init| - 1] == vs[|vs| - 2];
      }
    }
  }

  /** Every appended visit is a visit: nothing is invented. */
  lemma {:induction false} AppendedFromVisits(vs: seq<TargetInfo>)
    ensures forall x :: x in Appended(vs) ==> x in vs
    ensures |Appended(vs)| <= |vs|
    decreases |vs|
  {
    if |vs| > 0 {
      AppendedFromVisits(vs[..|vs| - 1]);
      assert forall x :: x in vs[..|vs| - 1] ==> x in vs;
    }
  }

  /** One commit's visit, seen from one path. */
  lemma VisitCommitAt(result: CommitsPerRepository, previous: Previous, entries: map<string, TargetInfo>, path: string)
    ensures var r := VisitedResult(result, previous, entries, entries.Keys);
      var p := VisitedPrevious(previous, entries, entries.Keys);
      && (path in entries ==>
            && path in p && p[path] == entries[path].commit
            && (path in r <==> path in result || Appends(previous, path, entries[path]))
            && (Appends(previous, path, entries[path]) ==> r[path] == ListsAfter(result, path, entries[path]))
            && (!Appends(previous, path, entries[path]) && path in result ==> r[path] == result[path]))
      && (path !in entries ==>
            && (path in r <==> path in result) && (path in r ==> r[path] == result[path])
            && (path in p <==> path in previous) && (path in p ==> p[path] == previous[path]))
  {
  }

  /** The loop's state, path by path: a path has a result entry exactly when it was
      visited, that entry is the per-branch grouping of its appended visits, and
      `previous_commits` holds the last visit's commit. */
  lemma {:induction false} GroupPerPath(targets: TargetsByCommit, commits: seq<Commit>, path: string)
    ensures var state := Group(targets, commits);
      var vs := Visits(targets, commits, path);
      && (path in state.0 <==> |vs| > 0)
      && (path in state.0 ==> state.0[path] == GroupByBranch(Appended(vs)))
      && (path in state.1 <==> |vs| > 0)
      && (|vs| > 0 ==> state.1[path] == vs[|vs| - 1].commit)
    decreases |commits|
  {
    if |commits| > 0 {
      var init := commits[..|commits| - 1];
      var c := commits[|commits| - 1];
      GroupPerPath(targets, init, path);
      var before := Group(targets, init);
      var entries := EntriesAt(targets, c);
      VisitCommitAt(before.0, before.1, entries, path);
      var vs0 := Visits(targets, init, path);
      var vs := Visits(targets, commits, path);
      if path in entries {
        assert vs == vs0 + [entries[path]];
        assert vs[..|vs| - 1] == vs0;
        var a0 := Appended(vs0);
        AppendedNoRepeats(vs0);
        assert Kept(vs, |vs| - 1) == Appends(before.1, path, entries[path]);
        if Kept(vs, |vs| - 1) {
          assert Appended(vs) == a0 + [entries[path]];
          assert (a0 + [entries[path]])[..|a0|] == a0;
        } else {
          assert Appended(vs) == a0;
        }
      } else {
        assert vs == vs0;
      }
    }
  }

  /** The grouping loop of `sorted_commits_and_branches_per_repositories`. */
  method GroupCommits(targets: TargetsByCommit, commits: seq<Commit>) returns (result: CommitsPerRepository)
    ensures result == Group(targets, commits).0
  {
    result := map[];
    var previous: Previous := map[];
    var i := 0;
    while i < |commits|
      invariant 0 <= i <= |commits|
      invariant (result, previous) == Group(targets, commits[..i])
      decreases |commits| - i
    {
      var entries := EntriesAt(targets, commits[i]);
      result, previous := VisitCommitLoop(result, previous, entries);
      assert commits[..i + 1][..i] == commits[..i];
      i := i + 1;
    }
    assert commits[..|commits|] == commits;
  }

  /** One commit's paths, in any order: paths are independent of each other. */
  method VisitCommitLoop(result0: CommitsPerRepository, previous0: Previous, entries: map<string, TargetInfo>)
    returns (result: CommitsPerRepository, previous: Previous)
    ensures (result, previous) == VisitCommit((result0, previous0), entries)
  {
    result, previous := result0, previous0;
    var todo := entries.Keys;
    assert entries.Keys - todo == {};
    assert VisitedPrevious(previous0, entries, {}) == previous0;
    assert VisitedResult(result0, previous0, entries, {}) == result0;
    while todo != {}
      invariant todo <= entries.Keys
      invariant result == VisitedResult(result0, previous0, entries, entries.Keys - todo)
      invariant previous == VisitedPrevious(previous0, entries, entries.Keys - todo)
      decreases todo
    {
      var path :| path in todo;
      ghost var done := entries.Keys - todo;
      VisitPathsStep(result0, previous0, entries, done, path);
      var info := entries[path];
      if path !in previous || previous[path] == JNull || info.commit != previous[path] {
        var lists := if path in result then result[path] else map[];
        result := result[path := lists[info.branch := (if info.branch in lists then lists[info.branch] else []) + [info.commit]]];
      }
      previous := previous[path := info.commit];
      todo := todo - {path};
      assert entries.Keys - todo == done + {path};
    }
    assert entries.Keys - todo == entries.Keys;
  }

  /** Visiting one more path updates exactly that path. */
  lemma VisitPathsStep(result: CommitsPerRepository, previous: Previous, entries: map<string, TargetInfo>,
                       done: set<string>, path: string)
    requires done <= entries.Keys && path in entries && path !in done
    ensures var p := VisitedPrevious(previous, entries, done);
      VisitedPrevious(previous, entries, done + {path}) == p[path := entries[path].commit]
    ensures var r := VisitedResult(result, previous, entries, done);
      var p := VisitedPrevious(previous, entries, done);
      VisitedResult(result, previous, entries, done + {path}) ==
        if path !in p || p[path] == JNull || entries[path].commit != p[path]
        then r[path := ListsAfter(r, path, entries[path])] else r
  {
    var p := VisitedPrevious(previous, entries, done);
    assert (path in p) == (path in previous) && (path in p ==> p[path] == previous[path]);
    VisitedPreviousStep(previous, entries, done, path);
    VisitedResultStep(result, previous, entries, done, path);
  }

  lemma VisitedPreviousStep(previous: Previous, entries: map<string, TargetInfo>, done: set<string>, path: string)
    requires done <= entries.Keys && path in entries && path !in done
    ensures VisitedPrevious(previous, entries, done + {path}) == VisitedPrevious(previous, entries, done)[path := entries[path].commit]
  {
    var p := VisitedPrevious(previous, entries, done);
    var p2 := VisitedPrevious(previous, entries, done + {path});
    assert p2.Keys == p.Keys + {path};
    forall q | q in p2 ensures p2[q] == p[path := entries[path].commit][q] {
    }
  }

  lemma VisitedResultStep(result: CommitsPerRepository, previous: Previous, entries: map<string, TargetInfo>,
                          done: set<string>, path: string)
    requires done <= entries.Keys && path in entries && path !in done
    ensures var r := VisitedResult(result, previous, entries, done);
      VisitedResult(result, previous, entries, done + {path}) ==
        if Appends(previous, path, entries[path]) then r[path := ListsAfter(r, path, entries[path])] else r
  {
    var r := VisitedResult(result, previous, entries, done);
    var r2 := VisitedResult(result, previous, entries, done + {path});
    assert (path in r) == (path in result) && (path in r ==> r[path] == result[path]);
    assert ListsAfter(r, path, entries[path]) == ListsAfter(result, path, entries[path]);
  }

  /** `sorted_commits_and_branches_per_repositories`. */
  method SortedCommitsAndBranchesPerRepositories(src: AuthSource, commits: seq<Commit>)
    returns (r: Result<CommitsPerRepository, AuthError>)
    ensures TargetCommitsFrom(src, commits, map[]).Failure? ==> r == Failure(TargetCommitsFrom(src, commits, map[]).error)
    ensures TargetCommitsFrom(src, commits, map[]).Success? ==>
      r == Success(Group(TargetCommitsFrom(src, commits, map[]).value, commits).0)
  {
    var targets := TargetCommitsAtRevisions(src, commits);
    if targets.Failure? {
      return Failure(targets.error);
    }
    var grouped := GroupCommits(targets.value, commits);
    return Success(grouped);
  }

  /** What the method returns, path by path: every path recorded at some commit, with
      the per-branch lists of its appended commits. */
  lemma SortedCommitsPerPath(src: AuthSource, commits: seq<Commit>, path: string)
    requires TargetCommitsFrom(src, commits, map[]).Success?
    ensures var targets := TargetCommitsFrom(src, commits, map[]).value;
      var result := Group(targets, commits).0;
      var vs := Visits(targets, commits, path);
      && (path in result <==> |vs| > 0)
      && (path in result ==> result[path] == GroupByBranch(Appended(vs)))
  {
    GroupPerPath(TargetCommitsFrom(src, commits, map[]).value, commits, path);
  }
}

=== FILE: json.dfy ===
/** JSON values as the Python code sees them after `json.loads`, and the outcome of
    reading one JSON file from a git revision. */
module JsonValues {
  import opened Wrappers

  /** A parsed JSON value; `JNull` is Python's `None`. */
  datatype Json =
    | JNull
    | JBool(b: bool)
    | JNum(n: int)
    | JStr(s: string)
    | JArr(items: seq<Json>)
    | JObj(fields: map<string, Json>)

  /** A git commit SHA. */
  type Commit = string

  /** A JSON object, the Python `dict` loaded from a file. */
  type JsonObject = map<string, Json>

  /** Reading a file at a revision: either git cannot produce it, or its text is not
      JSON, or it parses to a document of type `T`. */
  datatype Read<+T> = NotAvailable | InvalidJson | Parsed(doc: T)

  /** Python's `sub in s` on two strings. */
  predicate IsSubstring(sub: string, s: string)
    decreases |s|
  {
    sub <= s || (|s| > 0 && IsSubstring(sub, s[1..]))
  }

  /** Python's `name in container` where `container` is a JSON value: element test on a
      list, key test on an object, substring test on a string; `None` stands for the
      TypeError raised for any other value. */
  function ContainsName(container: Json, name: string): Option<bool> {
    match container
    case JArr(items) => Some(JStr(name) in items)
    case JObj(fields) => Some(name in fields)
    case JStr(s) => Some(IsSubstring(name, s))
    case _ => None
  }
}

=== FILE: lifecycle_handlers.dfy ===
/** The lifecycle-event dispatcher of taf/updater/lifecycle_handlers.py: after an update
    attempt, the hook scripts of the stage's event buckets are run in order, each one
    reading the shared context as JSON and shallow-merging its `transient` and
    `persistent` output back into it. */
module LifecycleHandlers {
  import opened Wrappers
  import opened JsonValues
  import Paths
  import Sorting
  import RepoHelpers

  datatype HandlerError =
    /** ValueError from `from_name`. */
    | UnknownName(kind: string, name: string)
    /** KeyError: no `prepare_data_<stage>` function exists. */
    | PrepareFunctionMissing(functionName: string)
    /** TypeError: the stage's prepare function takes no arguments. */
    | PrepareArityError(functionName: string)
    /** KeyError: `commits_data["after_pull"]`. */
    | AfterPullMissing
    /** The script process failed. */
    | ScriptFailed(script: string, message: string)
    /** The script's output is not JSON. */
    | ScriptOutputNotJson(script: string)
    /** The script's output is JSON but not an object (`.get` fails). */
    | ScriptOutputNotObject(script: string)
    /** `dict.update` with a value it cannot read as a mapping or as key/value pairs
        (TypeError or ValueError). */
    | MergeTypeError(script: string, key: string)

  // ---------------------------------------------------------------------------
  // Stages and events

  datatype LifecycleStage = Repo | Host | Update

  /** `LifecycleStage.to_name`. */
  function StageName(stage: LifecycleStage): string {
    match stage
    case Repo => "repo"
    case Host => "host"
    case Update => "update"
  }

  /** `LifecycleStage.from_name`: the inverse of `StageName`, ValueError otherwise. */
  function StageFromName(name: string): (r: Result<LifecycleStage, HandlerError>)
    ensures r.Success? ==> StageName(r.value) == name
    ensures r.Failure? ==> r.error == UnknownName("lifecycle stage", name)
  {
    if name == "repo" then Success(Repo)
    else if name == "host" then Success(Host)
    else if name == "update" then Success(Update)
    else Failure(UnknownName("lifecycle stage", name))
  }

  /** Every stage's name reads back as that stage, and only stage names read back. */
  lemma StageNameRoundTrip(stage: LifecycleStage, name: string)
    ensures StageFromName(StageName(stage)) == Success(stage)
    ensures StageFromName(name).Success? <==> exists s: LifecycleStage :: StageName(s) == name
  {
    if StageFromName(name).Failure? {
      forall s: LifecycleStage ensures StageName(s) != name {
        match s
        case Repo =>
        case Host =>
        case Update =>
      }
    }
  }

  datatype Event = Succeeded | Changed | Unchanged | Failed | Completed

  /** `Event.to_name`. */
  function EventName(event: Event): string {
    match event
    case Succeeded => "succeeded"
    case Changed => "changed"
    case Unchanged => "unchanged"
    case Failed => "failed"
    case Completed => "completed"
  }

  /** `Event.from_name`: the inverse of `EventName`, ValueError otherwise. */
  function EventFromName(name: string): (r: Result<Event, HandlerError>)
    ensures r.Success? ==> EventName(r.value) == name
    ensures r.Failure? ==> r.error == UnknownName("event", name)
  {
    if name == "succeeded" then Success(Succeeded)
    else if name == "changed" then Success(Changed)
    else if name == "unchanged" then Success(Unchanged)
    else if name == "failed" then Success(Failed)
    else if name == "completed" then Success(Completed)
    else Failure(UnknownName("event", name))
  }

  /** Every event's name reads back as that event, and only event names read back. */
  lemma EventNameRoundTrip(event: Event, name: string)
    ensures EventFromName(EventName(event)) == Success(event)
    ensures EventFromName(name).Success? <==> exists e: Event :: EventName(e) == name
  {
    if EventFromName(name).Failure? {
      forall e: Event ensures EventName(e) != name {
        match e
        case Succeeded =>
        case Changed =>
        case Unchanged =>
        case Failed =>
        case Completed =>
      }
    }
  }

  // ---------------------------------------------------------------------------
  // Script locations

  const ScriptsDir := "scripts"
  const TransientKey := "transient"
  const PersistentKey := "persistent"
  const PersistentFileName := "last_successful_commits.json"

  /** `_get_script_path`: `scripts/<stage>/<event>` inside the targets directory. */
  function ScriptDir(stage: LifecycleStage, event: Event): string {
    RepoHelpers.TargetsDirectory + "/" + (ScriptsDir + "/" + (StageName(stage) + "/" + EventName(event)))
  }

  /** Stage and event names are single path components. */
  lemma NamesHaveNoSeparator(stage: LifecycleStage, event: Event)
    ensures '/' !in StageName(stage) && '/' !in EventName(event)
  {
  }

  /** A component without separator, joined in front, becomes the first part. */
  lemma SplitCons(a: string, rest: string, parts: seq<string>)
    requires '/' !in a && Paths.Split(rest, '/') == parts
    ensures Paths.Split(a + "/" + rest, '/') == [a] + parts
  {
    Paths.SplitPrefix(a, rest, '/');
    assert a + "/" + rest == a + ['/'] + rest;
  }

  /** Four components joined with '/' split back into those four. */
  lemma SplitFour(a: string, b: string, c: string, d: string)
    requires '/' !in a && '/' !in b && '/' !in c && '/' !in d
    ensures Paths.Split(a + "/" + (b + "/" + (c + "/" + d)), '/') == [a, b, c, d]
  {
    Paths.SplitWithoutSep(d, '/');
    SplitCons(c, d, [d]);
    SplitCons(b, c + "/" + d, [c, d]);
    assert [b] + [c, d] == [b, c, d];
    SplitCons(a, b + "/" + (c + "/" + d), [b, c, d]);
    assert [a] + [b, c, d] == [a, b, c, d];
  }

  /** The script directory splits into its four components. */
  lemma ScriptDirComponents(stage: LifecycleStage, event: Event)
    ensures Paths.Split(ScriptDir(stage, event), '/') ==
      [RepoHelpers.TargetsDirectory, ScriptsDir, StageName(stage), EventName(event)]
  {
    NamesHaveNoSeparator(stage, event);
    SplitFour(RepoHelpers.TargetsDirectory, ScriptsDir, StageName(stage), EventName(event));
  }

  /** Distinct (stage, event) pairs have distinct script directories. */
  lemma ScriptDirInjective(s1: LifecycleStage, e1: Event, s2: LifecycleStage, e2: Event)
    requires ScriptDir(s1, e1) == ScriptDir(s2, e2)
    ensures s1 == s2 && e1 == e2
  {
    ScriptDirComponents(s1, e1);
    ScriptDirComponents(s2, e2);
    StageNameRoundTrip(s1, "");
    StageNameRoundTrip(s2, "");
    EventNameRoundTrip(e1, "");
    EventNameRoundTrip(e2, "");
  }

  /** The script files of a directory listing: the names whose suffix is ".py", in
      listing order. */
  function PyScripts(names: seq<string>): (r: seq<string>)
    ensures forall n :: n in r <==> n in names && Paths.Suffix(n) == ".py"
    decreases |names|
  {
    if |names| == 0 then []
    else
      assert forall n :: n in names <==> n == names[0] || n in names[1..];
      (if Paths.Suffix(names[0]) == ".py" then [names[0]] else []) + PyScripts(names[1..])
  }

  /** The full paths of the scripts to run, sorted. */
  function ScriptPaths(names: seq<string>, authPath: string, scriptsRelPath: string): seq<string> {
    Sorting.Sort(FullPaths(PyScripts(names), authPath, scriptsRelPath))
  }

  /** `Path(auth_repo.path, Path(scripts_rel_path, name))` for each script name, in order. */
  function FullPaths(scripts: seq<string>, authPath: string, scriptsRelPath: string): seq<string> {
    seq(|scripts|, i requires 0 <= i < |scripts| => Paths.JoinPath(authPath, Paths.JoinPath(scriptsRelPath, scripts[i])))
  }

  /** A full path is listed exactly when it is the path of one of the script names. */
  lemma FullPathsMembers(scripts: seq<string>, authPath: string, scriptsRelPath: string)
    ensures forall p :: p in FullPaths(scripts, authPath, scriptsRelPath) <==>
      exists n :: n in scripts && p == Paths.JoinPath(authPath, Paths.JoinPath(scriptsRelPath, n))
  {
    var full := FullPaths(scripts, authPath, scriptsRelPath);
    forall p | p in full
      ensures exists n :: n in scripts && p == Paths.JoinPath(authPath, Paths.JoinPath(scriptsRelPath, n))
    {
      var i :| 0 <= i < |full| && full[i] == p;
      assert scripts[i] in scripts;
    }
    forall n | n in scripts
      ensures Paths.JoinPath(authPath, Paths.JoinPath(scriptsRelPath, n)) in full
    {
      var i :| 0 <= i < |scripts| && scripts[i] == n;
      assert full[i] == Paths.JoinPath(authPath, Paths.JoinPath(scriptsRelPath, n));
    }
  }

  /** The scripts run are sorted, and are exactly the ".py" files of the listing. */
  lemma ScriptPathsSpec(names: seq<string>, authPath: string, scriptsRelPath: string)
    ensures Sorting.Sorted(ScriptPaths(names, authPath, scriptsRelPath))
    ensures forall p :: p in ScriptPaths(names, authPath, scriptsRelPath) <==>
      exists n :: n in names && Paths.Suffix(n) == ".py" && p == Paths.JoinPath(authPath, Paths.JoinPath(scriptsRelPath, n))
  {
    var full := FullPaths(PyScripts(names), authPath, scriptsRelPath);
    Sorting.SortSpec(full);
    FullPathsMembers(PyScripts(names), authPath, scriptsRelPath);
    forall p ensures p in ScriptPaths(names, authPath, scriptsRelPath) <==> p in full {
      assert p in ScriptPaths(names, authPath, scriptsRelPath) <==> p in multiset(ScriptPaths(names, authPath, scriptsRelPath));
      assert p in full <==> p in multiset(full);
    }
  }

  // ---------------------------------------------------------------------------
  // Dispatch

  predicate IsSuccessEvent(event: Event) {
    event == Changed || event == Unchanged || event == Succeeded
  }

  /** The buckets `_handle_event` runs, in order. */
  function Buckets(event: Event): (r: seq<Event>)
    ensures |r| > 0 && r[|r| - 1] == Completed
    ensures forall k :: 0 <= k < |r| - 1 ==> r[k] != Completed
    ensures r[0] == event
    ensures Failed in r <==> event == Failed
    ensures Succeeded in r <==> IsSuccessEvent(event)
    ensures IsSuccessEvent(event) && event != Succeeded ==> r == [event, Succeeded, Completed]
  {
    match event
    case Changed => [Changed, Succeeded, Completed]
    case Unchanged => [Unchanged, Succeeded, Completed]
    case Succeeded => [Succeeded, Completed]
    case Failed => [Failed, Completed]
    case Completed => [Completed]
  }

  /** The authentication repository as the dispatcher sees it. */
  datatype AuthRepoInfo = AuthRepoInfo(name: string, path: string, rootDir: string, jsonDict: Json)

  /** The context handed to every script (the JSON of `data`). */
  datatype EventData = EventData(
    changed: bool,
    event: string,
    repoName: string,
    errorMsg: string,
    authRepoData: Json,
    commits: JsonObject,
    targetRepos: Json,
    transient: JsonObject,
    persistent: JsonObject)

  /** `"event/succeeded"` for the success events, `"event/failed"` for the others. */
  function NormalizedEvent(event: Event): (r: string)
    ensures IsSuccessEvent(event) ==> r == "event/" + EventName(Succeeded)
    ensures !IsSuccessEvent(event) ==> r == "event/" + EventName(Failed)
  {
    if IsSuccessEvent(event) then "event/succeeded" else "event/failed"
  }

  /** `str(error) if error else ""`. */
  function ErrorMessage(error: Option<string>): string {
    if error.Some? then error.value else ""
  }

  /** `prepare_data_repo(event, transient_data, persistent_data, ...)`. The `changed`
      entry compares the already normalized string with the enum member `CHANGED`, so
      it never holds. */
  function PrepareDataRepo(event: Event, transientData: Option<JsonObject>, persistentData: Option<JsonObject>,
                           authRepo: AuthRepoInfo, commitsData: JsonObject, error: Option<string>, targetsData: Json)
    : (d: EventData)
    ensures !d.changed
    ensures d.event == "event/succeeded" <==> IsSuccessEvent(event)
    ensures d.event == "event/failed" <==> !IsSuccessEvent(event)
    ensures d.transient == transientData.GetOr(map[]) && d.persistent == persistentData.GetOr(map[])
    ensures error.None? ==> d.errorMsg == ""
    ensures error.Some? ==> d.errorMsg == error.value
    ensures d.authRepoData == authRepo.jsonDict
    ensures d.repoName == authRepo.name && d.commits == commitsData && d.targetRepos == targetsData
  {
    EventData(false, NormalizedEvent(event), authRepo.name, ErrorMessage(error), authRepo.jsonDict,
              commitsData, targetsData, transientData.GetOr(map[]), persistentData.GetOr(map[]))
  }

  // ---------------------------------------------------------------------------
  // Running scripts

  /** What running one script yields. */
  datatype ScriptOutput = ProcessFailed(message: string) | NoOutput | NotJson | Output(doc: Json)

  /** Git and the script runner. */
  datatype ScriptSource = ScriptSource(
    /** `list_files_at_revision(commit, dir)`. */
    listFiles: (Json, string) -> seq<string>,
    /** `run("py", script, input=json.dumps(data))`. */
    run: (string, EventData) -> ScriptOutput)

  /** The observable state of a run: the context, the scripts invoked with their
      input, and the persistent maps saved with the file they went to. */
  datatype RunState = RunState(data: EventData, invocations: seq<(string, EventData)>, saves: seq<(string, JsonObject)>)

  /** `after` is `before` updated with `fields` as by `dict.update`: it has the keys of
      both, the values of `fields` win, and the other keys keep their values. */
  ghost predicate UpdatedWith(before: JsonObject, fields: JsonObject, after: JsonObject) {
    && after.Keys == before.Keys + fields.Keys
    && (forall k :: k in fields ==> after[k] == fields[k])
    && (forall k :: k in before && k !in fields ==> after[k] == before[k])
  }

  /** An element `dict.update` reads as one key/value pair with a string key: a
      two-element list whose first element is a string, or a two-character string
      (its characters are the key and the value). */
  predicate IsStringPair(item: Json) {
    (item.JArr? && |item.items| == 2 && item.items[0].JStr?) || (item.JStr? && |item.s| == 2)
  }

  /** The key and value of such an element. */
  function PairOf(item: Json): (string, Json)
    requires IsStringPair(item)
  {
    if item.JArr? then (item.items[0].s, item.items[1]) else ([item.s[0]], JStr([item.s[1]]))
  }

  /** The entries a sequence of pairs adds, as `dict.update` applies them in order. */
  function PairsToMap(items: seq<Json>): JsonObject
    requires forall i :: 0 <= i < |items| ==> IsStringPair(items[i])
    decreases |items|
  {
    if |items| == 0 then map[]
    else
      var last := PairOf(items[|items| - 1]);
      PairsToMap(items[..|items| - 1])[last.0 := last.1]
  }

  /** Some pair of `items` has the key `k`. */
  predicate HasPairKey(items: seq<Json>, k: string)
    requires forall i :: 0 <= i < |items| ==> IsStringPair(items[i])
  {
    exists i :: 0 <= i < |items| && PairOf(items[i]).0 == k
  }

  /** A key is present exactly when some pair has it. */
  lemma {:induction false} PairsToMapKeys(items: seq<Json>, k: string)
    requires forall i :: 0 <= i < |items| ==> IsStringPair(items[i])
    ensures k in PairsToMap(items) <==> HasPairKey(items, k)
    decreases |items|
  {
    if |items| > 0 {
      var n := |items| - 1;
      var init := items[..n];
      PairsToMapKeys(init, k);
      if k != PairOf(items[n]).0 {
        if HasPairKey(items, k) {
          var i :| 0 <= i < |items| && PairOf(items[i]).0 == k;
          assert init[i] == items[i];
        }
        if HasPairKey(init, k) {
          var i :| 0 <= i < n && PairOf(init[i]).0 == k;
          assert init[i] == items[i];
        }
      }
    }
  }

  /** A pair no later pair overrides gives its key its value. */
  lemma {:induction false} PairsToMapLastWins(items: seq<Json>, i: nat)
    requires forall i :: 0 <= i < |items| ==> IsStringPair(items[i])
    requires i < |items|
    requires forall j :: i < j < |items| ==> PairOf(items[j]).0 != PairOf(items[i]).0
    ensures PairOf(items[i]).0 in PairsToMap(items) && PairsToMap(items)[PairOf(items[i]).0] == PairOf(items[i]).1
    decreases |items|
  {
    var n := |items| - 1;
    if i < n {
      var init := items[..n];
      assert init[i] == items[i];
      forall j | i < j < n ensures PairOf(init[j]).0 != PairOf(init[i]).0 {
        assert init[j] == items[j];
      }
      PairsToMapLastWins(init, i);
    }
  }

  /** A value `dict.update` accepts: absent or null (the update is skipped), an object,
      or an iterable of string-keyed pairs, which includes the empty string and the
      empty list. */
  predicate Mergeable(value: Option<Json>) {
    || value.None? || value.value.JNull? || value.value.JObj? || value.value == JStr("")
    || (value.value.JArr? && forall i :: 0 <= i < |value.value.items| ==> IsStringPair(value.value.items[i]))
  }

  /** The entries an accepted value adds: none for an absent or null value or an empty
      string. */
  function FieldsOf(value: Option<Json>): JsonObject
    requires Mergeable(value)
  {
    if value.Some? && value.value.JObj? then value.value.fields
    else if value.Some? && value.value.JArr? then PairsToMap(value.value.items)
    else map[]
  }

  /** `data[key].update(value)` when `value` is not None. */
  function Merge(current: JsonObject, value: Option<Json>, script: string, key: string): (r: Result<JsonObject, HandlerError>)
    ensures r.Success? <==> Mergeable(value)
    ensures r.Success? ==> UpdatedWith(current, FieldsOf(value), r.value)
    ensures r.Failure? ==> r.error == MergeTypeError(script, key)
  {
    match value
    case None => Success(current)
    case Some(JNull) => Success(current)
    case Some(JObj(fields)) => Success(current + fields)
    case Some(JStr(s)) => if s == "" then Success(current) else Failure(MergeTypeError(script, key))
    case Some(JArr(items)) =>
      if Mergeable(value) then Success(current + PairsToMap(items)) else Failure(MergeTypeError(script, key))
    case Some(_) => Failure(MergeTypeError(script, key))
  }

  /** `update("")` iterates no pairs: the map is left as it is. */
  lemma MergeEmptyString(current: JsonObject, script: string, key: string)
    ensures Merge(current, Some(JStr("")), script, key) == Success(current)
  {
  }

  /** A non-empty string yields one-character elements, which are not pairs. */
  lemma MergeNonEmptyStringFails(current: JsonObject, s: string, script: string, key: string)
    requires s != ""
    ensures Merge(current, Some(JStr(s)), script, key) == Failure(MergeTypeError(script, key))
  {
  }

  /** `update([[k, v]])` sets `k` to `v` and keeps the other keys. */
  lemma MergeOnePair(current: JsonObject, k: string, v: Json, script: string, key: string)
    ensures Merge(current, Some(JArr([JArr([JStr(k), v])])), script, key) == Success(current[k := v])
  {
    var items := [JArr([JStr(k), v])];
    assert IsStringPair(items[0]) && PairOf(items[0]) == (k, v);
    assert PairsToMap(items) == map[k := v];
    assert current + map[k := v] == current[k := v];
  }

  function Get(o: JsonObject, key: string): Option<Json> {
    if key in o then Some(o[key]) else None
  }

  /** One script's output folded into the context: the new context, whether the
      persistent map is saved, and the error raised. */
  function ApplyOutput(data: EventData, script: string, output: ScriptOutput): (r: (EventData, bool, Option<HandlerError>))
    ensures output.NoOutput? ==> r == (data, false, None)
    ensures output.ProcessFailed? ==> r == (data, false, Some(ScriptFailed(script, output.message)))
    ensures output.NotJson? ==> r == (data, false, Some(ScriptOutputNotJson(script)))
    ensures output.Output? && !output.doc.JObj? ==> r == (data, false, Some(ScriptOutputNotObject(script)))
    ensures output.Output? && output.doc.JObj? ==>
      var t := Get(output.doc.fields, TransientKey);
      var p := Get(output.doc.fields, PersistentKey);
      && (!Mergeable(t) ==> r == (data, false, Some(MergeTypeError(script, TransientKey))))
      && (Mergeable(t) ==> UpdatedWith(data.transient, FieldsOf(t), r.0.transient))
      && (Mergeable(t) && !Mergeable(p) ==> r.2 == Some(MergeTypeError(script, PersistentKey)) && r.0.persistent == data.persistent)
      && (Mergeable(t) && Mergeable(p) ==> r.2.None? && UpdatedWith(data.persistent, FieldsOf(p), r.0.persistent))
    ensures r.1 <==> r.2.None? && !output.NoOutput?
    ensures !r.1 ==> r.0.persistent == data.persistent
    ensures r.0 == data.(transient := r.0.transient, persistent := r.0.persistent)
    ensures data.transient.Keys <= r.0.transient.Keys && data.persistent.Keys <= r.0.persistent.Keys
  {
    match output
    case ProcessFailed(msg) => (data, false, Some(ScriptFailed(script, msg)))
    case NoOutput => (data, false, None)
    case NotJson => (data, false, Some(ScriptOutputNotJson(script)))
    case Output(JObj(o)) =>
      (match Merge(data.transient, Get(o, TransientKey), script, TransientKey)
       case Failure(e) => (data, false, Some(e))
       case Success(transient) =>
         var data' := data.(transient := transient);
         match Merge(data.persistent, Get(o, PersistentKey), script, PersistentKey)
         case Failure(e) => (data', false, Some(e))
         case Success(persistent) => (data'.(persistent := persistent), true, None))
    case Output(_) => (data, false, Some(ScriptOutputNotObject(script)))
  }

  /** The script loop of `execute_scripts`: each script is invoked with the current
      context, and an error stops the loop. */
  function RunScripts(src: ScriptSource, persistentPath: string, scripts: seq<string>, st: RunState): (RunState, Option<HandlerError>)
    decreases |scripts|
  {
    if |scripts| == 0 then (st, None)
    else
      var (st', error) := RunStep(src, persistentPath, scripts[0], st);
      if error.Some? then (st', error) else RunScripts(src, persistentPath, scripts[1..], st')
  }

  /** One script of the loop: it is invoked with the current context, its output is
      merged, and the persistent map is saved when the merge succeeds. */
  function RunStep(src: ScriptSource, persistentPath: string, script: string, st: RunState): (RunState, Option<HandlerError>)
  {
    var (data, save, error) := ApplyOutput(st.data, script, src.run(script, st.data));
    (RunState(data, st.invocations + [(script, st.data)],
              if save then st.saves + [(persistentPath, data.persistent)] else st.saves),
     error)
  }

  /** The scripts are invoked in order, up to the failing one; each save records the
      persistent map of that moment; only `transient` and `persistent` change, and they
      only gain keys. */
  lemma RunScriptsSpec(src: ScriptSource, persistentPath: string, scripts: seq<string>, st: RunState)
    ensures var (st', error) := RunScripts(src, persistentPath, scripts, st);
      && |st.invocations| <= |st'.invocations| <= |st.invocations| + |scripts|
      && st'.invocations[..|st.invocations|] == st.invocations
      && (forall k :: |st.invocations| <= k < |st'.invocations| ==> st'.invocations[k].0 == scripts[k - |st.invocations|])
      && (error.None? ==> |st'.invocations| == |st.invocations| + |scripts|)
      && |st.saves| <= |st'.saves| && st'.saves[..|st.saves|] == st.saves
      && (forall k :: |st.saves| <= k < |st'.saves| ==> st'.saves[k].0 == persistentPath)
      && st'.data.persistent == (if |st'.saves| > |st.saves| then st'.saves[|st'.saves| - 1].1 else st.data.persistent)
      && st'.data == st.data.(transient := st'.data.transient, persistent := st'.data.persistent)
      && st.data.transient.Keys <= st'.data.transient.Keys && st.data.persistent.Keys <= st'.data.persistent.Keys
  {
    RunScriptsInvocations(src, persistentPath, scripts, st);
    RunScriptsSaves(src, persistentPath, scripts, st);
  }

  /** The invocation half of `RunScriptsSpec`. */
  lemma {:induction false} RunScriptsInvocations(src: ScriptSource, persistentPath: string, scripts: seq<string>, st: RunState)
    ensures var (st', error) := RunScripts(src, persistentPath, scripts, st);
      && |st.invocations| <= |st'.invocations| <= |st.invocations| + |scripts|
      && st'.invocations[..|st.invocations|] == st.invocations
      && (forall k :: |st.invocations| <= k < |st'.invocations| ==> st'.invocations[k].0 == scripts[k - |st.invocations|])
      && (error.None? ==> |st'.invocations| == |st.invocations| + |scripts|)
    decreases |scripts|
  {
    if |scripts| > 0 {
      var script := scripts[0];
      var (st1, error) := RunStep(src, persistentPath, script, st);
      if error.None? {
        RunScriptsInvocations(src, persistentPath, scripts[1..], st1);
        var st' := RunScripts(src, persistentPath, scripts, st).0;
        assert st'.invocations[..|st1.invocations|] == st1.invocations;
        assert st'.invocations[..|st.invocations|] == st1.invocations[..|st.invocations|];
        forall k | |st.invocations| <= k < |st'.invocations|
          ensures st'.invocations[k].0 == scripts[k - |st.invocations|]
        {
          if k == |st.invocations| {
            assert st'.invocations[k] == st1.invocations[k];
          } else {
            assert scripts[1..][k - |st1.invocations|] == scripts[k - |st.invocations|];
          }
        }
      }
    }
  }

  /** The save and context half of `RunScriptsSpec`. */
  lemma {:induction false} RunScriptsSaves(src: ScriptSource, persistentPath: string, scripts: seq<string>, st: RunState)
    ensures var (st', error) := RunScripts(src, persistentPath, scripts, st);
      && |st.saves| <= |st'.saves| && st'.saves[..|st.saves|] == st.saves
      && (forall k :: |st.saves| <= k < |st'.saves| ==> st'.saves[k].0 == persistentPath)
      && st'.data.persistent == (if |st'.saves| > |st.saves| then st'.saves[|st'.saves| - 1].1 else st.data.persistent)
      && st'.data == st.data.(transient := st'.data.transient, persistent := st'.data.persistent)
      && st.data.transient.Keys <= st'.data.transient.Keys && st.data.persistent.Keys <= st'.data.persistent.Keys
    decreases |scripts|
  {
    if |scripts| > 0 {
      var script := scripts[0];
      var (st1, error) := RunStep(src, persistentPath, script, st);
      if error.None? {
        RunScriptsSaves(src, persistentPath, scripts[1..], st1);
        var st' := RunScripts(src, persistentPath, scripts, st).0;
        assert st'.saves[..|st1.saves|] == st1.saves;
        assert st'.saves[..|st.saves|] == st1.saves[..|st.saves|];
        forall k | |st.saves| <= k < |st'.saves| ensures st'.saves[k].0 == persistentPath {
          if k < |st1.saves| {
            assert st'.saves[k] == st1.saves[k];
          }
        }
      }
    }
  }

  /** An empty output changes nothing but the record of the invocation. */
  lemma EmptyOutputChangesNothing(src: ScriptSource, persistentPath: string, script: string, st: RunState)
    requires src.run(script, st.data) == NoOutput
    ensures RunScripts(src, persistentPath, [script], st) ==
      (st.(invocations := st.invocations + [(script, st.data)]), None)
  {
  }

  /** A non-empty output that merges saves the persistent map, even without a
      `persistent` entry. */
  lemma OutputWithoutPersistentStillSaves(src: ScriptSource, persistentPath: string, script: string, st: RunState,
                                          o: JsonObject)
    requires src.run(script, st.data) == Output(JObj(o))
    requires PersistentKey !in o && TransientKey !in o
    ensures RunScripts(src, persistentPath, [script], st) ==
      (st.(invocations := st.invocations + [(script, st.data)], saves := st.saves + [(persistentPath, st.data.persistent)]), None)
  {
  }

  /** `Path(auth_repo.root_dir, PERSISTENT_FILE_NAME)`. */
  function PersistentPath(authRepo: AuthRepoInfo): string {
    Paths.JoinName(authRepo.rootDir, PersistentFileName)
  }

  /** The buckets of one event, in order; an error stops the remaining buckets. */
  function RunBuckets(src: ScriptSource, authRepo: AuthRepoInfo, lastCommit: Json, stage: LifecycleStage,
                      buckets: seq<Event>, st: RunState): (RunState, Option<HandlerError>)
    decreases |buckets|
  {
    if |buckets| == 0 then (st, None)
    else
      var (st', error) := RunBucket(src, authRepo, lastCommit, stage, buckets[0], st);
      if error.Some? then (st', error) else RunBuckets(src, authRepo, lastCommit, stage, buckets[1..], st')
  }

  /** The scripts of one bucket, as `execute_scripts` runs them. */
  function RunBucket(src: ScriptSource, authRepo: AuthRepoInfo, lastCommit: Json, stage: LifecycleStage,
                     bucket: Event, st: RunState): (RunState, Option<HandlerError>)
  {
    ScriptsRun(src, authRepo, lastCommit, ScriptDir(stage, bucket), st)
  }

  /** The scripts of `scriptsRelPath` at `lastCommit`, run in sorted order. */
  function ScriptsRun(src: ScriptSource, authRepo: AuthRepoInfo, lastCommit: Json, scriptsRelPath: string,
                      st: RunState): (RunState, Option<HandlerError>)
  {
    RunScripts(src, PersistentPath(authRepo), ScriptPaths(src.listFiles(lastCommit, scriptsRelPath), authRepo.path, scriptsRelPath), st)
  }

  /** The error a `Result` carries, as an `Option`. */
  function ErrorOf<T>(r: Result<T, HandlerError>): Option<HandlerError> {
    if r.Failure? then Some(r.error) else None
  }

  /** The part of `RunScriptsSpec` the buckets need: the earlier invocations stay,
      and every new one is one of `scripts`. */
  lemma RunScriptsInvokes(src: ScriptSource, persistentPath: string, scripts: seq<string>, st: RunState)
    ensures var st' := RunScripts(src, persistentPath, scripts, st).0;
      && |st.invocations| <= |st'.invocations| && st'.invocations[..|st.invocations|] == st.invocations
      && forall k :: |st.invocations| <= k < |st'.invocations| ==> st'.invocations[k].0 in scripts
  {
    RunScriptsInvocations(src, persistentPath, scripts, st);
    var st' := RunScripts(src, persistentPath, scripts, st).0;
    forall k | |st.invocations| <= k < |st'.invocations| ensures st'.invocations[k].0 in scripts {
      assert st'.invocations[k].0 == scripts[k - |st.invocations|];
    }
  }

  /** Every script invoked comes from the directory of one of the buckets run. */
  lemma {:induction false} RunBucketsInvokes(src: ScriptSource, authRepo: AuthRepoInfo, lastCommit: Json, stage: LifecycleStage,
                                             buckets: seq<Event>, st: RunState)
    ensures var st' := RunBuckets(src, authRepo, lastCommit, stage, buckets, st).0;
      && |st.invocations| <= |st'.invocations| && st'.invocations[..|st.invocations|] == st.invocations
      && forall k :: |st.invocations| <= k < |st'.invocations| ==>
           exists b :: b in buckets &&
             st'.invocations[k].0 in ScriptPaths(src.listFiles(lastCommit, ScriptDir(stage, b)), authRepo.path, ScriptDir(stage, b))
    decreases |buckets|
  {
    if |buckets| > 0 {
      var b := buckets[0];
      var dir := ScriptDir(stage, b);
      var scripts := ScriptPaths(src.listFiles(lastCommit, dir), authRepo.path, dir);
      RunScriptsInvokes(src, PersistentPath(authRepo), scripts, st);
      var (st1, error) := RunScripts(src, PersistentPath(authRepo), scripts, st);
      var st' := RunBuckets(src, authRepo, lastCommit, stage, buckets, st).0;
      if error.None? {
        RunBucketsInvokes(src, authRepo, lastCommit, stage, buckets[1..], st1);
        assert st'.invocations[..|st.invocations|] == st'.invocations[..|st1.invocations|][..|st.invocations|];
      }
      forall k | |st.invocations| <= k < |st'.invocations|
        ensures
          exists b' :: b' in buckets &&
            st'.invocations[k].0 in ScriptPaths(src.listFiles(lastCommit, ScriptDir(stage, b')), authRepo.path, ScriptDir(stage, b'))
      {
        if k < |st1.invocations| {
          if error.None? {
            assert st'.invocations[k] == st'.invocations[..|st1.invocations|][k];
          }
          assert st'.invocations[k].0 in scripts;
        } else {
          var b' :| b' in buckets[1..] &&
            st'.invocations[k].0 in ScriptPaths(src.listFiles(lastCommit, ScriptDir(stage, b')), authRepo.path, ScriptDir(stage, b'));
        }
      }
    }
  }

  /** `_handle_event` as a function of its inputs and of the effects so far. The
      caller's persistent map arrives as `transient_data` and its transient map as
      `persistent_data`, because the prepare function's parameters are in the other
      order. */
  function HandleEventSpec(src: ScriptSource, stage: LifecycleStage, event: Event,
                           persistentData: Option<JsonObject>, transientData: Option<JsonObject>,
                           authRepo: AuthRepoInfo, commitsData: JsonObject, error: Option<string>, targetsData: Json,
                           invocations: seq<(string, EventData)>, saves: seq<(string, JsonObject)>): (RunState, Option<HandlerError>)
  {
    var data := PrepareDataRepo(event, persistentData, transientData, authRepo, commitsData, error, targetsData);
    var st := RunState(data, invocations, saves);
    match stage
    case Host => (st, Some(PrepareArityError("prepare_data_host")))
    case Update => (st, Some(PrepareFunctionMissing("prepare_data_update")))
    case Repo =>
      if "after_pull" !in commitsData then (st, Some(AfterPullMissing))
      else RunBuckets(src, authRepo, commitsData["after_pull"], stage, Buckets(event), st)
  }

  /** After a success event no script of the "failed" bucket runs, after a failure none
      of the "succeeded" bucket, and the swapped maps reach the first script. */
  lemma HandleEventDispatch(src: ScriptSource, event: Event, persistentData: Option<JsonObject>, transientData: Option<JsonObject>,
                            authRepo: AuthRepoInfo, commitsData: JsonObject, error: Option<string>, targetsData: Json,
                            invocations: seq<(string, EventData)>, saves: seq<(string, JsonObject)>)
    requires "after_pull" in commitsData
    ensures var st' := HandleEventSpec(src, Repo, event, persistentData, transientData, authRepo, commitsData, error,
                                       targetsData, invocations, saves).0;
      var lastCommit := commitsData["after_pull"];
      && |invocations| <= |st'.invocations|
      && (forall k :: |invocations| <= k < |st'.invocations| ==>
            exists b :: b in Buckets(event) &&
              st'.invocations[k].0 in ScriptPaths(src.listFiles(lastCommit, ScriptDir(Repo, b)), authRepo.path, ScriptDir(Repo, b)))
      && (|st'.invocations| > |invocations| ==>
            st'.invocations[|invocations|].1.transient == persistentData.GetOr(map[])
            && st'.invocations[|invocations|].1.persistent == transientData.GetOr(map[]))
  {
    var data := PrepareDataRepo(event, persistentData, transientData, authRepo, commitsData, error, targetsData);
    var st := RunState(data, invocations, saves);
    var lastCommit := commitsData["after_pull"];
    RunBucketsInvokes(src, authRepo, lastCommit, Repo, Buckets(event), st);
    FirstInvocationSeesStart(src, authRepo, lastCommit, Repo, Buckets(event), st);
  }

  /** Only the repo stage has a prepare function that accepts the context: the others
      raise before any script runs, and so does a commit record without "after_pull". */
  lemma HandleEventRaisesEarly(src: ScriptSource, stage: LifecycleStage, event: Event,
                               persistentData: Option<JsonObject>, transientData: Option<JsonObject>,
                               authRepo: AuthRepoInfo, commitsData: JsonObject, error: Option<string>, targetsData: Json,
                               invocations: seq<(string, EventData)>, saves: seq<(string, JsonObject)>)
    requires stage != Repo || "after_pull" !in commitsData
    ensures var (st', e) := HandleEventSpec(src, stage, event, persistentData, transientData, authRepo, commitsData, error,
                                            targetsData, invocations, saves);
      && e.Some? && st'.invocations == invocations && st'.saves == saves
      && (stage == Host ==> e == Some(PrepareArityError("prepare_data_host")))
      && (stage == Update ==> e == Some(PrepareFunctionMissing("prepare_data_update")))
      && (stage == Repo ==> e == Some(AfterPullMissing))
  {
  }

  /** The first script invoked sees the context as prepared. */
  lemma {:induction false} FirstInvocationSeesStart(src: ScriptSource, authRepo: AuthRepoInfo, lastCommit: Json, stage: LifecycleStage,
                                                    buckets: seq<Event>, st: RunState)
    ensures var st' := RunBuckets(src, authRepo, lastCommit, stage, buckets, st).0;
      |st'.invocations| > |st.invocations| ==> st'.invocations[|st.invocations|].1 == st.data
    decreases |buckets|
  {
    if |buckets| > 0 {
      var dir := ScriptDir(stage, buckets[0]);
      var scripts := ScriptPaths(src.listFiles(lastCommit, dir), authRepo.path, dir);
      var (st1, error) := RunScripts(src, PersistentPath(authRepo), scripts, st);
      RunScriptsSpec(src, PersistentPath(authRepo), scripts, st);
      if |scripts| > 0 {
        FirstScriptSeesStart(src, PersistentPath(authRepo), scripts, st);
        if error.None? {
          RunBucketsInvokes(src, authRepo, lastCommit, stage, buckets[1..], st1);
          var st' := RunBuckets(src, authRepo, lastCommit, stage, buckets, st).0;
          assert st'.invocations[|st.invocations|] == st'.invocations[..|st1.invocations|][|st.invocations|];
        }
      } else {
        FirstInvocationSeesStart(src, authRepo, lastCommit, stage, buckets[1..], st1);
      }
    }
  }

  lemma FirstScriptSeesStart(src: ScriptSource, persistentPath: string, scripts: seq<string>, st: RunState)
    requires |scripts| > 0
    ensures var st' := RunScripts(src, persistentPath, scripts, st).0;
      |st'.invocations| > |st.invocations| && st'.invocations[|st.invocations|] == (scripts[0], st.data)
  {
    var script := scripts[0];
    var (st1, error) := RunStep(src, persistentPath, script, st);
    if error.None? {
      RunScriptsSpec(src, persistentPath, scripts[1..], st1);
      var st' := RunScripts(src, persistentPath, scripts, st).0;
      assert st'.invocations[|st.invocations|] == st'.invocations[..|st1.invocations|][|st.invocations|];
    }
  }

  // ---------------------------------------------------------------------------
  // The imperative dispatcher

  /** The `data` dictionary shared by all buckets: its `transient` and `persistent`
      maps are updated in place. */
  class ScriptData {
    const changed: bool
    const event: string
    const repoName: string
    const errorMsg: string
    const authRepoData: Json
    const commits: JsonObject
    const targetRepos: Json
    var transient: JsonObject
    var persistent: JsonObject

    constructor(d: EventData)
      ensures Snapshot() == d
    {
      changed, event, repoName, errorMsg := d.changed, d.event, d.repoName, d.errorMsg;
      authRepoData, commits, targetRepos := d.authRepoData, d.commits, d.targetRepos;
      transient, persistent := d.transient, d.persistent;
    }

    /** What `json.dumps(data)` hands to a script. */
    function Snapshot(): EventData
      reads this
    {
      EventData(changed, event, repoName, errorMsg, authRepoData, commits, targetRepos, transient, persistent)
    }
  }

  /** The effects outside the process: scripts run (with their input) and persistent
      maps saved (with their file). */
  class Effects {
    var invocations: seq<(string, EventData)>
    var saves: seq<(string, JsonObject)>

    constructor()
      ensures invocations == [] && saves == []
    {
      invocations, saves := [], [];
    }
  }

  /** `execute_scripts`: runs the ".py" scripts of `scriptsRelPath` at `lastCommit` in
      sorted order, merging each output into `data`; returns the final transient and
      persistent maps. */
  method ExecuteScripts(src: ScriptSource, authRepo: AuthRepoInfo, lastCommit: Json, scriptsRelPath: string,
                        data: ScriptData, fx: Effects)
    returns (r: Result<(JsonObject, JsonObject), HandlerError>)
    modifies data, fx
    ensures ScriptsRun(src, authRepo, lastCommit, scriptsRelPath, old(StateOf(data, fx))) == (StateOf(data, fx), ErrorOf(r))
    ensures r.Success? ==> r.value == (data.transient, data.persistent)
  {
    var persistentPath := PersistentPath(authRepo);
    var scripts := ScriptPaths(src.listFiles(lastCommit, scriptsRelPath), authRepo.path, scriptsRelPath);
    ghost var start := StateOf(data, fx);
    var i := 0;
    while i < |scripts|
      invariant 0 <= i <= |scripts|
      invariant RunScripts(src, persistentPath, scripts[i..], StateOf(data, fx)) == RunScripts(src, persistentPath, scripts, start)
      decreases |scripts| - i
    {
      var script := scripts[i];
      assert scripts[i..][0] == script && scripts[i..][1..] == scripts[i + 1..];
      var error := RunScript(src, persistentPath, script, data, fx);
      if error.Some? {
        return Failure(error.value);
      }
      i := i + 1;
    }
    assert scripts[|scripts|..] == [];
    return Success((data.transient, data.persistent));
  }

  /** One pass of the `execute_scripts` loop: invokes `script` with the current
      context, merges its output and saves the persistent map; the new state and the
      error are one step of the script-run function. */
  method RunScript(src: ScriptSource, persistentPath: string, script: string, data: ScriptData, fx: Effects)
    returns (error: Option<HandlerError>)
    modifies data, fx
    ensures RunStep(src, persistentPath, script, old(StateOf(data, fx))) == (StateOf(data, fx), error)
  {
    var input := data.Snapshot();
    var output := src.run(script, input);
    fx.invocations := fx.invocations + [(script, input)];
    if output.ProcessFailed? {
      return Some(ScriptFailed(script, output.message));
    }
    if output.NoOutput? {
      return None;
    }
    if output.NotJson? {
      return Some(ScriptOutputNotJson(script));
    }
    if !output.doc.JObj? {
      return Some(ScriptOutputNotObject(script));
    }
    var o := output.doc.fields;
    var transient := Merge(data.transient, Get(o, TransientKey), script, TransientKey);
    if transient.Failure? {
      return Some(transient.error);
    }
    data.transient := transient.value;
    var persistent := Merge(data.persistent, Get(o, PersistentKey), script, PersistentKey);
    if persistent.Failure? {
      return Some(persistent.error);
    }
    data.persistent := persistent.value;
    fx.saves := fx.saves + [(persistentPath, data.persistent)];
    return None;
  }

  /** The observable state held by `data` and `fx`. */
  function StateOf(data: ScriptData, fx: Effects): RunState
    reads data, fx
  {
    RunState(data.Snapshot(), fx.invocations, fx.saves)
  }

  /** The inner `_execute_scripts` of `_handle_event`: runs one bucket; `rest` are the
      buckets still to run after it. */
  method ExecuteBucket(src: ScriptSource, authRepo: AuthRepoInfo, lastCommit: Json, stage: LifecycleStage, bucket: Event,
                       ghost rest: seq<Event>, data: ScriptData, fx: Effects)
    returns (raised: Option<HandlerError>)
    modifies data, fx
    ensures var before := RunBuckets(src, authRepo, lastCommit, stage, [bucket] + rest, old(StateOf(data, fx)));
      if raised.Some? then before == (StateOf(data, fx), raised)
      else before == RunBuckets(src, authRepo, lastCommit, stage, rest, StateOf(data, fx))
  {
    ghost var st := StateOf(data, fx);
    var result := ExecuteScripts(src, authRepo, lastCommit, ScriptDir(stage, bucket), data, fx);
    raised := ErrorOf(result);
    assert RunBucket(src, authRepo, lastCommit, stage, bucket, st) == (StateOf(data, fx), raised);
    assert ([bucket] + rest)[0] == bucket && ([bucket] + rest)[1..] == rest;
  }

  /** `_handle_event` (and `handle_repo_event` for the repo stage): prepares the
      context, then runs the event's buckets in order, the "completed" bucket last. */
  method HandleEvent(src: ScriptSource, stage: LifecycleStage, event: Event,
                     persistentData: Option<JsonObject>, transientData: Option<JsonObject>,
                     authRepo: AuthRepoInfo, commitsData: JsonObject, error: Option<string>, targetsData: Json,
                     fx: Effects)
    returns (raised: Option<HandlerError>)
    modifies fx
    ensures var (st, e) := HandleEventSpec(src, stage, event, persistentData, transientData, authRepo, commitsData,
                                           error, targetsData, old(fx.invocations), old(fx.saves));
      fx.invocations == st.invocations && fx.saves == st.saves && raised == e
  {
    if stage == Host {
      return Some(PrepareArityError("prepare_data_host"));
    }
    if stage == Update {
      return Some(PrepareFunctionMissing("prepare_data_update"));
    }
    // the prepare function takes the transient map first: the two maps change places
    var data := new ScriptData(PrepareDataRepo(event, persistentData, transientData, authRepo, commitsData, error, targetsData));
    if "after_pull" !in commitsData {
      return Some(AfterPullMissing);
    }
    var lastCommit := commitsData["after_pull"];
    raised := ExecuteEventBuckets(src, authRepo, lastCommit, stage, event, data, fx);
  }

  /** The bucket calls of `_handle_event`, in order; an error stops the rest. */
  method ExecuteEventBuckets(src: ScriptSource, authRepo: AuthRepoInfo, lastCommit: Json, stage: LifecycleStage, event: Event,
                             data: ScriptData, fx: Effects)
    returns (raised: Option<HandlerError>)
    modifies data, fx
    ensures RunBuckets(src, authRepo, lastCommit, stage, Buckets(event), old(StateOf(data, fx))) == (StateOf(data, fx), raised)
  {
    ghost var goal := RunBuckets(src, authRepo, lastCommit, stage, Buckets(event), StateOf(data, fx));
    // the buckets still to run, as variables, so that the verifier does not unfold
    // the script runs of the literal lists
    ghost var last: seq<Event> := [Completed];
    ghost var afterSuccess: seq<Event> := [Succeeded] + last;
    if event == Changed || event == Unchanged || event == Succeeded {
      // a changed or unchanged repository runs its own bucket before "succeeded"
      if event == Changed || event == Unchanged {
        assert Buckets(event) == [event] + afterSuccess;
        raised := ExecuteBucket(src, authRepo, lastCommit, stage, event, afterSuccess, data, fx);
        if raised.Some? {
          return;
        }
      }
      assert goal == RunBuckets(src, authRepo, lastCommit, stage, [Succeeded] + last, StateOf(data, fx));
      raised := ExecuteBucket(src, authRepo, lastCommit, stage, Succeeded, last, data, fx);
      if raised.Some? {
        return;
      }
    } else if event == Failed {
      assert Buckets(event) == [Failed] + last;
      raised := ExecuteBucket(src, authRepo, lastCommit, stage, event, last, data, fx);
      if raised.Some? {
        return;
      }
    } else {
      assert Buckets(event) == last;
    }
    assert goal == RunBuckets(src, authRepo, lastCommit, stage, last, StateOf(data, fx));
    assert last == [Completed] + [];
    // the "completed" bucket runs last, whatever the event
    raised := ExecuteBucket(src, authRepo, lastCommit, stage, Completed, [], data, fx);
  }
}

=== FILE: paths.dfy ===
/** String helpers standing in for Python's `str.split`, `os.path` and `pathlib` on
    POSIX paths. */
module Paths {
  import opened Wrappers

  /** Python's `s.split(sep)`: the pieces between separators, at least one. */
  function Split(s: string, sep: char): (parts: seq<string>)
    ensures |parts| >= 1
    ensures forall k :: 0 <= k < |parts| ==> sep !in parts[k]
    decreases |s|
  {
    if |s| == 0 then [""]
    else if s[0] == sep then [""] + Split(s[1..], sep)
    else
      var rest := Split(s[1..], sep);
      [[s[0]] + rest[0]] + rest[1..]
  }

  /** `sep.join(parts)`. */
  function Join(parts: seq<string>, sep: char): string
    requires |parts| >= 1
    decreases |parts|
  {
    if |parts| == 1 then parts[0] else parts[0] + [sep] + Join(parts[1..], sep)
  }

  /** Joining the pieces of a split gives back the string. */
  lemma {:induction false} JoinSplit(s: string, sep: char)
    ensures Join(Split(s, sep), sep) == s
    decreases |s|
  {
    if |s| == 0 {
    } else if s[0] == sep {
      JoinSplit(s[1..], sep);
      var rest := Split(s[1..], sep);
      assert Split(s, sep)[1..] == rest;
      assert s == [sep] + s[1..];
    } else {
      JoinSplit(s[1..], sep);
      var rest := Split(s[1..], sep);
      var parts := Split(s, sep);
      assert parts[0] == [s[0]] + rest[0];
      if |rest| == 1 {
        assert s == [s[0]] + s[1..];
      } else {
        assert parts[1..] == rest[1..];
        assert Join(parts, sep) == [s[0]] + rest[0] + [sep] + Join(rest[1..], sep);
        assert s == [s[0]] + s[1..];
      }
    }
  }

  /** A string without the separator splits into itself alone. */
  lemma {:induction false} SplitWithoutSep(s: string, sep: char)
    requires sep !in s
    ensures Split(s, sep) == [s]
    decreases |s|
  {
    if |s| > 0 {
      assert sep !in s[1..] by {
        forall k | 0 <= k < |s[1..]| ensures s[1..][k] != sep {
          assert s[1..][k] == s[k + 1];
        }
      }
      SplitWithoutSep(s[1..], sep);
      assert [s[0]] + s[1..] == s;
    }
  }

  /** A separator-free piece followed by a separator splits off as the first part. */
  lemma {:induction false} SplitPrefix(a: string, b: string, sep: char)
    requires sep !in a
    ensures Split(a + [sep] + b, sep) == [a] + Split(b, sep)
    decreases |a|
  {
    if |a| == 0 {
      assert a + [sep] + b == [sep] + b;
      assert ([sep] + b)[1..] == b;
    } else {
      var s := a + [sep] + b;
      assert s[0] == a[0];
      assert s[1..] == a[1..] + [sep] + b;
      assert sep !in a[1..] by {
        forall k | 0 <= k < |a[1..]| ensures a[1..][k] != sep {
          assert a[1..][k] == a[k + 1];
        }
      }
      SplitPrefix(a[1..], b, sep);
      assert [a[0]] + a[1..] == a;
    }
  }

  /** The index of the last occurrence of `c` in `s`, if any. */
  function LastIndexOf(s: string, c: char): (r: Option<nat>)
    ensures r.None? ==> c !in s
    ensures r.Some? ==> r.value < |s| && s[r.value] == c && c !in s[r.value + 1..]
    decreases |s|
  {
    if |s| == 0 then None
    else if s[|s| - 1] == c then Some(|s| - 1)
    else
      var r := LastIndexOf(s[..|s| - 1], c);
      assert r.Some? ==> s[r.value + 1..] == s[..|s| - 1][r.value + 1..] + [s[|s| - 1]];
      assert s == s[..|s| - 1] + [s[|s| - 1]];
      r
  }

  /** The last occurrence of `c` is the one with no `c` after it. */
  lemma {:induction false} LastIndexOfAppend(s: string, c: char, t: string)
    requires c !in t
    ensures LastIndexOf(s + [c] + t, c) == Some(|s|)
    decreases |t|
  {
    var u := s + [c] + t;
    if |t| > 0 {
      assert u[|u| - 1] == t[|t| - 1];
      assert u[..|u| - 1] == s + [c] + t[..|t| - 1];
      assert t == t[..|t| - 1] + [t[|t| - 1]];
      LastIndexOfAppend(s, c, t[..|t| - 1]);
    }
  }

  /** A component pathlib keeps: not empty, not ".", without a separator. */
  predicate IsPart(c: string) {
    c != "" && c != "." && '/' !in c
  }

  /** The pieces of a split that pathlib keeps: empty and "." pieces are dropped. */
  function KeepParts(pieces: seq<string>): (r: seq<string>)
    ensures forall k :: 0 <= k < |r| ==> IsPart(r[k])
    decreases |pieces|
  {
    if |pieces| == 0 then []
    else (if IsPart(pieces[0]) then [pieces[0]] else []) + KeepParts(pieces[1..])
  }

  /** The components of `PurePosixPath(p)` after its anchor. */
  function Parts(p: string): seq<string> {
    KeepParts(Split(p, '/'))
  }

  /** Whether `PurePosixPath(p)` has the root `/` as its anchor. */
  predicate Anchored(p: string) {
    |p| > 0 && p[0] == '/'
  }

  /** `str()` of a pure path: its anchor and components joined by `/`, "." for an
      empty relative path. */
  function PathString(anchored: bool, parts: seq<string>): string {
    if |parts| == 0 then (if anchored then "/" else ".")
    else (if anchored then "/" else "") + Join(parts, '/')
  }

  /** `str(Path(p).parent)`: the path without its last component; the root and "."
      are their own parents. */
  function Parent(p: string): string {
    var parts := Parts(p);
    PathString(Anchored(p), if |parts| == 0 then [] else parts[..|parts| - 1])
  }

  /** `Path(p).name`: the last component, "" when there is none. */
  function Name(p: string): string {
    var parts := Parts(p);
    if |parts| == 0 then "" else parts[|parts| - 1]
  }

  /** `os.path.basename(p)`: what follows the last separator. */
  function BaseName(p: string): (b: string)
    ensures '/' !in b
    ensures |b| <= |p|
  {
    match LastIndexOf(p, '/')
    case None => p
    case Some(i) => p[i + 1..]
  }

  /** `str(Path(dir) / name)`: an anchored `name` replaces `dir`. */
  function JoinPath(dir: string, name: string): string {
    if Anchored(name) then PathString(true, Parts(name))
    else PathString(Anchored(dir), Parts(dir) + Parts(name))
  }

  /** `str(Path(dir) / name)` for a single component `name`, such as a file name. */
  function JoinName(dir: string, name: string): string
    requires IsPart(name)
  {
    PathString(Anchored(dir), Parts(dir) + [name])
  }

  /** Joining a single component is the general join. */
  lemma JoinNameIsJoinPath(dir: string, name: string)
    requires IsPart(name)
    ensures JoinName(dir, name) == JoinPath(dir, name)
  {
    PartsOfName(name);
  }

  /** The components `os.path.normpath` keeps: each ".." removes the component before
      it, is dropped at the root, and is kept at the start of a relative path. */
  function NormParts(anchored: bool, parts: seq<string>): (r: seq<string>)
    requires forall k :: 0 <= k < |parts| ==> IsPart(parts[k])
    ensures forall k :: 0 <= k < |r| ==> IsPart(r[k])
    decreases |parts|
  {
    if |parts| == 0 then []
    else
      var earlier := NormParts(anchored, parts[..|parts| - 1]);
      var c := parts[|parts| - 1];
      if c != ".." then earlier + [c]
      else if |earlier| > 0 && earlier[|earlier| - 1] != ".." then earlier[..|earlier| - 1]
      else if anchored then earlier
      else earlier + [".."]
  }

  /** `os.path.normpath(p)`. */
  function NormPath(p: string): string {
    PathString(Anchored(p), NormParts(Anchored(p), Parts(p)))
  }

  /** Splitting a join of separator-free pieces gives the pieces back. */
  lemma {:induction false} SplitJoin(parts: seq<string>, sep: char)
    requires |parts| >= 1
    requires forall k :: 0 <= k < |parts| ==> sep !in parts[k]
    ensures Split(Join(parts, sep), sep) == parts
    decreases |parts|
  {
    if |parts| == 1 {
      SplitWithoutSep(parts[0], sep);
    } else {
      SplitJoin(parts[1..], sep);
      SplitPrefix(parts[0], Join(parts[1..], sep), sep);
    }
  }

  /** A join of pieces ends with its last piece after a separator. */
  lemma {:induction false} JoinSnoc(parts: seq<string>, sep: char)
    requires |parts| >= 2
    ensures Join(parts, sep) == Join(parts[..|parts| - 1], sep) + [sep] + parts[|parts| - 1]
    decreases |parts|
  {
    if |parts| > 2 {
      JoinSnoc(parts[1..], sep);
      assert parts[1..][..|parts| - 2] == parts[..|parts| - 1][1..];
    }
  }

  /** A join of non-empty pieces starts with the first piece's first character. */
  lemma JoinHead(parts: seq<string>, sep: char)
    requires |parts| >= 1 && |parts[0]| > 0
    ensures |Join(parts, sep)| > 0 && Join(parts, sep)[0] == parts[0][0]
  {
  }

  lemma {:induction false} KeepPartsOfParts(parts: seq<string>)
    requires forall k :: 0 <= k < |parts| ==> IsPart(parts[k])
    ensures KeepParts(parts) == parts
    decreases |parts|
  {
    if |parts| > 0 {
      KeepPartsOfParts(parts[1..]);
    }
  }

  /** Printing a path and parsing it again gives the same anchor and components. */
  lemma PartsOfPathString(anchored: bool, parts: seq<string>)
    requires forall k :: 0 <= k < |parts| ==> IsPart(parts[k])
    ensures Parts(PathString(anchored, parts)) == parts
    ensures Anchored(PathString(anchored, parts)) == anchored
  {
    var s := PathString(anchored, parts);
    if |parts| == 0 {
      if anchored {
        assert s == [] + ['/'] + [];
        SplitPrefix([], [], '/');
        assert Split(s, '/') == ["", ""];
      } else {
        SplitWithoutSep(s, '/');
        assert ["."][1..] == [];
      }
    } else {
      var j := Join(parts, '/');
      SplitJoin(parts, '/');
      KeepPartsOfParts(parts);
      if anchored {
        assert s == [] + ['/'] + j;
        SplitPrefix([], j, '/');
        assert Split(s, '/') == [""] + parts;
      } else {
        assert s == j;
        JoinHead(parts, '/');
      }
    }
  }

  /** `os.path.basename` of a printed path with components is its last component. */
  lemma BaseNameOfPathString(anchored: bool, parts: seq<string>)
    requires |parts| > 0
    requires forall k :: 0 <= k < |parts| ==> IsPart(parts[k])
    ensures BaseName(PathString(anchored, parts)) == parts[|parts| - 1]
  {
    var last := parts[|parts| - 1];
    var s := PathString(anchored, parts);
    if |parts| == 1 {
      if anchored {
        assert s == [] + ['/'] + last;
        LastIndexOfAppend([], '/', last);
      } else {
        assert s == last;
      }
    } else {
      JoinSnoc(parts, '/');
      var init := (if anchored then "/" else "") + Join(parts[..|parts| - 1], '/');
      assert s == init + ['/'] + last;
      LastIndexOfAppend(init, '/', last);
      assert s[|init| + 1..] == last;
    }
  }

  /** The parent of a path has the same anchor and all its components but the last. */
  lemma ParentParts(p: string)
    ensures Anchored(Parent(p)) == Anchored(p)
    ensures Parts(Parent(p)) == if |Parts(p)| == 0 then [] else Parts(p)[..|Parts(p)| - 1]
  {
    var parts := Parts(p);
    PartsOfPathString(Anchored(p), if |parts| == 0 then [] else parts[..|parts| - 1]);
  }

  /** A single component, such as a file name, parses as itself. */
  lemma PartsOfName(name: string)
    requires IsPart(name)
    ensures Parts(name) == [name] && !Anchored(name)
  {
    SplitWithoutSep(name, '/');
    assert [name][1..] == [];
    assert KeepParts([name]) == [name] + KeepParts([]);
    assert name[0] in name;
  }

  /** Joining a directory with a component and taking parent and name again recovers
      both, whatever separators and "." pieces the directory was written with. */
  lemma ParentOfJoin(dir: string, name: string)
    requires IsPart(name)
    ensures Parent(JoinPath(dir, name)) == PathString(Anchored(dir), Parts(dir))
    ensures Name(JoinPath(dir, name)) == name
  {
    PartsOfName(name);
    var parts := Parts(dir) + [name];
    PartsOfPathString(Anchored(dir), parts);
    assert parts[..|parts| - 1] == Parts(dir);
  }

  /** A path whose last component is not ".." keeps that component under `normpath`. */
  lemma NormPathKeepsLast(p: string)
    requires |Parts(p)| > 0 && Parts(p)[|Parts(p)| - 1] != ".."
    ensures BaseName(NormPath(p)) == Parts(p)[|Parts(p)| - 1]
  {
    var np := NormParts(Anchored(p), Parts(p));
    assert np[|np| - 1] == Parts(p)[|Parts(p)| - 1];
    BaseNameOfPathString(Anchored(p), np);
  }

  /** A separator at the end closes the last piece and adds an empty one. */
  lemma {:induction false} SplitTrailingSep(s: string, sep: char)
    ensures Split(s + [sep], sep) == Split(s, sep) + [""]
    decreases |s|
  {
    if |s| == 0 {
      assert s + [sep] == [sep] + [];
    } else {
      SplitTrailingSep(s[1..], sep);
      assert (s + [sep])[1..] == s[1..] + [sep];
      assert (s + [sep])[0] == s[0];
    }
  }

  lemma {:induction false} KeepPartsAppend(xs: seq<string>, ys: seq<string>)
    ensures KeepParts(xs + ys) == KeepParts(xs) + KeepParts(ys)
    decreases |xs|
  {
    if |xs| > 0 {
      KeepPartsAppend(xs[1..], ys);
      assert (xs + ys)[1..] == xs[1..] + ys;
    } else {
      assert xs + ys == ys;
    }
  }

  /** A trailing separator adds no component: `a/b/` is the path `a/b`. */
  lemma TrailingSeparatorParts(p: string)
    requires |p| > 0
    ensures Parts(p + "/") == Parts(p)
    ensures Anchored(p + "/") == Anchored(p)
  {
    SplitTrailingSep(p, '/');
    KeepPartsAppend(Split(p, '/'), [""]);
    assert KeepParts([""]) == [] + KeepParts([]);
  }

  /** `Path(name).suffix`: the extension of the final component, from its last dot,
      when that dot is neither the first nor the last character. */
  function Suffix(name: string): string {
    var b := Name(name);
    match LastIndexOf(b, '.')
    case Some(i) => if 0 < i < |b| - 1 then b[i..] else ""
    case None => ""
  }

  /** A file is a Python script exactly when its final component is longer than
      ".py" and ends with it. */
  lemma PySuffix(name: string)
    ensures Suffix(name) == ".py" <==>
      (var b := Name(name); |b| >= 4 && b[|b| - 3..] == ".py")
  {
    var b := Name(name);
    if |b| >= 4 && b[|b| - 3..] == ".py" {
      assert b == b[..|b| - 3] + ['.'] + "py";
      LastIndexOfAppend(b[..|b| - 3], '.', "py");
    }
    if Suffix(name) == ".py" {
      var r := LastIndexOf(b, '.');
      assert r.Some?;
      var i := r.value;
      assert b[i..] == ".py";
      assert |b[i..]| == 3;
      assert i == |b| - 3;
    }
  }
}

=== FILE: repo_helpers.dfy ===
/** The per-repository helpers of taf/repositoriesdb.py: URL resolution, custom-data
    merge, class selection, metadata-file error mapping and host assignment. */
module RepoHelpers {
  import opened Wrappers
  import opened JsonValues
  import Paths

  /** TUF's targets directory, under which the metadata files live. */
  const TargetsDirectory := "targets"
  const DependenciesJsonPath := TargetsDirectory + "/dependencies.json"
  const MirrorsJsonPath := TargetsDirectory + "/mirrors.json"
  const RepositoriesJsonPath := TargetsDirectory + "/repositories.json"
  const HostsJsonPath := TargetsDirectory + "/hosts.json"
  const AuthReposHostsKey := "auth_repos"

  /** The name of a Python repository class. */
  type ClassName = string
  const NamedGitRepository: ClassName := "NamedGitRepository"
  const NamedAuthenticationRepo: ClassName := "NamedAuthenticationRepo"

  /** One entry of repositories.json or dependencies.json: explicit `urls`, if the
      key is present, and the `custom` object, if present. */
  datatype RepoData = RepoData(urls: Option<seq<string>>, custom: Option<JsonObject>)

  /** The signed targets-metadata entry of a path: its `custom` object, if any. */
  datatype SignedTarget = SignedTarget(custom: Option<JsonObject>)

  /** hosts.json: host name -> host data (which holds the `auth_repos` list). */
  type HostsDecl = map<string, JsonObject>

  /** A repository handle as built by a repository class or factory. */
  datatype Repo = Repo(
    name: string,            // namespace/name
    path: string,            // filesystem path, the identity of its git repository
    urls: seq<string>,
    custom: JsonObject,      // `additional_info`
    hosts: map<string, JsonObject>)

  datatype ReadFailure = NotAvailableAtRevision | NotValidJson

  datatype InstantiationFailure =
    | NoUrlSource          // no `urls` and no mirrors.json
    | NotOrgRepoFormat     // the path is not `org_name/repo_name`
    | ConstructorRaised(message: string)

  datatype Error =
    | RepositoryInstantiationError(target: string, reason: InstantiationFailure)
    | InvalidOrMissingMetadataError(file: string, commit: Commit, failure: ReadFailure)
    | RepositoriesNotLoaded(authRepo: string)
    | RevisionNotLoaded(authRepo: string, revision: Option<Commit>)
    | NoRepositoriesMatch(filter: JsonObject)
    | GitReadError(gitFile: string, atRevision: Option<Commit>, gitFailure: ReadFailure)
    | HostsTypeError(repoName: string)
    /** KeyError, IndexError or ValueError from `mirror.format(...)`. */
    | MirrorFormatError(mirror: string)

  // ---------------------------------------------------------------------------
  // URL resolution (`_get_urls`)

  const OrgPlaceholder := "{org_name}"
  const RepoPlaceholder := "{repo_name}"

  /** The rendering of the rest of a template, after the text `s` rendered so far. */
  function Prefixed(s: string, rest: Option<string>): (r: Option<string>)
    ensures r.Some? <==> rest.Some?
    ensures r.Some? ==> r.value == s + rest.value
  {
    if rest.Some? then Some(s + rest.value) else None
  }

  /** `template.format(org_name=org, repo_name=repo)`: `{{` and `}}` stand for single
      braces, `{org_name}` and `{repo_name}` are replaced, and any other `{` or a lone
      `}` makes the call raise (KeyError for an unknown field, IndexError for a
      positional one, ValueError for an unmatched brace), which is `None` here. */
  function Render(template: string, org: string, repo: string): Option<string>
    decreases |template|
  {
    if |template| == 0 then Some("")
    else if OrgPlaceholder <= template then Prefixed(org, Render(template[|OrgPlaceholder|..], org, repo))
    else if RepoPlaceholder <= template then Prefixed(repo, Render(template[|RepoPlaceholder|..], org, repo))
    else if "{{" <= template then Prefixed("{", Render(template[2..], org, repo))
    else if "}}" <= template then Prefixed("}", Render(template[2..], org, repo))
    else if template[0] == '{' || template[0] == '}' then None
    else Prefixed([template[0]], Render(template[1..], org, repo))
  }

  /** Text without braces is copied unchanged. */
  lemma {:induction false} RenderLiteral(lit: string, rest: string, org: string, repo: string)
    requires '{' !in lit && '}' !in lit
    ensures Render(lit + rest, org, repo) == Prefixed(lit, Render(rest, org, repo))
    decreases |lit|
  {
    if |lit| == 0 {
      assert lit + rest == rest;
      if Render(rest, org, repo).Some? {
        assert lit + Render(rest, org, repo).value == Render(rest, org, repo).value;
      }
    } else {
      var t := lit + rest;
      assert t[0] == lit[0];
      RenderPlainHead(t, org, repo);
      assert t[1..] == lit[1..] + rest;
      assert '{' !in lit[1..] && '}' !in lit[1..] by { assert lit == [lit[0]] + lit[1..]; }
      RenderLiteral(lit[1..], rest, org, repo);
      assert lit == [lit[0]] + lit[1..];
      if Render(rest, org, repo).Some? {
        var x := Render(rest, org, repo).value;
        assert [lit[0]] + (lit[1..] + x) == lit + x;
      }
    }
  }

  /** A first character that is not a brace is copied. */
  lemma RenderPlainHead(t: string, org: string, repo: string)
    requires |t| > 0 && t[0] != '{' && t[0] != '}'
    ensures Render(t, org, repo) == Prefixed([t[0]], Render(t[1..], org, repo))
  {
    assert OrgPlaceholder[0] == '{' && RepoPlaceholder[0] == '{';
    assert !(OrgPlaceholder <= t) && !(RepoPlaceholder <= t);
    assert !("{{" <= t) && !("}}" <= t);
  }

  lemma RenderOrgPlaceholder(rest: string, org: string, repo: string)
    ensures Render(OrgPlaceholder + rest, org, repo) == Prefixed(org, Render(rest, org, repo))
  {
    var t := OrgPlaceholder + rest;
    assert OrgPlaceholder <= t;
    assert t[|OrgPlaceholder|..] == rest;
  }

  lemma RenderRepoPlaceholder(rest: string, org: string, repo: string)
    ensures Render(RepoPlaceholder + rest, org, repo) == Prefixed(repo, Render(rest, org, repo))
  {
    var t := RepoPlaceholder + rest;
    assert t[1] == 'r' && OrgPlaceholder[1] == 'o';
    assert !(OrgPlaceholder <= t);
    assert RepoPlaceholder <= t;
    assert t[|RepoPlaceholder|..] == rest;
  }

  /** A doubled brace stands for one brace, and what follows it is not a field:
      `{{org_name}}` renders as the text `{org_name}`. */
  lemma RenderEscapedBraces(rest: string, org: string, repo: string)
    ensures Render("{{" + rest, org, repo) == Prefixed("{", Render(rest, org, repo))
    ensures Render("}}" + rest, org, repo) == Prefixed("}", Render(rest, org, repo))
  {
    var t := "{{" + rest;
    assert t[1] == '{' && OrgPlaceholder[1] == 'o' && RepoPlaceholder[1] == 'r';
    assert !(OrgPlaceholder <= t) && !(RepoPlaceholder <= t);
    assert "{{" <= t && t[2..] == rest;
    var u := "}}" + rest;
    assert u[0] == '}' && OrgPlaceholder[0] == '{';
    assert !(OrgPlaceholder <= u) && !(RepoPlaceholder <= u) && !("{{" <= u);
    assert "}}" <= u && u[2..] == rest;
  }

  /** A `}` that is not doubled is an error (ValueError). */
  lemma RenderRejectsLoneClosingBrace(rest: string, org: string, repo: string)
    requires |rest| == 0 || rest[0] != '}'
    ensures Render("}" + rest, org, repo) == None
  {
    var t := "}" + rest;
    assert t[0] == '}' && OrgPlaceholder[0] == '{' && RepoPlaceholder[0] == '{';
    assert !(OrgPlaceholder <= t) && !(RepoPlaceholder <= t) && !("{{" <= t);
    assert !("}}" <= t) by {
      if |rest| > 0 { assert t[1] == rest[0]; }
    }
  }

  /** A replacement field naming anything but the two placeholders raises (KeyError, or
      IndexError for a positional field). The name is plain: no conversion (`!`), format
      spec (`:`), attribute (`.`) or index (`[`), with which Python would read the field
      name as only the part before them. */
  lemma RenderRejectsOtherField(name: string, rest: string, org: string, repo: string)
    requires '{' !in name && '}' !in name
    requires '!' !in name && ':' !in name && '.' !in name && '[' !in name
    requires name != "org_name" && name != "repo_name"
    ensures Render("{" + name + "}" + rest, org, repo) == None
  {
    var t := "{" + name + "}" + rest;
    assert t[0] == '{';
    assert |name| > 0 ==> t[1] == name[0];
    assert |name| == 0 ==> t[1] == '}';
    assert !("{{" <= t);
    NotAField(name, rest, OrgPlaceholder, "org_name");
    NotAField(name, rest, RepoPlaceholder, "repo_name");
  }

  /** A `{` that is never closed raises ValueError, whatever follows it. */
  lemma RenderRejectsUnclosedField(name: string, org: string, repo: string)
    requires '{' !in name && '}' !in name
    ensures Render("{" + name, org, repo) == None
  {
    var u := "{" + name;
    assert u[0] == '{';
    assert |u| >= 2 ==> u[1] == name[0];
    assert OrgPlaceholder[9] == '}' && RepoPlaceholder[10] == '}';
    assert |u| >= 10 ==> u[9] == name[8];
    assert |u| >= 11 ==> u[10] == name[9];
  }

  /** A brace-free field name followed by `}` does not start with a placeholder
      whose name differs. */
  lemma NotAField(name: string, rest: string, placeholder: string, field: string)
    requires placeholder == "{" + field + "}" && '}' !in field
    requires '}' !in name && name != field
    ensures !(placeholder <= "{" + name + "}" + rest)
  {
    var t := "{" + name + "}" + rest;
    var n := |field|;
    if |name| < n {
      assert t[|name| + 1] != placeholder[|name| + 1];
    } else if |name| > n {
      assert t[n + 1] != placeholder[n + 1];
    } else {
      var k :| 0 <= k < n && name[k] != field[k];
      assert t[k + 1] != placeholder[k + 1];
    }
  }

  /** A mirror template of the form `<a>{org_name}<b>{repo_name}<c>` renders with
      both placeholders substituted. */
  lemma RenderMirror(a: string, b: string, c: string, org: string, repo: string)
    requires '{' !in a && '{' !in b && '{' !in c
    requires '}' !in a && '}' !in b && '}' !in c
    ensures Render(a + OrgPlaceholder + b + RepoPlaceholder + c, org, repo) == Some(a + org + b + repo + c)
  {
    var t2 := b + (RepoPlaceholder + c);
    var t1 := OrgPlaceholder + t2;
    RenderMirrorTail(b, c, org, repo);
    RenderOrgPlaceholder(t2, org, repo);
    assert Render(t1, org, repo) == Some(org + (b + (repo + c)));
    RenderLiteral(a, t1, org, repo);
    assert Render(a + t1, org, repo) == Some(a + (org + (b + (repo + c))));
    Regroup(a, OrgPlaceholder, b, RepoPlaceholder, c);
    Regroup(a, org, b, repo, c);
  }

  lemma Regroup(s1: string, s2: string, s3: string, s4: string, s5: string)
    ensures s1 + s2 + s3 + s4 + s5 == s1 + (s2 + (s3 + (s4 + s5)))
  {
    assert s1 + s2 + s3 == s1 + (s2 + s3);
    assert s1 + s2 + s3 + s4 == s1 + (s2 + (s3 + s4));
  }

  lemma RenderMirrorTail(b: string, c: string, org: string, repo: string)
    requires '{' !in b && '{' !in c && '}' !in b && '}' !in c
    ensures Render(b + (RepoPlaceholder + c), org, repo) == Some(b + (repo + c))
  {
    var t3 := RepoPlaceholder + c;
    RenderPlain(c, org, repo);
    RenderRepoPlaceholder(c, org, repo);
    assert Render(t3, org, repo) == Some(repo + c);
    RenderLiteral(b, t3, org, repo);
  }

  /** A template without braces renders as itself. */
  lemma RenderPlain(lit: string, org: string, repo: string)
    requires '{' !in lit && '}' !in lit
    ensures Render(lit, org, repo) == Some(lit)
  {
    RenderLiteral(lit, "", org, repo);
    assert lit + "" == lit;
  }

  /** `org_name, repo_name = repo_path.split("/")`, which needs exactly two parts. */
  function SplitOrgRepo(repoPath: string): Option<(string, string)> {
    var parts := Paths.Split(repoPath, '/');
    if |parts| == 2 then Some((parts[0], parts[1])) else None
  }

  /** The path splits into `(org, repo)` exactly when it is `org/repo` with no other
      separator. */
  lemma SplitOrgRepoSpec(repoPath: string, org: string, repo: string)
    ensures SplitOrgRepo(repoPath) == Some((org, repo)) <==>
      (repoPath == org + "/" + repo && '/' !in org && '/' !in repo)
  {
    if SplitOrgRepo(repoPath) == Some((org, repo)) {
      var parts := Paths.Split(repoPath, '/');
      Paths.JoinSplit(repoPath, '/');
      assert parts[1..] == [repo];
      assert Paths.Join(parts, '/') == org + ['/'] + repo;
    }
    if repoPath == org + "/" + repo && '/' !in org && '/' !in repo {
      assert repoPath == org + ['/'] + repo;
      Paths.SplitPrefix(org, repo, '/');
      Paths.SplitWithoutSep(repo, '/');
    }
  }

  /** The list comprehension of `_get_urls`: every mirror rendered in order; the first
      one that cannot be rendered raises. */
  function RenderAll(mirrors: seq<string>, org: string, repo: string): (r: Result<seq<string>, Error>)
    ensures r.Success? <==> forall i :: 0 <= i < |mirrors| ==> Render(mirrors[i], org, repo).Some?
    ensures r.Success? ==>
      && |r.value| == |mirrors|
      && forall i :: 0 <= i < |mirrors| ==> r.value[i] == Render(mirrors[i], org, repo).value
    ensures r.Failure? ==>
      exists i ::
        && 0 <= i < |mirrors| && Render(mirrors[i], org, repo).None?
        && r.error == MirrorFormatError(mirrors[i])
        && forall j :: 0 <= j < i ==> Render(mirrors[j], org, repo).Some?
    decreases |mirrors|
  {
    if |mirrors| == 0 then Success([])
    else match Render(mirrors[0], org, repo)
      case None => Failure(MirrorFormatError(mirrors[0]))
      case Some(url) =>
        match RenderAll(mirrors[1..], org, repo)
        case Failure(e) =>
          assert forall j :: 1 <= j < |mirrors| ==> mirrors[j] == mirrors[1..][j - 1];
          Failure(e)
        case Success(urls) =>
          assert forall j :: 1 <= j < |mirrors| ==> mirrors[j] == mirrors[1..][j - 1];
          Success([url] + urls)
  }

  /** `_get_urls`: explicit URLs verbatim; otherwise one URL per mirror template, in
      mirror order, which needs mirrors.json and an `org/repo` path. A template that
      `str.format` rejects raises its own error, not RepositoryInstantiationError. */
  function GetUrls(mirrors: Option<seq<string>>, repoPath: string, data: RepoData): (r: Result<seq<string>, Error>)
    ensures data.urls.Some? ==> r == Success(data.urls.value)
    ensures data.urls.None? && mirrors.None? ==>
      r == Failure(RepositoryInstantiationError(repoPath, NoUrlSource))
    ensures data.urls.None? && mirrors.Some? && SplitOrgRepo(repoPath).None? ==>
      r == Failure(RepositoryInstantiationError(repoPath, NotOrgRepoFormat))
    ensures data.urls.None? && mirrors.Some? && SplitOrgRepo(repoPath).Some? ==>
      var (org, repo) := SplitOrgRepo(repoPath).value;
      && (r.Success? <==> forall i :: 0 <= i < |mirrors.value| ==> Render(mirrors.value[i], org, repo).Some?)
      && (r.Success? ==>
            && |r.value| == |mirrors.value|
            && forall i :: 0 <= i < |mirrors.value| ==> r.value[i] == Render(mirrors.value[i], org, repo).value)
      && (r.Failure? ==>
            exists i ::
              && 0 <= i < |mirrors.value| && r.error == MirrorFormatError(mirrors.value[i])
              && Render(mirrors.value[i], org, repo).None?
              && forall j :: 0 <= j < i ==> Render(mirrors.value[j], org, repo).Some?)
  {
    if data.urls.Some? then Success(data.urls.value)
    else if mirrors.None? then Failure(RepositoryInstantiationError(repoPath, NoUrlSource))
    else match SplitOrgRepo(repoPath)
      case None => Failure(RepositoryInstantiationError(repoPath, NotOrgRepoFormat))
      case Some((org, repo)) => RenderAll(mirrors.value, org, repo)
  }

  /** A mirror template `<host>{org_name}/{repo_name}<suffix>`, such as
      `https://git.example.com/{org_name}/{repo_name}.git`, resolves the path
      `org/repo` to `<host>org/repo<suffix>`. */
  lemma GetUrlsFromMirror(host: string, suffix: string, org: string, repo: string)
    requires '{' !in host && '{' !in suffix && '}' !in host && '}' !in suffix
    requires '/' !in org && '/' !in repo
    ensures GetUrls(Some([host + OrgPlaceholder + "/" + RepoPlaceholder + suffix]), org + "/" + repo, RepoData(None, None))
         == Success([host + org + "/" + repo + suffix])
  {
    var t := host + OrgPlaceholder + "/" + RepoPlaceholder + suffix;
    SplitOrgRepoSpec(org + "/" + repo, org, repo);
    RenderMirror(host, "/", suffix, org, repo);
    var r := GetUrls(Some([t]), org + "/" + repo, RepoData(None, None));
    assert r.Success? && |r.value| == 1 && r.value[0] == host + org + "/" + repo + suffix;
    assert r.value == [host + org + "/" + repo + suffix];
  }

  /** Doubled braces are text: a mirror such as `{{org_name}}/{repo_name}` resolves
      `org/repo` to `{org_name}/repo`, the braces kept single and the name not
      substituted. */
  lemma GetUrlsEscapedBraces(a: string, b: string, org: string, repo: string)
    requires '{' !in a && '}' !in a && '{' !in b && '}' !in b
    requires '/' !in org && '/' !in repo
    ensures GetUrls(Some(["{{" + a + "}}" + b + RepoPlaceholder]), org + "/" + repo, RepoData(None, None))
         == Success(["{" + a + "}" + b + repo])
  {
    SplitOrgRepoSpec(org + "/" + repo, org, repo);
    RenderEscaped(a, b, org, repo);
    var r := GetUrls(Some(["{{" + a + "}}" + b + RepoPlaceholder]), org + "/" + repo, RepoData(None, None));
    assert r.Success? && |r.value| == 1 && r.value[0] == "{" + a + "}" + b + repo;
    assert r.value == [r.value[0]];
  }

  lemma RenderEscaped(a: string, b: string, org: string, repo: string)
    requires '{' !in a && '}' !in a && '{' !in b && '}' !in b
    ensures Render("{{" + a + "}}" + b + RepoPlaceholder, org, repo) == Some("{" + a + "}" + b + repo)
  {
    var t3 := "}}" + (b + RepoPlaceholder);
    var x := "}" + (b + repo);
    RenderEscapedTail(b, org, repo);
    assert Render(t3, org, repo) == Some(x);
    RenderLiteral(a, t3, org, repo);
    assert Render(a + t3, org, repo) == Some(a + x);
    RenderEscapedBraces(a + t3, org, repo);
    assert Render("{{" + (a + t3), org, repo) == Some("{" + (a + x));
    Regroup("{{", a, "}}", b, RepoPlaceholder);
    Regroup("{", a, "}", b, repo);
  }

  lemma RenderEscapedTail(b: string, org: string, repo: string)
    requires '{' !in b && '}' !in b
    ensures Render("}}" + (b + RepoPlaceholder), org, repo) == Some("}" + (b + repo))
  {
    RenderPlaceholderTail(b, org, repo);
    RenderEscapedBraces(b + RepoPlaceholder, org, repo);
  }

  lemma RenderPlaceholderTail(b: string, org: string, repo: string)
    requires '{' !in b && '}' !in b
    ensures Render(b + RepoPlaceholder, org, repo) == Some(b + repo)
  {
    RenderRepoPlaceholder("", org, repo);
    assert RepoPlaceholder + "" == RepoPlaceholder;
    RenderPlain("", org, repo);
    assert repo + "" == repo;
    RenderLiteral(b, RepoPlaceholder, org, repo);
  }

  /** An unknown field raises: the mirror `{org}/x` makes `_get_urls` fail with the
      format error, which is not a RepositoryInstantiationError. */
  lemma GetUrlsUnknownField(org: string, repo: string)
    requires '/' !in org && '/' !in repo
    ensures GetUrls(Some(["{org}/x"]), org + "/" + repo, RepoData(None, None))
         == Failure(MirrorFormatError("{org}/x"))
  {
    SplitOrgRepoSpec(org + "/" + repo, org, repo);
    assert "{org}/x" == "{" + "org" + "}" + "/x";
    RenderRejectsOtherField("org", "/x", org, repo);
  }

  // ---------------------------------------------------------------------------
  // Custom data (`_get_custom_data`)

  /** The repository's `custom` object overwritten key by key by the signed target's. */
  function GetCustomData(data: RepoData, target: Option<SignedTarget>): (r: JsonObject)
    ensures var own := data.custom.GetOr(map[]);
      && (target.None? || target.value.custom.None? ==> r == own)
      && (target.Some? && target.value.custom.Some? ==>
            && r.Keys == own.Keys + target.value.custom.value.Keys
            && (forall k :: k in target.value.custom.value ==> r[k] == target.value.custom.value[k])
            && (forall k :: k in own && k !in target.value.custom.value ==> r[k] == own[k]))
  {
    var own := data.custom.GetOr(map[]);
    if target.Some? && target.value.custom.Some? then own + target.value.custom.value else own
  }

  /** The merge example: `{"type": "html", "owner": "x"}` with the target's
      `{"type": "xml"}`. */
  lemma CustomDataExample()
    ensures GetCustomData(RepoData(None, Some(map["type" := JStr("html"), "owner" := JStr("x")])),
                          Some(SignedTarget(Some(map["type" := JStr("xml")]))))
         == map["type" := JStr("xml"), "owner" := JStr("x")]
  {
  }

  // ---------------------------------------------------------------------------
  // Class selection (`_determine_repo_class`)

  /** The `repo_classes` argument: nothing, one class for every path, or a mapping from
      paths (and optionally "default") to classes. */
  datatype ClassPolicy = NoClasses | SingleClass(cls: ClassName) | ClassMap(classes: map<string, ClassName>)

  function PolicyClasses(policy: ClassPolicy): set<ClassName> {
    match policy
    case NoClasses => {}
    case SingleClass(c) => {c}
    case ClassMap(m) => m.Values
  }

  function DetermineRepoClass(policy: ClassPolicy, path: string): (r: ClassName)
    ensures r == NamedGitRepository || r in PolicyClasses(policy)
    ensures policy.NoClasses? ==> r == NamedGitRepository
    ensures policy.SingleClass? ==> r == policy.cls
    ensures policy.ClassMap? && path in policy.classes ==> r == policy.classes[path]
    ensures policy.ClassMap? && path !in policy.classes && "default" in policy.classes ==>
      r == policy.classes["default"]
    ensures policy.ClassMap? && path !in policy.classes && "default" !in policy.classes ==>
      r == NamedGitRepository
  {
    match policy
    case NoClasses => NamedGitRepository
    case SingleClass(c) => c
    case ClassMap(m) =>
      if path in m then m[path]
      else if "default" in m then m["default"]
      else NamedGitRepository
  }

  // ---------------------------------------------------------------------------
  // Metadata files (`_get_json_file` and the `_load_*_json` wrappers)

  /** `_get_json_file`: a git failure and a decoding failure both become
      InvalidOrMissingMetadataError, told apart by their message. */
  function GetJsonFile<T>(read: Read<T>, file: string, commit: Commit): (r: Result<T, Error>)
    ensures r.Success? <==> read.Parsed?
    ensures r.Success? ==> r.value == read.doc
    ensures r.Failure? ==> r.error == InvalidOrMissingMetadataError(file, commit,
      if read.NotAvailable? then NotAvailableAtRevision else NotValidJson)
  {
    match read
    case NotAvailable => Failure(InvalidOrMissingMetadataError(file, commit, NotAvailableAtRevision))
    case InvalidJson => Failure(InvalidOrMissingMetadataError(file, commit, NotValidJson))
    case Parsed(d) => Success(d)
  }

  /** `_load_repositories_json` / `_load_dependencies_json`: a file that is not
      available is skipped (`None`), one that is not valid JSON raises. */
  function LoadSkippableJson<T>(read: Read<T>, file: string, commit: Commit): (r: Result<Option<T>, Error>)
    ensures read.NotAvailable? <==> r == Success(None)
    ensures read.InvalidJson? <==> r == Failure(InvalidOrMissingMetadataError(file, commit, NotValidJson))
    ensures read.Parsed? ==> r == Success(Some(read.doc))
  {
    match GetJsonFile(read, file, commit)
    case Success(d) => Success(Some(d))
    case Failure(e) => if e.failure == NotAvailableAtRevision then Success(None) else Failure(e)
  }

  /** `_load_mirrors_json`: the `mirrors` list, or `None` when the file cannot be read
      or has no such key. */
  function LoadMirrorsJson(read: Read<Option<seq<string>>>, commit: Commit): (r: Option<seq<string>>)
    ensures r.Some? <==> read.Parsed? && read.doc.Some?
    ensures r.Some? ==> r.value == read.doc.value
  {
    match GetJsonFile(read, MirrorsJsonPath, commit)
    case Success(doc) => doc
    case Failure(_) => None
  }

  /** `_load_hosts_json`: any failure is raised. */
  function LoadHostsJson(read: Read<HostsDecl>, commit: Commit): Result<HostsDecl, Error> {
    GetJsonFile(read, HostsJsonPath, commit)
  }

  // ---------------------------------------------------------------------------
  // Host assignment (`set_hosts_of_repo`)

  /** `name in host_data["auth_repos"]`: `None` when the key is missing or the value
      does not support `in` (KeyError / TypeError). */
  function Claims(hostData: JsonObject, name: string): Option<bool> {
    if AuthReposHostsKey in hostData then ContainsName(hostData[AuthReposHostsKey], name) else None
  }

  predicate Claimed(decl: HostsDecl, host: string, name: string) {
    host in decl && Claims(decl[host], name) == Some(true)
  }

  predicate Malformed(decl: HostsDecl, name: string) {
    exists host :: host in decl && Claims(decl[host], name).None?
  }

  /** The hosts of one declaration that claim `name`, each without `auth_repos`. */
  function ClaimedIn(decl: HostsDecl, name: string): (r: map<string, JsonObject>)
    ensures forall host :: host in r <==> Claimed(decl, host, name)
    ensures forall host :: host in r ==> host in decl && r[host] == decl[host] - {AuthReposHostsKey}
  {
    map host | host in decl && Claims(decl[host], name) == Some(true) :: decl[host] - {AuthReposHostsKey}
  }

  /** The hosts of repository `name` over the declarations in order; a later declaration
      of a host replaces an earlier one. */
  function HostsOf(name: string, decls: seq<HostsDecl>): Result<map<string, JsonObject>, Error>
    decreases |decls|
  {
    if |decls| == 0 then Success(map[])
    else
      var earlier :- HostsOf(name, decls[..|decls| - 1]);
      var last := decls[|decls| - 1];
      if Malformed(last, name) then Failure(HostsTypeError(name))
      else Success(earlier + ClaimedIn(last, name))
  }

  /** Host assignment fails exactly when some host's `auth_repos` is missing or not a
      container. */
  lemma {:induction false} HostsOfFails(name: string, decls: seq<HostsDecl>)
    ensures HostsOf(name, decls).Failure? <==> exists i :: 0 <= i < |decls| && Malformed(decls[i], name)
    ensures HostsOf(name, decls).Failure? ==> HostsOf(name, decls) == Failure(HostsTypeError(name))
    decreases |decls|
  {
    if |decls| > 0 {
      var n := |decls|;
      var init := decls[..n - 1];
      HostsOfFails(name, init);
      if exists i :: 0 <= i < n - 1 && Malformed(init[i], name) {
        var i :| 0 <= i < n - 1 && Malformed(init[i], name);
        assert decls[i] == init[i];
      }
      if exists i :: 0 <= i < n && Malformed(decls[i], name) {
        var i :| 0 <= i < n && Malformed(decls[i], name);
        if i < n - 1 {
          assert init[i] == decls[i];
        }
      }
    }
  }

  /** A host is assigned exactly when some declaration's host of that name claims the
      repository. */
  lemma {:induction false} HostsOfMembers(name: string, decls: seq<HostsDecl>, host: string)
    requires HostsOf(name, decls).Success?
    ensures host in HostsOf(name, decls).value <==> exists i :: 0 <= i < |decls| && Claimed(decls[i], host, name)
    decreases |decls|
  {
    if |decls| > 0 {
      var n := |decls|;
      var init := decls[..n - 1];
      HostsOfMembers(name, init, host);
      if exists i :: 0 <= i < n && Claimed(decls[i], host, name) {
        var i :| 0 <= i < n && Claimed(decls[i], host, name);
        if i < n - 1 { assert init[i] == decls[i]; }
      }
      if exists i :: 0 <= i < n - 1 && Claimed(init[i], host, name) {
        var i :| 0 <= i < n - 1 && Claimed(init[i], host, name);
        assert decls[i] == init[i];
      }
    }
  }

  /** An assigned host carries the data of the last declaration that claims the
      repository for it, without `auth_repos`. */
  lemma {:induction false} HostsOfLastWins(name: string, decls: seq<HostsDecl>, host: string)
    requires HostsOf(name, decls).Success?
    requires host in HostsOf(name, decls).value
    ensures exists i :: (0 <= i < |decls| && Claimed(decls[i], host, name)
      && HostsOf(name, decls).value[host] == decls[i][host] - {AuthReposHostsKey}
      && forall j :: i < j < |decls| ==> !Claimed(decls[j], host, name))
    decreases |decls|
  {
    var n := |decls|;
    var init := decls[..n - 1];
    var last := decls[n - 1];
    var hosts := HostsOf(name, decls).value;
    var earlier := HostsOf(name, init).value;
    assert hosts == earlier + ClaimedIn(last, name);
    if Claimed(last, host, name) {
      assert hosts[host] == last[host] - {AuthReposHostsKey};
    } else {
      assert host in earlier;
      HostsOfLastWins(name, init, host);
      var i :| 0 <= i < |init| && Claimed(init[i], host, name)
        && earlier[host] == init[i][host] - {AuthReposHostsKey}
        && forall j :: i < j < |init| ==> !Claimed(init[j], host, name);
      assert decls[i] == init[i];
      forall j | i < j < n ensures !Claimed(decls[j], host, name) {
        if j < n - 1 { assert decls[j] == init[j]; }
      }
    }
  }

  /** `set_hosts_of_repo`: collects the claiming hosts of every declaration in order,
      then assigns them to the repository. No claiming host assigns `{}` (the source
      only logs a warning). */
  method SetHostsOfRepo(repo: Repo, hosts: seq<HostsDecl>) returns (r: Result<Repo, Error>)
    ensures HostsOf(repo.name, hosts).Failure? ==> r == Failure(HostsOf(repo.name, hosts).error)
    ensures HostsOf(repo.name, hosts).Success? ==> r == Success(repo.(hosts := HostsOf(repo.name, hosts).value))
  {
    var hostsOfRepo: map<string, JsonObject> := map[];
    var i := 0;
    while i < |hosts|
      invariant 0 <= i <= |hosts|
      invariant HostsOf(repo.name, hosts[..i]) == Success(hostsOfRepo)
    {
      var hostsInfo := hosts[i];
      assert hosts[..i + 1][..i] == hosts[..i];
      if Malformed(hostsInfo, repo.name) {
        HostsOfFails(repo.name, hosts);
        assert hosts[i] == hostsInfo;
        return Failure(HostsTypeError(repo.name));
      }
      var pending := hostsInfo.Keys;
      var added: map<string, JsonObject> := map[];
      while pending != {}
        invariant pending <= hostsInfo.Keys
        invariant forall h :: h in added <==> h in hostsInfo.Keys - pending && Claimed(hostsInfo, h, repo.name)
        invariant forall h :: h in added ==> added[h] == hostsInfo[h] - {AuthReposHostsKey}
        decreases pending
      {
        var host :| host in pending;
        var hostData := hostsInfo[host];
        if Claims(hostData, repo.name) == Some(true) {
          added := added[host := hostData - {AuthReposHostsKey}];
        }
        pending := pending - {host};
      }
      assert added == ClaimedIn(hostsInfo, repo.name);
      hostsOfRepo := hostsOfRepo + added;
      i := i + 1;
    }
    assert hosts[..i] == hosts;
    r := Success(repo.(hosts := hostsOfRepo));
  }
}

=== FILE: repositories_db.dfy ===
/** The process-wide repository store of taf/repositoriesdb.py: two dictionaries,
    authentication repository path -> commit -> repository path -> handle, filled by
    `load_repositories` and `load_dependencies` and read by the accessors. Every method
    is proved to follow the functions of RepositoriesSpec. */
module RepositoriesDb {
  import opened Wrappers
  import opened JsonValues
  import opened RepoHelpers
  import opened RepositoriesSpec
  import Paths

  class RepositoryStore {
    /** `_repositories_dict`: target repositories. */
    var repositories: Db
    /** `_dependencies_dict`: included authentication repositories. */
    var dependencies: Db

    constructor()
      ensures repositories == map[] && dependencies == map[]
    {
      repositories := map[];
      dependencies := map[];
    }

    /** `clear_repositories_db`. */
    method ClearRepositories()
      modifies this
      ensures repositories == map[] && dependencies == old(dependencies)
    {
      repositories := map[];
    }

    /** `clear_dependencies_db`. */
    method ClearDependencies()
      modifies this
      ensures dependencies == map[] && repositories == old(repositories)
    {
      dependencies := map[];
    }

    /** `load_repositories`: returns the error it raised, if any. The entry of the
        authentication repository is created first; without commits and without HEAD
        nothing else happens. */
    method LoadRepositories(src: MetadataSource, repoClasses: ClassPolicy, factory: Option<Factory>,
                            instantiate: Instantiate, authPath: string, rootDir: Option<string>,
                            onlyLoadTargets: bool, commits: Option<seq<Commit>>, roles: Option<seq<string>>)
      returns (raised: Option<Error>)
      modifies this
      ensures unchanged(this`dependencies)
      ensures authPath in repositories && repositories == old(repositories)[authPath := repositories[authPath]]
      ensures ResolveCommits(src, authPath, commits).None? ==>
        raised.None? && repositories[authPath] == EntryOf(old(repositories), authPath)
      ensures ResolveCommits(src, authPath, commits).Some? ==>
        (repositories[authPath], raised) == LoadTargetCommits(
          src, TargetsLoadOf(authPath, repoClasses, factory, instantiate, rootDir, onlyLoadTargets, roles),
          ResolveCommits(src, authPath, commits).value, EntryOf(old(repositories), authPath))
    {
      ghost var before := repositories;
      if authPath !in repositories {
        repositories := repositories[authPath := map[]];
      } else {
        UpdateSame(repositories, authPath);
      }
      assert repositories == before[authPath := repositories[authPath]];
      var cs: seq<Commit>;
      if commits.None? {
        var head := src.headCommit(authPath);
        if head.None? {
          return None;
        }
        cs := [head.value];
      } else {
        cs := commits.value;
      }
      assert ResolveCommits(src, authPath, commits) == Some(cs);
      var load := EffectiveTargetsLoad(authPath, repoClasses, factory, instantiate, rootDir, onlyLoadTargets, roles);
      var loaded, error := LoadTargetCommitsLoop(src, load, cs, EntryOf(repositories, authPath));
      UpdateTwice(before, authPath, repositories[authPath], loaded);
      repositories := repositories[authPath := loaded];
      return error;
    }

    /** `load_dependencies`: returns the error it raised, if any. */
    method LoadDependencies(src: MetadataSource, authPath: string, authClass: Option<ClassName>, instantiate: Instantiate,
                            rootDir: Option<string>, commits: Option<seq<Commit>>,
                            ancestorHosts: Option<map<Commit, seq<HostsDecl>>>)
      returns (raised: Option<Error>)
      modifies this
      ensures unchanged(this`repositories)
      ensures authPath in dependencies && dependencies == old(dependencies)[authPath := dependencies[authPath]]
      ensures ResolveCommits(src, authPath, commits).None? ==>
        raised.None? && dependencies[authPath] == EntryOf(old(dependencies), authPath)
      ensures ResolveCommits(src, authPath, commits).Some? ==>
        (dependencies[authPath], raised) == LoadDependencyCommits(
          src, DependenciesLoadOf(authPath, authClass, instantiate, rootDir),
          ResolveCommits(src, authPath, commits).value, EntryOf(old(dependencies), authPath),
          InitialHosts(ancestorHosts))
    {
      ghost var before := dependencies;
      if authPath !in dependencies {
        dependencies := dependencies[authPath := map[]];
      } else {
        UpdateSame(dependencies, authPath);
      }
      assert dependencies == before[authPath := dependencies[authPath]];
      var cs: seq<Commit>;
      if commits.None? {
        var head := src.headCommit(authPath);
        if head.None? {
          return None;
        }
        cs := [head.value];
      } else {
        cs := commits.value;
      }
      assert ResolveCommits(src, authPath, commits) == Some(cs);
      // the seed of the host declarations, as corrected (see InitialHostsAsWritten)
      var hosts := InitialHosts(ancestorHosts);
      var load := EffectiveDependenciesLoad(authPath, authClass, instantiate, rootDir);
      var loaded, error := LoadDependencyCommitsLoop(src, load, cs, EntryOf(dependencies, authPath), hosts);
      UpdateTwice(before, authPath, dependencies[authPath], loaded);
      dependencies := dependencies[authPath := loaded];
      return error;
    }

    /** The defaulting of `load_repositories`' arguments: the grandparent of the
        authentication repository as root directory, `only_load_targets` forced by
        roles, a factory preferred over classes. */
    static method EffectiveTargetsLoad(authPath: string, repoClasses: ClassPolicy, factory: Option<Factory>,
                                       instantiate: Instantiate, rootDir: Option<string>, onlyLoadTargets: bool,
                                       roles: Option<seq<string>>)
      returns (load: TargetsLoad)
      ensures load == TargetsLoadOf(authPath, repoClasses, factory, instantiate, rootDir, onlyLoadTargets, roles)
    {
      var root := if rootDir.None? then DefaultRootDir(authPath) else rootDir.value;
      var only := onlyLoadTargets;
      if roles.Some? && |roles.value| > 0 {
        only := true;
      }
      var builder := if factory.Some? then UseFactory(factory.value) else UseClasses(repoClasses);
      load := TargetsLoad(authPath, builder, instantiate, root, only, roles);
    }

    /** The defaulting of `load_dependencies`' arguments. */
    static method EffectiveDependenciesLoad(authPath: string, authClass: Option<ClassName>, instantiate: Instantiate,
                                            rootDir: Option<string>)
      returns (load: DependenciesLoad)
      ensures load == DependenciesLoadOf(authPath, authClass, instantiate, rootDir)
    {
      var root := if rootDir.None? then DefaultRootDir(authPath) else rootDir.value;
      var cls := if authClass.None? then NamedAuthenticationRepo else authClass.value;
      load := DependenciesLoad(authPath, cls, instantiate, root);
    }

    /** `_get_repositories`: the map loaded for a commit (HEAD when none is given). */
    function GetRepositories(src: MetadataSource, authPath: string, commit: Option<Commit>, loadAuth: bool)
      : (r: Result<RepoMap, Error>)
      reads this
      ensures var db := if loadAuth then dependencies else repositories;
        var revision := RevisionOf(src, authPath, commit);
        && (r.Success? <==> authPath in db && revision.Some? && revision.value in db[authPath])
        && (r.Success? ==> r.value == db[authPath][revision.value])
        && (authPath !in db ==> r == Failure(RepositoriesNotLoaded(authPath)))
    {
      GetCommitMap(if loadAuth then dependencies else repositories, authPath, RevisionOf(src, authPath, commit))
    }

    /** `get_repository` / `get_auth_repository`: one handle, or none for an unknown path. */
    function GetRepository(src: MetadataSource, authPath: string, path: string, commit: Option<Commit>, loadAuth: bool)
      : (r: Result<Option<Repo>, Error>)
      reads this
      ensures GetRepositories(src, authPath, commit, loadAuth).Failure? <==> r.Failure?
      ensures r.Success? ==>
        (r.value.Some? <==> path in GetRepositories(src, authPath, commit, loadAuth).value)
      ensures r.Success? && r.value.Some? ==> r.value.value == GetRepositories(src, authPath, commit, loadAuth).value[path]
    {
      var repos :- GetRepositories(src, authPath, commit, loadAuth);
      Success(Lookup(repos, path))
    }

    /** `get_repositories_by_custom_data`. */
    function GetRepositoriesByCustomData(src: MetadataSource, authPath: string, commit: Option<Commit>, filter: JsonObject)
      : (r: Result<RepoMap, Error>)
      reads this
      ensures r.Success? ==> GetRepositories(src, authPath, commit, false).Success?
      ensures r.Success? ==> |r.value| > 0 && forall p :: p in r.value ==>
        p in GetRepositories(src, authPath, commit, false).value && MatchesCustom(filter, r.value[p].custom)
    {
      var repos :- GetRepositories(src, authPath, commit, false);
      FilterByCustomData(repos, filter)
    }

    /** `get_deduplicated_repositories` / `get_deduplicated_auth_repositories`: the maps
        of the given commits merged in order, later commits overwriting earlier ones. */
    method GetDeduplicated(authPath: string, commits: seq<Commit>, loadAuth: bool) returns (r: Result<RepoMap, Error>)
      ensures r == Deduplicated(if loadAuth then dependencies else repositories, authPath, commits)
    {
      var db := if loadAuth then dependencies else repositories;
      if authPath !in db {
        return Failure(RepositoriesNotLoaded(authPath));
      }
      var all := db[authPath];
      var merged: RepoMap := map[];
      var i := 0;
      while i < |commits|
        invariant 0 <= i <= |commits|
        invariant OverlayCommits(all, authPath, commits[..i]) == Success(merged)
        decreases |commits| - i
      {
        var c := commits[i];
        if c !in all {
          OverlayPrefixFails(all, authPath, commits, i);
          return Failure(RevisionNotLoaded(authPath, Some(c)));
        }
        var atCommit := all[c];
        var remaining := atCommit.Keys;
        ghost var earlier := merged;
        while remaining != {}
          invariant remaining <= atCommit.Keys
          invariant merged == earlier + map p | p in atCommit && p !in remaining :: atCommit[p]
          decreases remaining
        {
          var p :| p in remaining;
          merged := merged[p := atCommit[p]];
          remaining := remaining - {p};
        }
        assert merged == earlier + atCommit;
        assert commits[..i + 1][..i] == commits[..i];
        i := i + 1;
      }
      assert commits[..|commits|] == commits;
      return Success(merged);
    }

    /** `repositories_loaded`: some loaded commit holds a target repository. */
    predicate RepositoriesLoaded(authPath: string)
      reads this
      ensures RepositoriesLoaded(authPath) <==>
        exists c :: GetCommitMap(repositories, authPath, Some(c)).Success? && GetCommitMap(repositories, authPath, Some(c)).value != map[]
    {
      AnyRepositoriesLoadedIff(repositories, authPath);
      AnyRepositoriesLoaded(repositories, authPath)
    }
  }

  /** One new commit of `load_repositories`: its repositories.json, mirrors.json and
      signed targets, and the handles built from them. */
  method LoadTargetsAt(src: MetadataSource, load: TargetsLoad, commit: Commit) returns (loaded: RepoMap, error: Option<Error>)
    ensures (loaded, error) == LoadTargetsCommit(src, load, commit)
  {
    var read := LoadSkippableJson(src.repositoriesJson(load.authRepo, commit), RepositoriesJsonPath, commit);
    if read.Failure? {
      return map[], Some(read.error);
    }
    if read.value.None? {
      return map[], None;
    }
    var mirrors := LoadMirrorsJson(src.mirrorsJson(load.authRepo, commit), commit);
    var targets := src.signedTargets(load.authRepo, commit, load.roles);
    loaded, error := FillTargetsLoop(load, mirrors, targets, read.value.value);
  }

  /** The entry loop of `load_repositories` for one commit. */
  method FillTargetsLoop(load: TargetsLoad, mirrors: Option<seq<string>>, targets: map<string, SignedTarget>, entries: Entries)
    returns (loaded: RepoMap, error: Option<Error>)
    ensures (loaded, error) == FillTargets(load, mirrors, targets, entries, map[])
  {
    loaded := map[];
    var j := 0;
    while j < |entries|
      invariant 0 <= j <= |entries|
      invariant FillTargets(load, mirrors, targets, entries[j..], loaded) == FillTargets(load, mirrors, targets, entries, map[])
      decreases |entries| - j
    {
      var (path, data) := entries[j];
      assert entries[j..][0] == entries[j] && entries[j..][1..] == entries[j + 1..];
      var urls := GetUrls(mirrors, path, data);
      if urls.Failure? {
        return loaded, Some(urls.error);
      }
      if path !in targets && load.onlyLoadTargets {
        j := j + 1;
        continue;
      }
      var custom := GetCustomData(data, if path in targets then Some(targets[path]) else None);
      var built: Result<Option<Repo>, string>;
      match load.builder {
        case UseFactory(factory) =>
          built := factory(load.rootDir, path, urls.value, custom);
        case UseClasses(policy) =>
          var made := load.instantiate(DetermineRepoClass(policy, path), load.rootDir, path, urls.value, custom);
          built := if made.Success? then Success(Some(made.value)) else Failure(made.error);
      }
      if built.Failure? {
        return loaded, Some(RepositoryInstantiationError(Paths.JoinPath(load.rootDir, path), ConstructorRaised(built.error)));
      }
      // a falsy factory result is skipped
      if built.value.Some? {
        loaded := loaded[path := built.value.value];
      }
      j := j + 1;
    }
    assert entries[|entries|..] == [];
    error := None;
  }

  /** One new commit of `load_dependencies`. */
  method LoadDependenciesAt(src: MetadataSource, load: DependenciesLoad, inherited: seq<HostsDecl>, commit: Commit)
    returns (loaded: RepoMap, error: Option<Error>)
    ensures (loaded, error) == LoadDependenciesCommit(src, load, inherited, commit)
  {
    var read := LoadSkippableJson(src.dependenciesJson(load.authRepo, commit), DependenciesJsonPath, commit);
    if read.Failure? {
      return map[], Some(read.error);
    }
    if read.value.None? {
      return map[], None;
    }
    var mirrors := LoadMirrorsJson(src.mirrorsJson(load.authRepo, commit), commit);
    loaded, error := FillDependenciesLoop(src, load, inherited, commit, mirrors, read.value.value);
  }

  /** Storing a map's own value under a key changes nothing. */
  lemma UpdateSame<K, V>(m: map<K, V>, k: K)
    requires k in m
    ensures m[k := m[k]] == m
  {
  }

  /** A second store under the same key overrides the first. */
  lemma UpdateTwice<K, V>(m: map<K, V>, k: K, a: V, b: V)
    ensures m[k := a][k := b] == m[k := b]
  {
  }

  /** The entry loop of `load_dependencies` for one commit. */
  method FillDependenciesLoop(src: MetadataSource, load: DependenciesLoad, inherited: seq<HostsDecl>, commit: Commit,
                              mirrors: Option<seq<string>>, entries: Entries)
    returns (loaded: RepoMap, error: Option<Error>)
    ensures (loaded, error) == FillDependencies(src, load, inherited, commit, mirrors, entries, map[])
  {
    loaded := map[];
    var j := 0;
    while j < |entries|
      invariant 0 <= j <= |entries|
      invariant FillDependencies(src, load, inherited, commit, mirrors, entries[j..], loaded)
             == FillDependencies(src, load, inherited, commit, mirrors, entries, map[])
      decreases |entries| - j
    {
      var (path, data) := entries[j];
      assert entries[j..][0] == entries[j] && entries[j..][1..] == entries[j + 1..];
      var urls := GetUrls(mirrors, path, data);
      if urls.Failure? {
        if urls.error.RepositoryInstantiationError? {
          // the commit's map is cleared and the remaining entries are not visited
          return map[], None;
        }
        return loaded, Some(urls.error);
      }
      var made := load.instantiate(load.authClass, load.rootDir, path, urls.value, GetCustomData(data, None));
      if made.Failure? {
        return loaded, Some(RepositoryInstantiationError(Paths.JoinPath(load.rootDir, path), ConstructorRaised(made.error)));
      }
      var own := LoadHostsJson(src.hostsJson(made.value.path, commit), commit);
      if own.Failure? {
        return loaded, Some(own.error);
      }
      var withHosts := SetHostsOfRepo(made.value, inherited + [own.value]);
      if withHosts.Failure? {
        return loaded, Some(withHosts.error);
      }
      loaded := loaded[path := withHosts.value];
      j := j + 1;
    }
    assert entries[|entries|..] == [];
    error := None;
  }

  /** The commit loop of `load_repositories` on the entry of one authentication
      repository: a commit already present is skipped, a new one is registered and then
      filled. */
  method LoadTargetCommitsLoop(src: MetadataSource, load: TargetsLoad, cs: seq<Commit>, start: CommitMaps)
    returns (loaded: CommitMaps, error: Option<Error>)
    ensures (loaded, error) == LoadTargetCommits(src, load, cs, start)
  {
    loaded := start;
    var i := 0;
    while i < |cs|
      invariant 0 <= i <= |cs|
      invariant LoadTargetCommits(src, load, cs[i..], loaded) == LoadTargetCommits(src, load, cs, start)
      decreases |cs| - i
    {
      var commit := cs[i];
      assert cs[i..][0] == commit && cs[i..][1..] == cs[i + 1..];
      if commit !in loaded {
        // the commit's map is registered before anything is read and filled in place;
        // the registration is visible only through the map that replaces it here
        var before := loaded;
        var loadedHere, e := LoadTargetsAt(src, load, commit);
        loaded := before[commit := loadedHere];
        if e.Some? {
          return loaded, e;
        }
      }
      i := i + 1;
    }
    assert cs[|cs|..] == [];
    error := None;
  }

  /** The commit loop of `load_dependencies`: the commit's hosts.json is read (unless
      inherited) before the check for an already loaded commit. */
  method LoadDependencyCommitsLoop(src: MetadataSource, load: DependenciesLoad, cs: seq<Commit>, start: CommitMaps,
                                   initialHosts: map<Commit, seq<HostsDecl>>)
    returns (loaded: CommitMaps, error: Option<Error>)
    ensures (loaded, error) == LoadDependencyCommits(src, load, cs, start, initialHosts)
  {
    loaded := start;
    var hosts := initialHosts;
    var i := 0;
    while i < |cs|
      invariant 0 <= i <= |cs|
      invariant LoadDependencyCommits(src, load, cs[i..], loaded, hosts) == LoadDependencyCommits(src, load, cs, start, initialHosts)
      decreases |cs| - i
    {
      var commit := cs[i];
      assert cs[i..][0] == commit && cs[i..][1..] == cs[i + 1..];
      if commit !in hosts {
        var own := LoadHostsJson(src.hostsJson(load.authRepo, commit), commit);
        if own.Failure? {
          return loaded, Some(own.error);
        }
        hosts := hosts[commit := [own.value]];
      }
      if commit !in loaded {
        // the commit's map is registered before anything is read and filled in place;
        // the registration is visible only through the map that replaces it here
        var before := loaded;
        var loadedHere, e := LoadDependenciesAt(src, load, hosts[commit], commit);
        loaded := before[commit := loadedHere];
        if e.Some? {
          return loaded, e;
        }
      }
      i := i + 1;
    }
    assert cs[|cs|..] == [];
    error := None;
  }
}

=== FILE: repositories_spec.dfy ===
/** What the repository store of taf/repositoriesdb.py computes, as functions over
    values: the per-commit loading of repositories.json and dependencies.json, the
    newest-wins overlay of several commits, and the custom-data filters. The class in
    RepositoriesDb is proved to follow these definitions. */
module RepositoriesSpec {
  import opened Wrappers
  import opened JsonValues
  import opened RepoHelpers
  import Paths

  type RepoMap = map<string, Repo>
  /** commit -> (path -> handle), the store's entry for one authentication repository. */
  type CommitMaps = map<Commit, RepoMap>
  /** authentication repository path -> its entry. */
  type Db = map<string, CommitMaps>

  /** The `repositories` (or `dependencies`) object of a metadata file: (path, data)
      pairs in file order. */
  type Entries = seq<(string, RepoData)>

  /** A JSON object holds each key once. */
  predicate DistinctPaths(entries: Entries) {
    forall i, j :: 0 <= i < j < |entries| ==> entries[i].0 != entries[j].0
  }

  /** What git and the signed-metadata layer report, keyed by repository path and
      commit. */
  datatype MetadataSource = MetadataSource(
    headCommit: string -> Option<Commit>,
    repositoriesJson: (string, Commit) -> Read<Entries>,
    dependenciesJson: (string, Commit) -> Read<Entries>,
    mirrorsJson: (string, Commit) -> Read<Option<seq<string>>>,
    hostsJson: (string, Commit) -> Read<HostsDecl>,
    signedTargets: (string, Commit, Option<seq<string>>) -> map<string, SignedTarget>)

  /** Calling a repository class `cls(root_dir, path, urls, custom)`: the handle, or the
      message of the exception it raised. */
  type Instantiate = (ClassName, string, string, seq<string>, JsonObject) -> Result<Repo, string>
  /** Calling a user factory: it may also return a falsy value (`None`). */
  type Factory = (string, string, seq<string>, JsonObject) -> Result<Option<Repo>, string>

  datatype Builder = UseFactory(factory: Factory) | UseClasses(policy: ClassPolicy)

  /** The arguments of one `load_repositories` call, after defaulting. */
  datatype TargetsLoad = TargetsLoad(
    authRepo: string,
    builder: Builder,
    instantiate: Instantiate,
    rootDir: string,
    onlyLoadTargets: bool,
    roles: Option<seq<string>>)

  /** `Path(auth_repo.path).parent.parent`. */
  function DefaultRootDir(authPath: string): string {
    Paths.Parent(Paths.Parent(authPath))
  }

  /** The default root directory is the authentication repository's path without its
      last two components, however many separators and "." pieces it was written
      with. */
  lemma DefaultRootDirParts(authPath: string)
    ensures var parts := Paths.Parts(authPath);
      && Paths.Anchored(DefaultRootDir(authPath)) == Paths.Anchored(authPath)
      && Paths.Parts(DefaultRootDir(authPath)) == if |parts| < 2 then [] else parts[..|parts| - 2]
  {
    Paths.ParentParts(authPath);
    Paths.ParentParts(Paths.Parent(authPath));
    var parts := Paths.Parts(authPath);
    if |parts| >= 2 {
      assert parts[..|parts| - 1][..|parts| - 2] == parts[..|parts| - 2];
    }
  }

  /** A trailing separator does not change the default: `x/y/auth/` and `x/y/auth`
      both give `x`. */
  lemma DefaultRootDirTrailingSeparator(authPath: string)
    requires |authPath| > 0
    ensures DefaultRootDir(authPath + "/") == DefaultRootDir(authPath)
  {
    Paths.TrailingSeparatorParts(authPath);
  }

  /** A non-empty `roles` forces `only_load_targets`. */
  function EffectiveOnlyTargets(onlyLoadTargets: bool, roles: Option<seq<string>>): (r: bool)
    ensures roles.Some? && |roles.value| > 0 ==> r
    ensures !(roles.Some? && |roles.value| > 0) ==> r == onlyLoadTargets
  {
    onlyLoadTargets || (roles.Some? && |roles.value| > 0)
  }

  /** The commits to load: the given ones, or HEAD, or nothing when there is no HEAD. */
  function ResolveCommits(src: MetadataSource, authPath: string, commits: Option<seq<Commit>>): Option<seq<Commit>> {
    if commits.Some? then commits
    else match src.headCommit(authPath)
      case None => None
      case Some(head) => Some([head])
  }

  function Lookup<V>(m: map<string, V>, key: string): Option<V> {
    if key in m then Some(m[key]) else None
  }

  /** The entry of an authentication repository, `{}` when it has none yet. */
  function EntryOf(db: Db, authPath: string): CommitMaps {
    if authPath in db then db[authPath] else map[]
  }

  // ---------------------------------------------------------------------------
  // load_repositories

  datatype Step = Store(repo: Repo) | Skip | Raise(error: Error)

  /** Constructing a handle through the factory, or through the class the policy picks. */
  function Construct(load: TargetsLoad, path: string, urls: seq<string>, custom: JsonObject): Result<Option<Repo>, string> {
    match load.builder
    case UseFactory(f) => f(load.rootDir, path, urls, custom)
    case UseClasses(policy) =>
      match load.instantiate(DetermineRepoClass(policy, path), load.rootDir, path, urls, custom)
      case Success(h) => Success(Some(h))
      case Failure(msg) => Failure(msg)
  }

  /** One repositories.json entry: URLs are resolved before the targets filter, so a
      URL failure raises even for a path that would be skipped. */
  function TargetEntryStep(load: TargetsLoad, mirrors: Option<seq<string>>, targets: map<string, SignedTarget>,
                           path: string, data: RepoData): (s: Step)
    ensures GetUrls(mirrors, path, data).Failure? ==> s == Raise(GetUrls(mirrors, path, data).error)
    ensures GetUrls(mirrors, path, data).Success? && path !in targets && load.onlyLoadTargets ==> s == Skip
    ensures s.Store? ==> path in targets || !load.onlyLoadTargets
    ensures s.Store? ==> Construct(load, path, GetUrls(mirrors, path, data).value,
                                   GetCustomData(data, Lookup(targets, path))) == Success(Some(s.repo))
    ensures s.Raise? && GetUrls(mirrors, path, data).Success? ==>
      exists msg :: s.error == RepositoryInstantiationError(Paths.JoinPath(load.rootDir, path), ConstructorRaised(msg))
  {
    match GetUrls(mirrors, path, data)
    case Failure(e) => Raise(e)
    case Success(urls) =>
      if path !in targets && load.onlyLoadTargets then Skip
      else
        match Construct(load, path, urls, GetCustomData(data, Lookup(targets, path)))
        case Failure(msg) => Raise(RepositoryInstantiationError(Paths.JoinPath(load.rootDir, path), ConstructorRaised(msg)))
        case Success(None) => Skip
        case Success(Some(h)) => Store(h)
  }

  /** Filling one commit's map entry by entry; the first raising entry stops the fill
      and leaves what was stored before it. */
  function FillTargets(load: TargetsLoad, mirrors: Option<seq<string>>, targets: map<string, SignedTarget>,
                       entries: Entries, acc: RepoMap): (RepoMap, Option<Error>)
    decreases |entries|
  {
    if |entries| == 0 then (acc, None)
    else
      match TargetEntryStep(load, mirrors, targets, entries[0].0, entries[0].1)
      case Raise(e) => (acc, Some(e))
      case Skip => FillTargets(load, mirrors, targets, entries[1..], acc)
      case Store(h) => FillTargets(load, mirrors, targets, entries[1..], acc[entries[0].0 := h])
  }

  /** The map loaded for one new commit. A missing repositories.json leaves it empty; an
      invalid one raises with the (empty) entry already registered. */
  function LoadTargetsCommit(src: MetadataSource, load: TargetsLoad, commit: Commit): (r: (RepoMap, Option<Error>))
    ensures src.repositoriesJson(load.authRepo, commit).NotAvailable? ==> r == (map[], None)
    ensures src.repositoriesJson(load.authRepo, commit).InvalidJson? ==>
      r == (map[], Some(InvalidOrMissingMetadataError(RepositoriesJsonPath, commit, NotValidJson)))
  {
    match LoadSkippableJson(src.repositoriesJson(load.authRepo, commit), RepositoriesJsonPath, commit)
    case Failure(e) => (map[], Some(e))
    case Success(None) => (map[], None)
    case Success(Some(entries)) =>
      var mirrors := LoadMirrorsJson(src.mirrorsJson(load.authRepo, commit), commit);
      var targets := src.signedTargets(load.authRepo, commit, load.roles);
      FillTargets(load, mirrors, targets, entries, map[])
  }

  /** The commit loop of `load_repositories`: a commit already present is skipped; a new
      one is registered and filled; an error stops the loop. */
  function LoadTargetCommits(src: MetadataSource, load: TargetsLoad, commits: seq<Commit>, loaded: CommitMaps): (CommitMaps, Option<Error>)
    decreases |commits|
  {
    if |commits| == 0 then (loaded, None)
    else if commits[0] in loaded then LoadTargetCommits(src, load, commits[1..], loaded)
    else
      var (m, e) := LoadTargetsCommit(src, load, commits[0]);
      if e.Some? then (loaded[commits[0] := m], e)
      else LoadTargetCommits(src, load, commits[1..], loaded[commits[0] := m])
  }

  /** The effective `load_repositories` arguments: a factory takes precedence over the
      class policy, the root directory defaults to the grandparent of the
      authentication repository, and non-empty roles force `only_load_targets`. */
  function TargetsLoadOf(authPath: string, repoClasses: ClassPolicy, factory: Option<Factory>, instantiate: Instantiate,
                         rootDir: Option<string>, onlyLoadTargets: bool, roles: Option<seq<string>>): (load: TargetsLoad)
    ensures load.authRepo == authPath && load.roles == roles
    ensures factory.Some? ==> load.builder == UseFactory(factory.value)
    ensures factory.None? ==> load.builder == UseClasses(repoClasses)
    ensures rootDir.None? ==> load.rootDir == DefaultRootDir(authPath)
    ensures load.onlyLoadTargets == EffectiveOnlyTargets(onlyLoadTargets, roles)
  {
    TargetsLoad(authPath, if factory.Some? then UseFactory(factory.value) else UseClasses(repoClasses), instantiate,
                rootDir.GetOr(DefaultRootDir(authPath)), EffectiveOnlyTargets(onlyLoadTargets, roles), roles)
  }

  // --- properties of the fill

  /** Everything stored was declared, and only signed targets are stored when
      `only_load_targets` holds. */
  lemma {:induction false} FillTargetsStored(load: TargetsLoad, mirrors: Option<seq<string>>,
      targets: map<string, SignedTarget>, entries: Entries, acc: RepoMap, path: string)
    requires path in FillTargets(load, mirrors, targets, entries, acc).0
    ensures path in acc ||
      exists i :: 0 <= i < |entries| && entries[i].0 == path &&
        TargetEntryStep(load, mirrors, targets, path, entries[i].1).Store?
    ensures path !in acc ==> path in targets || !load.onlyLoadTargets
    decreases |entries|
  {
    if |entries| > 0 {
      var step := TargetEntryStep(load, mirrors, targets, entries[0].0, entries[0].1);
      var acc' := if step.Store? then acc[entries[0].0 := step.repo] else acc;
      if !step.Raise? {
        FillTargetsStored(load, mirrors, targets, entries[1..], acc', path);
        if path !in acc && path != entries[0].0 {
          var i :| 0 <= i < |entries[1..]| && entries[1..][i].0 == path &&
            TargetEntryStep(load, mirrors, targets, path, entries[1..][i].1).Store?;
          assert entries[i + 1] == entries[1..][i];
        }
      }
    }
  }

  /** Without an error, a declared path is stored exactly when its entry yields a
      handle, and the stored handle is that one. */
  lemma {:induction false} FillTargetsComplete(load: TargetsLoad, mirrors: Option<seq<string>>,
      targets: map<string, SignedTarget>, entries: Entries, acc: RepoMap, i: nat)
    requires DistinctPaths(entries)
    requires FillTargets(load, mirrors, targets, entries, acc).1.None?
    requires i < |entries|
    ensures var step := TargetEntryStep(load, mirrors, targets, entries[i].0, entries[i].1);
      var m := FillTargets(load, mirrors, targets, entries, acc).0;
      && (step.Store? ==> entries[i].0 in m && m[entries[i].0] == step.repo)
      && (step.Skip? && entries[i].0 !in acc ==> entries[i].0 !in m)
    decreases |entries|
  {
    var step0 := TargetEntryStep(load, mirrors, targets, entries[0].0, entries[0].1);
    var acc' := if step0.Store? then acc[entries[0].0 := step0.repo] else acc;
    assert DistinctPaths(entries[1..]);
    if i == 0 {
      FillTargetsUntouched(load, mirrors, targets, entries[1..], acc', entries[0].0);
    } else {
      assert entries[1..][i - 1] == entries[i];
      FillTargetsComplete(load, mirrors, targets, entries[1..], acc', i - 1);
    }
  }

  /** A path that no remaining entry declares keeps its value. */
  lemma {:induction false} FillTargetsUntouched(load: TargetsLoad, mirrors: Option<seq<string>>,
      targets: map<string, SignedTarget>, entries: Entries, acc: RepoMap, path: string)
    requires forall k :: 0 <= k < |entries| ==> entries[k].0 != path
    ensures var m := FillTargets(load, mirrors, targets, entries, acc).0;
      (path in m <==> path in acc) && (path in acc ==> m[path] == acc[path])
    decreases |entries|
  {
    if |entries| > 0 {
      var step := TargetEntryStep(load, mirrors, targets, entries[0].0, entries[0].1);
      var acc' := if step.Store? then acc[entries[0].0 := step.repo] else acc;
      FillTargetsUntouched(load, mirrors, targets, entries[1..], acc', path);
    }
  }

  /** An error comes from the first raising entry, and only entries before it were
      stored. */
  lemma {:induction false} FillTargetsError(load: TargetsLoad, mirrors: Option<seq<string>>,
      targets: map<string, SignedTarget>, entries: Entries, acc: RepoMap) returns (k: nat)
    requires FillTargets(load, mirrors, targets, entries, acc).1.Some?
    ensures k < |entries|
    ensures TargetEntryStep(load, mirrors, targets, entries[k].0, entries[k].1)
      == Raise(FillTargets(load, mirrors, targets, entries, acc).1.value)
    ensures forall j :: 0 <= j < k ==> !TargetEntryStep(load, mirrors, targets, entries[j].0, entries[j].1).Raise?
    ensures forall p :: p in FillTargets(load, mirrors, targets, entries, acc).0 ==>
      p in acc || exists j :: 0 <= j < k && entries[j].0 == p
    decreases |entries|
  {
    var step := TargetEntryStep(load, mirrors, targets, entries[0].0, entries[0].1);
    if step.Raise? {
      return 0;
    }
    var acc' := if step.Store? then acc[entries[0].0 := step.repo] else acc;
    var r := FillTargets(load, mirrors, targets, entries, acc);
    assert r == FillTargets(load, mirrors, targets, entries[1..], acc');
    var k' := FillTargetsError(load, mirrors, targets, entries[1..], acc');
    k := k' + 1;
    assert entries[k] == entries[1..][k'];
    forall j | 0 <= j < k
      ensures !TargetEntryStep(load, mirrors, targets, entries[j].0, entries[j].1).Raise?
    {
      if j > 0 { assert entries[j] == entries[1..][j - 1]; }
    }
    forall p | p in r.0 ensures p in acc || exists j :: 0 <= j < k && entries[j].0 == p {
      if p !in acc && p != entries[0].0 {
        var j :| 0 <= j < k' && entries[1..][j].0 == p;
        assert entries[j + 1] == entries[1..][j];
      }
    }
  }

  // --- properties of the commit loop

  /** Memoization: a commit already present keeps its map, and entries are only ever
      added. */
  lemma {:induction false} LoadTargetCommitsKeeps(src: MetadataSource, load: TargetsLoad, commits: seq<Commit>, loaded: CommitMaps)
    ensures var r := LoadTargetCommits(src, load, commits, loaded).0;
      && loaded.Keys <= r.Keys
      && (forall c :: c in loaded ==> r[c] == loaded[c])
      && (forall c :: c in r ==> c in loaded || c in commits)
    decreases |commits|
  {
    if |commits| > 0 {
      if commits[0] in loaded {
        LoadTargetCommitsKeeps(src, load, commits[1..], loaded);
      } else {
        var (m, e) := LoadTargetsCommit(src, load, commits[0]);
        if e.None? {
          LoadTargetCommitsKeeps(src, load, commits[1..], loaded[commits[0] := m]);
        }
      }
    }
  }

  /** A call that returns normally has registered every requested commit, and a new
      commit's map is exactly what loading that commit yields. */
  lemma {:induction false} LoadTargetCommitsRegisters(src: MetadataSource, load: TargetsLoad, commits: seq<Commit>,
                                                      loaded: CommitMaps, c: Commit)
    requires c in LoadTargetCommits(src, load, commits, loaded).0 && c !in loaded
    ensures LoadTargetCommits(src, load, commits, loaded).0[c] == LoadTargetsCommit(src, load, c).0
    decreases |commits|
  {
    var rest := commits[1..];
    if commits[0] in loaded {
      LoadTargetCommitsRegisters(src, load, rest, loaded, c);
    } else {
      var (m, e) := LoadTargetsCommit(src, load, commits[0]);
      var loaded' := loaded[commits[0] := m];
      if e.None? {
        if c == commits[0] {
          LoadTargetCommitsKeeps(src, load, rest, loaded');
        } else {
          LoadTargetCommitsRegisters(src, load, rest, loaded', c);
        }
      }
    }
  }

  lemma {:induction false} LoadTargetCommitsComplete(src: MetadataSource, load: TargetsLoad, commits: seq<Commit>, loaded: CommitMaps)
    requires LoadTargetCommits(src, load, commits, loaded).1.None?
    ensures forall c :: c in commits ==> c in LoadTargetCommits(src, load, commits, loaded).0
    decreases |commits|
  {
    if |commits| > 0 {
      var loaded' := if commits[0] in loaded then loaded else loaded[commits[0] := LoadTargetsCommit(src, load, commits[0]).0];
      LoadTargetCommitsComplete(src, load, commits[1..], loaded');
      LoadTargetCommitsKeeps(src, load, commits[1..], loaded');
      assert forall c :: c in commits ==> c == commits[0] || c in commits[1..];
    }
  }

  /** Loading commits that are all present already reads nothing and changes nothing,
      whatever the class policy, factory, root directory or roles. */
  lemma {:induction false} LoadTargetCommitsNoop(src: MetadataSource, load: TargetsLoad, commits: seq<Commit>, loaded: CommitMaps)
    requires forall c :: c in commits ==> c in loaded
    ensures LoadTargetCommits(src, load, commits, loaded) == (loaded, None)
    decreases |commits|
  {
    if |commits| > 0 {
      assert commits[0] in commits;
      assert forall c :: c in commits[1..] ==> c in commits;
      LoadTargetCommitsNoop(src, load, commits[1..], loaded);
    }
  }

  /** Idempotence: after a load that returned normally, loading the same commits again,
      with any other arguments, is a no-op. */
  lemma LoadTargetCommitsIdempotent(src: MetadataSource, first: TargetsLoad, second: TargetsLoad,
                                    commits: seq<Commit>, loaded: CommitMaps)
    requires LoadTargetCommits(src, first, commits, loaded).1.None?
    ensures var once := LoadTargetCommits(src, first, commits, loaded).0;
      LoadTargetCommits(src, second, commits, once) == (once, None)
  {
    LoadTargetCommitsComplete(src, first, commits, loaded);
    LoadTargetCommitsNoop(src, second, commits, LoadTargetCommits(src, first, commits, loaded).0);
  }

  /** With `only_load_targets` (or non-empty `roles`), every repository stored for a newly
      loaded commit is a signed target of the requested roles at that commit. */
  lemma LoadedRepositoriesAreTargets(src: MetadataSource, load: TargetsLoad, commits: seq<Commit>,
                                     loaded: CommitMaps, c: Commit, path: string)
    requires load.onlyLoadTargets
    requires c in LoadTargetCommits(src, load, commits, loaded).0 && c !in loaded
    requires path in LoadTargetCommits(src, load, commits, loaded).0[c]
    ensures path in src.signedTargets(load.authRepo, c, load.roles)
  {
    LoadTargetCommitsRegisters(src, load, commits, loaded, c);
    var read := LoadSkippableJson(src.repositoriesJson(load.authRepo, c), RepositoriesJsonPath, c);
    assert read.Success? && read.value.Some?;
    var mirrors := LoadMirrorsJson(src.mirrorsJson(load.authRepo, c), c);
    FillTargetsStored(load, mirrors, src.signedTargets(load.authRepo, c, load.roles), read.value.value, map[], path);
  }

  // ---------------------------------------------------------------------------
  // load_dependencies

  /** The arguments of one `load_dependencies` call, after defaulting. */
  datatype DependenciesLoad = DependenciesLoad(
    authRepo: string,
    authClass: ClassName,
    instantiate: Instantiate,
    rootDir: string)

  /** `auth_class or NamedAuthenticationRepo`. */
  function AuthClassOf(authClass: Option<ClassName>): ClassName {
    authClass.GetOr(NamedAuthenticationRepo)
  }

  /** `ancestor_hosts` seeds the per-commit host declarations; none means `{}` (the
      corrected reading of the `or` fallback, see `InitialHostsAsWritten`). */
  function InitialHosts(ancestorHosts: Option<map<Commit, seq<HostsDecl>>>): map<Commit, seq<HostsDecl>> {
    ancestorHosts.GetOr(map[])
  }

  datatype DependencyStep = DepStore(repo: Repo) | DepUrlFailed | DepRaise(error: Error)

  /** One dependencies.json entry: a RepositoryInstantiationError from the URL lookup is
      reported separately (it empties the commit's map), any other URL failure (a mirror
      template that does not format) is raised; otherwise the handle is built and gets
      the hosts declared for it by the inherited declarations followed by its own
      hosts.json at that commit. */
  function DependencyEntryStep(src: MetadataSource, load: DependenciesLoad, inherited: seq<HostsDecl>,
                               commit: Commit, mirrors: Option<seq<string>>, path: string, data: RepoData): (s: DependencyStep)
    ensures GetUrls(mirrors, path, data).Failure? && GetUrls(mirrors, path, data).error.RepositoryInstantiationError?
        <==> s.DepUrlFailed?
    ensures GetUrls(mirrors, path, data).Failure? && !GetUrls(mirrors, path, data).error.RepositoryInstantiationError?
        ==> s == DepRaise(GetUrls(mirrors, path, data).error)
    ensures s.DepStore? ==>
      exists h :: load.instantiate(load.authClass, load.rootDir, path, GetUrls(mirrors, path, data).value,
                                   GetCustomData(data, None)) == Success(h)
        && src.hostsJson(h.path, commit).Parsed?
        && HostsOf(h.name, inherited + [src.hostsJson(h.path, commit).doc]).Success?
        && s.repo == h.(hosts := HostsOf(h.name, inherited + [src.hostsJson(h.path, commit).doc]).value)
  {
    match GetUrls(mirrors, path, data)
    case Failure(RepositoryInstantiationError(_, _)) => DepUrlFailed
    case Failure(e) => DepRaise(e)
    case Success(urls) =>
      match load.instantiate(load.authClass, load.rootDir, path, urls, GetCustomData(data, None))
      case Failure(msg) => DepRaise(RepositoryInstantiationError(Paths.JoinPath(load.rootDir, path), ConstructorRaised(msg)))
      case Success(h) =>
        match LoadHostsJson(src.hostsJson(h.path, commit), commit)
        case Failure(e) => DepRaise(e)
        case Success(own) =>
          match HostsOf(h.name, HostsArgument(inherited, own))
          case Failure(e) => DepRaise(e)
          case Success(hosts) => DepStore(h.(hosts := hosts))
  }

  /** The raising cases of one entry after its URLs resolve: a constructor failure is
      a RepositoryInstantiationError at `root_dir/path`, and a hosts.json read or host
      assignment failure is raised as it is. */
  lemma DependencyEntryErrors(src: MetadataSource, load: DependenciesLoad, inherited: seq<HostsDecl>,
                              commit: Commit, mirrors: Option<seq<string>>, path: string, data: RepoData)
    ensures GetUrls(mirrors, path, data).Success? ==>
      var s := DependencyEntryStep(src, load, inherited, commit, mirrors, path, data);
      var made := load.instantiate(load.authClass, load.rootDir, path, GetUrls(mirrors, path, data).value,
                                   GetCustomData(data, None));
      && (made.Failure? ==>
            s == DepRaise(RepositoryInstantiationError(Paths.JoinPath(load.rootDir, path), ConstructorRaised(made.error))))
      && (made.Success? ==>
            var own := LoadHostsJson(src.hostsJson(made.value.path, commit), commit);
            && (own.Failure? ==> s == DepRaise(own.error))
            && (own.Success? && HostsOf(made.value.name, HostsArgument(inherited, own.value)).Failure? ==>
                  s == DepRaise(HostsOf(made.value.name, HostsArgument(inherited, own.value)).error)))
  {
  }

  /** Filling one commit's dependencies; a URL failure clears the map and ends the
      commit without an error. */
  function FillDependencies(src: MetadataSource, load: DependenciesLoad, inherited: seq<HostsDecl>, commit: Commit,
                            mirrors: Option<seq<string>>, entries: Entries, acc: RepoMap): (RepoMap, Option<Error>)
    decreases |entries|
  {
    if |entries| == 0 then (acc, None)
    else
      match DependencyEntryStep(src, load, inherited, commit, mirrors, entries[0].0, entries[0].1)
      case DepUrlFailed => (map[], None)
      case DepRaise(e) => (acc, Some(e))
      case DepStore(h) => FillDependencies(src, load, inherited, commit, mirrors, entries[1..], acc[entries[0].0 := h])
  }

  function LoadDependenciesCommit(src: MetadataSource, load: DependenciesLoad, inherited: seq<HostsDecl>,
                                  commit: Commit): (r: (RepoMap, Option<Error>))
    ensures src.dependenciesJson(load.authRepo, commit).NotAvailable? ==> r == (map[], None)
    ensures src.dependenciesJson(load.authRepo, commit).InvalidJson? ==>
      r == (map[], Some(InvalidOrMissingMetadataError(DependenciesJsonPath, commit, NotValidJson)))
  {
    match LoadSkippableJson(src.dependenciesJson(load.authRepo, commit), DependenciesJsonPath, commit)
    case Failure(e) => (map[], Some(e))
    case Success(None) => (map[], None)
    case Success(Some(entries)) =>
      var mirrors := LoadMirrorsJson(src.mirrorsJson(load.authRepo, commit), commit);
      FillDependencies(src, load, inherited, commit, mirrors, entries, map[])
  }

  /** The commit loop of `load_dependencies`. The commit's hosts.json is read (unless
      the ancestors supplied it) before the check for an already loaded commit. */
  function LoadDependencyCommits(src: MetadataSource, load: DependenciesLoad, commits: seq<Commit>,
                                 loaded: CommitMaps, hosts: map<Commit, seq<HostsDecl>>): (CommitMaps, Option<Error>)
    decreases |commits|
  {
    if |commits| == 0 then (loaded, None)
    else
      var c := commits[0];
      match SeedHosts(hosts, c, LoadHostsJson(src.hostsJson(load.authRepo, c), c))
      case Failure(e) => (loaded, Some(e))
      case Success(hosts') =>
        if c in loaded then LoadDependencyCommits(src, load, commits[1..], loaded, hosts')
        else
          var (m, e) := LoadDependenciesCommit(src, load, hosts'[c], c);
          if e.Some? then (loaded[c := m], e)
          else LoadDependencyCommits(src, load, commits[1..], loaded[c := m], hosts')
  }

  /** `if commit not in hosts: hosts[commit] = [hosts.json]`, with the read's failure
      raised. */
  function SeedHosts(hosts: map<Commit, seq<HostsDecl>>, commit: Commit, own: Result<HostsDecl, Error>)
    : (r: Result<map<Commit, seq<HostsDecl>>, Error>)
    ensures commit in hosts ==> r == Success(hosts)
    ensures r.Success? ==> commit in r.value && hosts.Keys <= r.value.Keys
  {
    if commit in hosts then Success(hosts)
    else match own
      case Failure(e) => Failure(e)
      case Success(decl) => Success(hosts[commit := [decl]])
  }

  /** The host declarations handed to `set_hosts_of_repo`: the inherited list followed by
      the repository's own hosts.json. */
  function HostsArgument(inherited: seq<HostsDecl>, own: HostsDecl): (r: seq<HostsDecl>)
    ensures PyAdd(PyList(inherited), PyList([own])) == Success(PyList(r))
  {
    inherited + [own]
  }

  /** A RepositoryInstantiationError from the URL lookup of any entry, with nothing
      raised before it, leaves the commit's map empty and lets the load go on. */
  lemma {:induction false} DependencyUrlFailureEmpties(src: MetadataSource, load: DependenciesLoad, inherited: seq<HostsDecl>,
      commit: Commit, mirrors: Option<seq<string>>, entries: Entries, acc: RepoMap, k: nat)
    requires k < |entries|
    requires GetUrls(mirrors, entries[k].0, entries[k].1).Failure?
    requires GetUrls(mirrors, entries[k].0, entries[k].1).error.RepositoryInstantiationError?
    requires forall j :: 0 <= j < k ==>
      DependencyEntryStep(src, load, inherited, commit, mirrors, entries[j].0, entries[j].1).DepStore?
    ensures FillDependencies(src, load, inherited, commit, mirrors, entries, acc) == (map[], None)
    decreases |entries|
  {
    if k > 0 {
      var h := DependencyEntryStep(src, load, inherited, commit, mirrors, entries[0].0, entries[0].1).repo;
      forall j | 0 <= j < k - 1
        ensures DependencyEntryStep(src, load, inherited, commit, mirrors, entries[1..][j].0, entries[1..][j].1).DepStore?
      {
        assert entries[1..][j] == entries[j + 1];
      }
      assert entries[1..][k - 1] == entries[k];
      DependencyUrlFailureEmpties(src, load, inherited, commit, mirrors, entries[1..], acc[entries[0].0 := h], k - 1);
    }
  }

  /** An error ending the commit is the error of the first entry that raises, and
      every earlier entry was stored. */
  lemma {:induction false} FillDependenciesError(src: MetadataSource, load: DependenciesLoad, inherited: seq<HostsDecl>,
      commit: Commit, mirrors: Option<seq<string>>, entries: Entries, acc: RepoMap) returns (k: nat)
    requires FillDependencies(src, load, inherited, commit, mirrors, entries, acc).1.Some?
    ensures k < |entries|
    ensures DependencyEntryStep(src, load, inherited, commit, mirrors, entries[k].0, entries[k].1)
      == DepRaise(FillDependencies(src, load, inherited, commit, mirrors, entries, acc).1.value)
    ensures forall j :: 0 <= j < k ==>
      DependencyEntryStep(src, load, inherited, commit, mirrors, entries[j].0, entries[j].1).DepStore?
    decreases |entries|
  {
    var step := DependencyEntryStep(src, load, inherited, commit, mirrors, entries[0].0, entries[0].1);
    if step.DepRaise? {
      return 0;
    }
    var acc' := acc[entries[0].0 := step.repo];
    var r := FillDependencies(src, load, inherited, commit, mirrors, entries, acc);
    assert r == FillDependencies(src, load, inherited, commit, mirrors, entries[1..], acc');
    var k' := FillDependenciesError(src, load, inherited, commit, mirrors, entries[1..], acc');
    k := k' + 1;
    assert entries[k] == entries[1..][k'];
    forall j | 0 <= j < k
      ensures DependencyEntryStep(src, load, inherited, commit, mirrors, entries[j].0, entries[j].1).DepStore?
    {
      if j > 0 { assert entries[j] == entries[1..][j - 1]; }
    }
  }

  /** Conversely, an entry that raises after stored entries ends the commit with its
      error, and the map keeps what it held. */
  lemma {:induction false} DependencyRaiseEndsCommit(src: MetadataSource, load: DependenciesLoad, inherited: seq<HostsDecl>,
      commit: Commit, mirrors: Option<seq<string>>, entries: Entries, acc: RepoMap, k: nat)
    requires k < |entries|
    requires DependencyEntryStep(src, load, inherited, commit, mirrors, entries[k].0, entries[k].1).DepRaise?
    requires forall j :: 0 <= j < k ==>
      DependencyEntryStep(src, load, inherited, commit, mirrors, entries[j].0, entries[j].1).DepStore?
    ensures FillDependencies(src, load, inherited, commit, mirrors, entries, acc).1
      == Some(DependencyEntryStep(src, load, inherited, commit, mirrors, entries[k].0, entries[k].1).error)
    ensures acc.Keys <= FillDependencies(src, load, inherited, commit, mirrors, entries, acc).0.Keys
    decreases |entries|
  {
    if k > 0 {
      var h := DependencyEntryStep(src, load, inherited, commit, mirrors, entries[0].0, entries[0].1).repo;
      forall j | 0 <= j < k - 1
        ensures DependencyEntryStep(src, load, inherited, commit, mirrors, entries[1..][j].0, entries[1..][j].1).DepStore?
      {
        assert entries[1..][j] == entries[j + 1];
      }
      assert entries[1..][k - 1] == entries[k];
      DependencyRaiseEndsCommit(src, load, inherited, commit, mirrors, entries[1..], acc[entries[0].0 := h], k - 1);
    }
  }

  /** The effective `load_dependencies` arguments. */
  function DependenciesLoadOf(authPath: string, authClass: Option<ClassName>, instantiate: Instantiate,
                              rootDir: Option<string>): (load: DependenciesLoad)
    ensures load.authRepo == authPath
    ensures authClass.None? ==> load.authClass == NamedAuthenticationRepo
    ensures rootDir.None? ==> load.rootDir == DefaultRootDir(authPath)
  {
    DependenciesLoad(authPath, AuthClassOf(authClass), instantiate, rootDir.GetOr(DefaultRootDir(authPath)))
  }

  /** Memoization of dependencies: a commit already present keeps its map. */
  lemma {:induction false} LoadDependencyCommitsKeeps(src: MetadataSource, load: DependenciesLoad, commits: seq<Commit>,
                                                      loaded: CommitMaps, hosts: map<Commit, seq<HostsDecl>>)
    ensures var r := LoadDependencyCommits(src, load, commits, loaded, hosts).0;
      && loaded.Keys <= r.Keys
      && (forall c :: c in loaded ==> r[c] == loaded[c])
      && (forall c :: c in r ==> c in loaded || c in commits)
    decreases |commits|
  {
    if |commits| > 0 {
      var c := commits[0];
      match SeedHosts(hosts, c, LoadHostsJson(src.hostsJson(load.authRepo, c), c))
      case Failure(e) =>
      case Success(hosts') =>
        if c in loaded {
          LoadDependencyCommitsKeeps(src, load, commits[1..], loaded, hosts');
        } else {
          var (m, e) := LoadDependenciesCommit(src, load, hosts'[c], c);
          if e.None? {
            LoadDependencyCommitsKeeps(src, load, commits[1..], loaded[c := m], hosts');
          }
        }
    }
  }

  /** Reloading an already loaded commit still reads its hosts.json first: when the
      ancestors do not supply it and it cannot be read, the reload raises. */
  lemma LoadDependencyReloadReadsHosts(src: MetadataSource, load: DependenciesLoad, loaded: CommitMaps,
                                       hosts: map<Commit, seq<HostsDecl>>, c: Commit)
    requires c in loaded && c !in hosts
    requires !src.hostsJson(load.authRepo, c).Parsed?
    ensures LoadDependencyCommits(src, load, [c], loaded, hosts).1.Some?
    ensures LoadDependencyCommits(src, load, [c], loaded, hosts).0 == loaded
  {
  }

  /** Reloading commits that are all present, with their hosts.json readable or
      supplied, is a no-op. */
  lemma {:induction false} LoadDependencyCommitsNoop(src: MetadataSource, load: DependenciesLoad, commits: seq<Commit>,
                                                     loaded: CommitMaps, hosts: map<Commit, seq<HostsDecl>>)
    requires forall c :: c in commits ==> c in loaded
    requires forall c :: c in commits ==> c in hosts || src.hostsJson(load.authRepo, c).Parsed?
    ensures LoadDependencyCommits(src, load, commits, loaded, hosts) == (loaded, None)
    decreases |commits|
  {
    if |commits| > 0 {
      var c := commits[0];
      assert c in commits;
      var hosts' := SeedHosts(hosts, c, LoadHostsJson(src.hostsJson(load.authRepo, c), c)).value;
      assert forall d :: d in commits[1..] ==> d in commits;
      LoadDependencyCommitsNoop(src, load, commits[1..], loaded, hosts');
    }
  }

  // ---------------------------------------------------------------------------
  // Two defects of load_dependencies as written, and the behaviour modelled instead

  /** The Python containers involved: `hosts` is a list when `ancestor_hosts` is None. */
  datatype HostsContainer = HostsList(items: seq<seq<HostsDecl>>) | HostsDict(entries: map<Commit, seq<HostsDecl>>)

  /** Line 85 as written: `dict(ancestor_hosts) if ancestor_hosts is not None else []`. */
  function InitialHostsAsWritten(ancestorHosts: Option<map<Commit, seq<HostsDecl>>>): HostsContainer {
    if ancestorHosts.Some? then HostsDict(ancestorHosts.value) else HostsList([])
  }

  /** Lines 88-89 as written. On a list, `commit in hosts` is false for a string and
      `hosts[commit] = ...` raises TypeError (after the hosts.json read). */
  function SeedHostsAsWritten(hosts: HostsContainer, commit: Commit, own: Result<HostsDecl, Error>)
    : Result<HostsContainer, Error>
  {
    match hosts
    case HostsDict(d) =>
      if commit in d then Success(hosts)
      else if own.Failure? then Failure(own.error)
      else Success(HostsDict(d[commit := [own.value]]))
    case HostsList(_) =>
      if own.Failure? then Failure(own.error) else Failure(HostsTypeError("list indices must be integers"))
  }

  /** Without `ancestor_hosts`, the first commit always raises, so nothing is loaded. */
  lemma SeedHostsAsWrittenFails(commit: Commit, own: Result<HostsDecl, Error>)
    ensures SeedHostsAsWritten(InitialHostsAsWritten(None), commit, own).Failure?
  {
  }

  /** The corrected seeding starts from `{}` and always records the commit's hosts.json. */
  lemma SeedHostsCorrected(commit: Commit, own: HostsDecl)
    ensures SeedHosts(InitialHosts(None), commit, Success(own)) == Success(map[commit := [own]])
  {
  }

  /** The Python values at line 134: a list of declarations and a single declaration. */
  datatype PyValue = PyList(decls: seq<HostsDecl>) | PyDict(decl: HostsDecl)

  /** Python's `+`: defined for two lists only. */
  function PyAdd(a: PyValue, b: PyValue): Result<PyValue, Error> {
    if a.PyList? && b.PyList? then Success(PyList(a.decls + b.decls))
    else Failure(HostsTypeError("can only concatenate list to list"))
  }

  /** Line 134 as written: `hosts[commit] + _load_hosts_json(...)`, a list plus a dict. */
  function HostsArgumentAsWritten(inherited: seq<HostsDecl>, own: HostsDecl): Result<PyValue, Error> {
    PyAdd(PyList(inherited), PyDict(own))
  }

  /** As written, every dependency that gets past URL resolution and construction
      raises TypeError, so no dependency is ever stored. */
  lemma HostsArgumentAsWrittenFails(inherited: seq<HostsDecl>, own: HostsDecl)
    ensures HostsArgumentAsWritten(inherited, own).Failure?
  {
  }

  /** The corrected argument lets a repository inherit hosts: a host claiming it in an
      ancestor's hosts.json and another claiming it in its own are both assigned. */
  lemma HostsFromAncestorAndOwn(name: string, ancestor: HostsDecl, own: HostsDecl, h1: string, h2: string)
    requires Claimed(ancestor, h1, name) && Claimed(own, h2, name)
    requires !Malformed(ancestor, name) && !Malformed(own, name)
    ensures HostsOf(name, HostsArgument([ancestor], own)).Success?
    ensures h1 in HostsOf(name, HostsArgument([ancestor], own)).value
    ensures h2 in HostsOf(name, HostsArgument([ancestor], own)).value
  {
    var decls := HostsArgument([ancestor], own);
    assert decls[0] == ancestor && decls[1] == own;
    HostsOfFails(name, decls);
    HostsOfMembers(name, decls, h1);
    HostsOfMembers(name, decls, h2);
  }

  // ---------------------------------------------------------------------------
  // Accessors

  /** `_get_repositories`: the map stored for one commit (HEAD when none is given). */
  function GetCommitMap(db: Db, authPath: string, revision: Option<Commit>): (r: Result<RepoMap, Error>)
    ensures authPath !in db ==> r == Failure(RepositoriesNotLoaded(authPath))
    ensures authPath in db && revision.Some? && revision.value in db[authPath] ==>
      r == Success(db[authPath][revision.value])
    ensures authPath in db && !(revision.Some? && revision.value in db[authPath]) ==>
      r == Failure(RevisionNotLoaded(authPath, revision))
  {
    if authPath !in db then Failure(RepositoriesNotLoaded(authPath))
    else if revision.Some? && revision.value in db[authPath] then Success(db[authPath][revision.value])
    else Failure(RevisionNotLoaded(authPath, revision))
  }

  /** The commit given, or HEAD. */
  function RevisionOf(src: MetadataSource, authPath: string, commit: Option<Commit>): Option<Commit> {
    if commit.Some? then commit else src.headCommit(authPath)
  }

  /** Every commit of a load that returned normally can be looked up afterwards. */
  lemma LoadedCommitIsFound(src: MetadataSource, load: TargetsLoad, commits: seq<Commit>, db: Db, c: Commit)
    requires LoadTargetCommits(src, load, commits, EntryOf(db, load.authRepo)).1.None?
    requires c in commits
    ensures var db' := db[load.authRepo := LoadTargetCommits(src, load, commits, EntryOf(db, load.authRepo)).0];
      GetCommitMap(db', load.authRepo, Some(c)).Success?
  {
    LoadTargetCommitsComplete(src, load, commits, EntryOf(db, load.authRepo));
  }

  /** `_get_deduplicated_target_or_auth_repositotries` on one entry: the maps of the
      commits overlaid left to right. */
  function OverlayCommits(loaded: CommitMaps, authPath: string, commits: seq<Commit>): Result<RepoMap, Error>
    decreases |commits|
  {
    if |commits| == 0 then Success(map[])
    else
      var earlier :- OverlayCommits(loaded, authPath, commits[..|commits| - 1]);
      var c := commits[|commits| - 1];
      if c !in loaded then Failure(RevisionNotLoaded(authPath, Some(c)))
      else Success(earlier + loaded[c])
  }

  function Deduplicated(db: Db, authPath: string, commits: seq<Commit>): Result<RepoMap, Error> {
    if authPath !in db then Failure(RepositoriesNotLoaded(authPath))
    else OverlayCommits(db[authPath], authPath, commits)
  }

  /** The first missing commit after a successful prefix decides the overlay's error. */
  lemma {:induction false} OverlayPrefixFails(loaded: CommitMaps, authPath: string, commits: seq<Commit>, i: nat)
    requires i < |commits| && commits[i] !in loaded
    requires OverlayCommits(loaded, authPath, commits[..i]).Success?
    ensures OverlayCommits(loaded, authPath, commits) == Failure(RevisionNotLoaded(authPath, Some(commits[i])))
    decreases |commits|
  {
    var n := |commits|;
    if i == n - 1 {
      assert commits[..n - 1] == commits[..i];
    } else {
      var init := commits[..n - 1];
      assert init[..i] == commits[..i];
      OverlayPrefixFails(loaded, authPath, init, i);
    }
  }

  /** The overlay fails exactly when some commit was never loaded, naming the first. */
  lemma {:induction false} OverlayFails(loaded: CommitMaps, authPath: string, commits: seq<Commit>)
    ensures OverlayCommits(loaded, authPath, commits).Failure? <==>
      exists i :: 0 <= i < |commits| && commits[i] !in loaded
    ensures OverlayCommits(loaded, authPath, commits).Failure? ==>
      exists k :: 0 <= k < |commits| && commits[k] !in loaded
        && (forall j :: 0 <= j < k ==> commits[j] in loaded)
        && OverlayCommits(loaded, authPath, commits).error == RevisionNotLoaded(authPath, Some(commits[k]))
    decreases |commits|
  {
    if |commits| > 0 {
      var n := |commits|;
      var init := commits[..n - 1];
      OverlayFails(loaded, authPath, init);
      if exists i :: 0 <= i < n - 1 && init[i] !in loaded {
        var i :| 0 <= i < n - 1 && init[i] !in loaded;
        assert commits[i] == init[i];
        var k :| 0 <= k < |init| && init[k] !in loaded
          && (forall j :: 0 <= j < k ==> init[j] in loaded)
          && OverlayCommits(loaded, authPath, init).error == RevisionNotLoaded(authPath, Some(init[k]));
        assert commits[k] == init[k];
        forall j | 0 <= j < k ensures commits[j] in loaded { assert commits[j] == init[j]; }
      } else {
        forall j | 0 <= j < n - 1 ensures commits[j] in loaded { assert commits[j] == init[j]; }
      }
    }
  }

  /** The overlay holds every path of every commit, each with its value at the last
      commit that has it: later commits win. */
  lemma {:induction false} OverlayLatestWins(loaded: CommitMaps, authPath: string, commits: seq<Commit>, path: string)
    requires forall i :: 0 <= i < |commits| ==> commits[i] in loaded
    ensures OverlayCommits(loaded, authPath, commits).Success?
    ensures var m := OverlayCommits(loaded, authPath, commits).value;
      && (path in m <==> exists i :: 0 <= i < |commits| && path in loaded[commits[i]])
      && (path in m ==> exists i :: (0 <= i < |commits| && path in loaded[commits[i]]
            && m[path] == loaded[commits[i]][path]
            && forall j :: i < j < |commits| ==> path !in loaded[commits[j]]))
    decreases |commits|
  {
    if |commits| > 0 {
      var n := |commits|;
      var init := commits[..n - 1];
      var c := commits[n - 1];
      OverlayFails(loaded, authPath, commits);
      forall i | 0 <= i < n - 1 ensures init[i] in loaded { assert commits[i] == init[i]; }
      OverlayLatestWins(loaded, authPath, init, path);
      var earlier := OverlayCommits(loaded, authPath, init).value;
      var m := OverlayCommits(loaded, authPath, commits).value;
      assert m == earlier + loaded[c];
      forall i | 0 <= i < n - 1 ensures commits[i] == init[i] { }
      if path in loaded[c] {
        assert m[path] == loaded[c][path];
      } else if path in earlier {
        var i :| 0 <= i < n - 1 && path in loaded[init[i]] && earlier[path] == loaded[init[i]][path]
          && forall j :: i < j < n - 1 ==> path !in loaded[init[j]];
        forall j | i < j < n ensures path !in loaded[commits[j]] {
          if j < n - 1 { assert commits[j] == init[j]; }
        }
      }
      if exists i :: 0 <= i < n - 1 && path in loaded[init[i]] {
        var i :| 0 <= i < n - 1 && path in loaded[init[i]];
        assert commits[i] == init[i];
      }
    }
  }

  // ---------------------------------------------------------------------------
  // Custom-data filters

  /** `filter.items() <= custom.items()`. */
  predicate MatchesCustom(filter: JsonObject, custom: JsonObject) {
    forall k :: k in filter ==> k in custom && custom[k] == filter[k]
  }

  /** `get_repositories_by_custom_data` after the lookup: the repositories whose custom
      data contains the filter (all of them for an empty filter); none is an error. */
  function FilterByCustomData(repos: RepoMap, filter: JsonObject): (r: Result<RepoMap, Error>)
    ensures r.Success? ==> forall p :: p in r.value <==> p in repos && MatchesCustom(filter, repos[p].custom)
    ensures r.Success? ==> forall p :: p in r.value ==> r.value[p] == repos[p]
    ensures r.Failure? <==> forall p :: p in repos ==> !MatchesCustom(filter, repos[p].custom)
    ensures r.Failure? ==> r.error == NoRepositoriesMatch(filter)
  {
    var found := if |filter| == 0 then repos
                 else map p | p in repos && MatchesCustom(filter, repos[p].custom) :: repos[p];
    assert forall p :: p in repos && MatchesCustom(filter, repos[p].custom) ==> p in found;
    if found == map[] then Failure(NoRepositoriesMatch(filter))
    else
      assert exists p :: p in found;
      Success(found)
  }

  /** The paths of repositories.json whose merged custom data contains the filter. */
  function MatchingPaths(entries: Entries, targets: map<string, SignedTarget>, filter: JsonObject): (r: seq<string>)
    ensures |r| <= |entries|
    ensures forall p :: p in r <==>
      exists i :: 0 <= i < |entries| && entries[i].0 == p &&
        MatchesCustom(filter, GetCustomData(entries[i].1, Lookup(targets, p)))
    decreases |entries|
  {
    if |entries| == 0 then []
    else
      var rest := MatchingPaths(entries[1..], targets, filter);
      assert forall i :: 1 <= i < |entries| ==> entries[i] == entries[1..][i - 1];
      assert forall i :: 0 <= i < |entries[1..]| ==> entries[1..][i] == entries[i + 1];
      var (p, data) := entries[0];
      if MatchesCustom(filter, GetCustomData(data, Lookup(targets, p))) then [p] + rest else rest
  }

  function AllPaths(entries: Entries): (r: seq<string>)
    ensures |r| == |entries| && forall i :: 0 <= i < |entries| ==> r[i] == entries[i].0
  {
    seq(|entries|, i requires 0 <= i < |entries| => entries[i].0)
  }

  /** The commit `get_repositories_paths_by_custom_data` reads: the one given unless it
      is missing or empty, else HEAD. */
  function PathsRevision(src: MetadataSource, authPath: string, commit: Option<Commit>): Option<Commit> {
    if commit.None? || commit.value == "" then src.headCommit(authPath) else commit
  }

  /** `get_repositories_paths_by_custom_data`: reads repositories.json directly (its
      failures raise as git or JSON errors) and filters its paths. */
  function PathsByCustomData(src: MetadataSource, authPath: string, commit: Option<Commit>, filter: JsonObject)
    : (r: Result<seq<string>, Error>)
    ensures PathsRevision(src, authPath, commit).None? ==>
      r == Failure(GitReadError(RepositoriesJsonPath, None, NotAvailableAtRevision))
    ensures PathsRevision(src, authPath, commit).Some? ==>
      var c := PathsRevision(src, authPath, commit).value;
      match src.repositoriesJson(authPath, c)
      case NotAvailable => r == Failure(GitReadError(RepositoriesJsonPath, Some(c), NotAvailableAtRevision))
      case InvalidJson => r == Failure(GitReadError(RepositoriesJsonPath, Some(c), NotValidJson))
      case Parsed(entries) =>
        && (r.Success? ==> |r.value| > 0)
        && (r.Failure? ==> r.error == NoRepositoriesMatch(filter))
        && (|filter| == 0 ==> (r.Success? <==> |entries| > 0) && (r.Success? ==> r.value == AllPaths(entries)))
        && (|filter| > 0 ==> forall p ::
              (r.Success? && p in r.value) <==>
                exists i :: 0 <= i < |entries| && entries[i].0 == p &&
                  MatchesCustom(filter, GetCustomData(entries[i].1, Lookup(src.signedTargets(authPath, c, None), p))))
  {
    match PathsRevision(src, authPath, commit)
    case None => Failure(GitReadError(RepositoriesJsonPath, None, NotAvailableAtRevision))
    case Some(c) =>
      match src.repositoriesJson(authPath, c)
      case NotAvailable => Failure(GitReadError(RepositoriesJsonPath, Some(c), NotAvailableAtRevision))
      case InvalidJson => Failure(GitReadError(RepositoriesJsonPath, Some(c), NotValidJson))
      case Parsed(entries) =>
        var targets := src.signedTargets(authPath, c, None);
        var paths := if |filter| > 0 then MatchingPaths(entries, targets, filter) else AllPaths(entries);
        if |paths| == 0 then Failure(NoRepositoriesMatch(filter)) else Success(paths)
  }

  // ---------------------------------------------------------------------------
  // repositories_loaded

  predicate AnyRepositoriesLoaded(db: Db, authPath: string) {
    authPath in db && exists c :: c in db[authPath] && db[authPath][c] != map[]
  }

  /** Repositories are loaded exactly when the per-commit accessor returns a non-empty
      map for some commit. */
  lemma AnyRepositoriesLoadedIff(db: Db, authPath: string)
    ensures AnyRepositoriesLoaded(db, authPath) <==>
      exists c :: GetCommitMap(db, authPath, Some(c)).Success? && GetCommitMap(db, authPath, Some(c)).value != map[]
  {
    if AnyRepositoriesLoaded(db, authPath) {
      var c :| c in db[authPath] && db[authPath][c] != map[];
      assert GetCommitMap(db, authPath, Some(c)).Success?;
    }
  }

  /** Loading never un-loads: once some commit holds a repository, it still does after
      any further load. */
  lemma LoadKeepsRepositoriesLoaded(src: MetadataSource, load: TargetsLoad, commits: seq<Commit>, db: Db)
    requires AnyRepositoriesLoaded(db, load.authRepo)
    ensures AnyRepositoriesLoaded(db[load.authRepo := LoadTargetCommits(src, load, commits, db[load.authRepo]).0], load.authRepo)
  {
    var c :| c in db[load.authRepo] && db[load.authRepo][c] != map[];
    LoadTargetCommitsKeeps(src, load, commits, db[load.authRepo]);
  }
}

=== FILE: sorting.dfy ===
/** Python's `sorted` on a list of strings: code-point lexicographic order. */
module Sorting {

  /** `a <= b` on Python strings. */
  predicate LessEq(a: string, b: string)
    decreases |a|
  {
    if |a| == 0 then true
    else if |b| == 0 then false
    else if a[0] != b[0] then a[0] < b[0]
    else LessEq(a[1..], b[1..])
  }

  lemma {:induction false} LessEqReflexive(a: string)
    ensures LessEq(a, a)
    decreases |a|
  {
    if |a| > 0 {
      LessEqReflexive(a[1..]);
    }
  }

  lemma {:induction false} LessEqTotal(a: string, b: string)
    ensures LessEq(a, b) || LessEq(b, a)
    decreases |a|
  {
    if |a| > 0 && |b| > 0 && a[0] == b[0] {
      LessEqTotal(a[1..], b[1..]);
    }
  }

  lemma {:induction false} LessEqTransitive(a: string, b: string, c: string)
    requires LessEq(a, b) && LessEq(b, c)
    ensures LessEq(a, c)
    decreases |a|
  {
    if |a| > 0 && |b| > 0 && |c| > 0 && a[0] == b[0] && b[0] == c[0] {
      LessEqTransitive(a[1..], b[1..], c[1..]);
    }
  }

  lemma {:induction false} LessEqAntisymmetric(a: string, b: string)
    requires LessEq(a, b) && LessEq(b, a)
    ensures a == b
    decreases |a|
  {
    if |a| > 0 {
      LessEqAntisymmetric(a[1..], b[1..]);
      assert a == [a[0]] + a[1..] && b == [b[0]] + b[1..];
    }
  }

  predicate Sorted(s: seq<string>) {
    forall i, j :: 0 <= i < j < |s| ==> LessEq(s[i], s[j])
  }

  /** Inserts `x` before the first element it does not exceed. */
  function Insert(x: string, s: seq<string>): (r: seq<string>)
    ensures multiset(r) == multiset(s) + multiset{x}
    decreases |s|
  {
    if |s| == 0 || LessEq(x, s[0]) then [x] + s
    else
      assert s == [s[0]] + s[1..];
      [s[0]] + Insert(x, s[1..])
  }

  function Sort(s: seq<string>): (r: seq<string>)
    decreases |s|
  {
    if |s| == 0 then [] else Insert(s[0], Sort(s[1..]))
  }

  lemma {:induction false} InsertSorted(x: string, s: seq<string>)
    requires Sorted(s)
    ensures Sorted(Insert(x, s))
    decreases |s|
  {
    if |s| == 0 || LessEq(x, s[0]) {
      var r := [x] + s;
      forall i, j | 0 <= i < j < |r| ensures LessEq(r[i], r[j]) {
        if i == 0 && j > 1 {
          LessEqTransitive(x, s[0], s[j - 1]);
        }
      }
    } else {
      LessEqTotal(x, s[0]);
      assert Sorted(s[1..]);
      InsertSorted(x, s[1..]);
      var t := Insert(x, s[1..]);
      var r := [s[0]] + t;
      forall j | 0 <= j < |t| ensures LessEq(s[0], t[j]) {
        assert t[j] in multiset(t);
        assert t[j] in multiset(s[1..]) || t[j] == x;
        if t[j] != x {
          var k :| 0 <= k < |s[1..]| && s[1..][k] == t[j];
          assert s[k + 1] == t[j];
        }
      }
      forall i, j | 0 <= i < j < |r| ensures LessEq(r[i], r[j]) {
        if i == 0 {
          assert r[j] == t[j - 1];
        } else {
          assert r[i] == t[i - 1] && r[j] == t[j - 1];
        }
      }
    }
  }

  /** `sorted(s)` is ordered and holds exactly the elements of `s`. */
  lemma {:induction false} SortSpec(s: seq<string>)
    ensures Sorted(Sort(s))
    ensures multiset(Sort(s)) == multiset(s)
    decreases |s|
  {
    if |s| > 0 {
      SortSpec(s[1..]);
      InsertSorted(s[0], Sort(s[1..]));
      assert s == [s[0]] + s[1..];
    }
  }

  lemma SortedHeadIsLeast(a: seq<string>, x: string)
    requires Sorted(a) && x in multiset(a)
    ensures LessEq(a[0], x)
  {
    var i :| 0 <= i < |a| && a[i] == x;
    if i == 0 { LessEqReflexive(x); }
  }

  /** Two sorted lists with the same elements are the same list, so the order in
      which the files were listed does not matter. */
  lemma {:induction false} SortedUnique(a: seq<string>, b: seq<string>)
    requires Sorted(a) && Sorted(b)
    requires multiset(a) == multiset(b)
    ensures a == b
    decreases |a|
  {
    assert |b| == |a| by { assert |multiset(a)| == |multiset(b)|; }
    if |a| > 0 {
      SortedHeadIsLeast(a, b[0]);
      SortedHeadIsLeast(b, a[0]);
      LessEqAntisymmetric(a[0], b[0]);
      TailMultiset(a);
      TailMultiset(b);
      assert Sorted(a[1..]) && Sorted(b[1..]);
      SortedUnique(a[1..], b[1..]);
      assert a == [a[0]] + a[1..] && b == [b[0]] + b[1..];
    }
  }

  lemma TailMultiset(a: seq<string>)
    requires |a| > 0
    ensures multiset(a[1..]) == multiset(a) - multiset{a[0]}
  {
    assert a == [a[0]] + a[1..];
  }
}

=== FILE: wrappers.dfy ===
/** Optional values and results carrying an error, standing in for Python's `None`
    and for raised exceptions. */
module Wrappers {

  datatype Option<+T> = None | Some(value: T) {
    function GetOr(default: T): T {
      match this
      case Some(v) => v
      case None => default
    }
  }

  datatype Result<+T, +E> = Success(value: T) | Failure(error: E) {
    predicate IsFailure() {
      Failure?
    }

    function PropagateFailure<U>(): Result<U, E>
      requires Failure?
    {
      Failure(error)
    }

    function Extract(): T
      requires Success?
    {
      value
    }
  }
}
